=== FILE: README.md ===
# esctl, modelled in Dafny

esctl is a command-line client for Elasticsearch. Most of its commands
fetch a JSON document from the cluster, pass it through a small pure
transform and render the result as a table with cliff. This project models
those transforms and the helpers they share, and proves what they promise.

The model covers:

- the JSON-to-table formatter: column labels derived from ids, the
  projection of documents onto columns, and the one-document view;
- the colour helper, `flatten_dict` and the key-ordered dictionary of the
  command base class;
- the cluster and index settings resolvers, including `fnmatch` globbing;
- the configuration file: the default file, the loaded blocks and context
  resolution; and the application's scheme detection, verbosity map and
  HTTP credentials decision;
- the transforms, column lists and request bodies of these
  commands: `cat allocation/plugins/thread-pool`, `cluster
  allocation-explain/health/stats/routing-allocation`, `index list`,
  `node exclude/list`, `snapshot list`, `task list`, `migration
  deprecations`, `cluster settings get/set/reset`, `logging get/set/reset`,
  `config cluster/context/user list`, `config context set`, and `security
  users/roles get`.

JSON values are the datatype `Json.Json`. Objects are ordered association
lists (module `Assoc`), because Python dictionaries keep insertion order
and the tests compare output order: assigning to a key that is present
keeps its position. A Python exception is a `Results.PyError` inside a
failed `Result`. The cluster's responses, the table-formatter switch and the
timestamp conversion are parameters of the functions that use them.

Six modules, `Results`, `Assoc`, `Json`, `Text`, `Ordering` and `Glob`,
are shared foundations with no source file of their own: results and
Python errors, ordered dictionaries, JSON values with the Python
built-ins applied to them, string helpers, sorting, and `fnmatch`. Every
other module follows one source file: `Utils` (esctl/utils.py),
`Commands` (esctl/commands.py), `Formatter` (esctl/formatter.py),
`Settings` (esctl/settings.py), `Config` (esctl/config.py), `App`
(esctl/main.py), and one module per file of esctl/cmd/.

## Model

| member | source | states |
|---|---|---|
| Results.MapResult | esctl/cmd/index.py:53-61 | a loop that builds a list and may raise returns one result per element when it completes |
| Results.MapResultAt | esctl/cmd/index.py:53-61 | the loop completes exactly when every step does, and then each element's result sits at the element's position |
| Results.MapResultFirstError | esctl/cmd/index.py:53-61 | a failing loop raises the exception of its first failing step, and every step before it succeeded |
| Results.MapResultIdentity | esctl/cmd/index.py:53-63 | a loop whose every step keeps its element returns the list unchanged |
| Assoc.Keys | esctl/cmd/cluster.py:54 | `d.keys()` lists one key per pair, in insertion order |
| Assoc.Lookup | esctl/formatter.py:119 | `d.get(k)` finds a value exactly when `k` is a key, and the value found is paired with `k` |
| Assoc.LookupDistinct | esctl/formatter.py:119 | in a dictionary, `k` reads `v` exactly when the pair `(k, v)` is held |
| Assoc.Put | esctl/cmd/snapshot.py:31-33 | `d[k] = v` keeps an existing key in its place and appends a new one; a dictionary stays a dictionary |
| Assoc.PutAt | esctl/cmd/snapshot.py:31-33 | overwriting a present key replaces its pair where it stands |
| Assoc.PutLookup | esctl/cmd/snapshot.py:31-33 | after `d[k] = v`, `k` reads `v` and every other key reads as before |
| Assoc.PutKeepsPrefix | esctl/cmd/task.py:48-57 | assigning a key keeps every leading run of the keys where it was |
| Assoc.PutAbsent | esctl/cmd/task.py:50-51 | assigning a missing key appends the pair |
| Assoc.PutMembers | esctl/cmd/snapshot.py:31-33 | assignment brings in no pair other than the one assigned |
| Assoc.LastLookup | esctl/utils.py:28 | the last value given to a key is found exactly when some pair has the key |
| Assoc.LastLookupDistinct | esctl/utils.py:28 | with distinct keys, the last and the first value of a key agree |
| Assoc.LastLookupAppend | esctl/utils.py:26-28 | in a concatenation, the last pair for a key is in the second part when that part has the key |
| Assoc.LastLookupSnoc | esctl/utils.py:28 | a pair added at the end is the last one for its key; every other key reads as before |
| Assoc.PutAllLookup | esctl/config.py:162 | after merging pairs into `d`, a key reads its last merged value, or its value in `d` when no merged pair has it |
| Assoc.PutAllDictLookup | esctl/config.py:162 | merging a dictionary: its keys read its values and the other keys read `d`'s |
| Assoc.PutAllHasKey | esctl/config.py:162 | the merge holds exactly the keys of both sides |
| Assoc.PutAllKeepsOrder | esctl/config.py:162 | the merge keeps `d`'s keys first, in their order |
| Assoc.PutAllDistinct | esctl/config.py:162 | merging into a dictionary gives a dictionary |
| Assoc.PutAllMembers | esctl/utils.py:28 | every pair of a merge comes from one of its two sides |
| Assoc.PutAll | esctl/config.py:162 | a merge loses no pair of `d` and adds at most one pair per merged pair |
| Assoc.FromPairs | esctl/utils.py:28 | `dict(pairs)` has distinct keys and each key reads its last value among the pairs |
| Assoc.FromPairsDistinct | esctl/utils.py:28 | pairs with distinct keys are already their own dictionary |
| Assoc.FirstKeys | esctl/utils.py:28 | the keys listed once each, in first-occurrence order, are exactly the keys the pairs give |
| Assoc.FromPairsKeys | esctl/utils.py:28 | `dict(pairs)` lists its keys in the order they first occur: a repeated key keeps the position it was first given |
| Assoc.Remove | esctl/cmd/cluster.py:94 | `del d[k]` keeps only pairs of `d`, none of them under `k` |
| Assoc.RemoveLookup | esctl/cmd/cluster.py:94 | deleting `k` forgets `k` and no other key |
| Assoc.RemoveDistinct | esctl/cmd/cluster.py:94 | deleting from a dictionary gives a dictionary |
| Json.NatToText | esctl/cmd/cat.py:36 | `str(n)` for a natural number is a non-empty run of decimal digits |
| Json.DigitsOfNat | esctl/cmd/cat.py:36 | reading back the digits of `str(n)` gives `n` |
| Json.StripLeftSuffix | esctl/cmd/cat.py:36 | `int()` drops only leading whitespace: what is left is a suffix and all that goes is whitespace |
| Json.StripRightPrefix | esctl/cmd/cat.py:36 | `int()` drops only trailing whitespace: what is left is a prefix and all that goes is whitespace |
| Json.StripLeft | esctl/main.py:152 | what is left starts with something other than whitespace, in the sense of Python's `str.isspace` (ASCII and Unicode spaces alike), and is never longer |
| Json.StripUnitSeparator | esctl/main.py:152 | `"s3cret\x1f".strip()` and `"\xa0s3cret".strip()` both give `s3cret` |
| Json.StripRight | esctl/main.py:152 | what is left ends with something other than whitespace, in the sense of Python's `str.isspace`, and is never longer |
| Json.ParseInt | esctl/cmd/cat.py:36 | `int(s)` fails only with `ValueError`, on text that is not optionally signed grouped digits |
| Json.ParseGrouped | esctl/cmd/cat.py:36 | digits with single underscores between them parse to the value of the digits alone |
| Json.ParseGroupedTen | esctl/cmd/cat.py:36 | `int("1_0") == 10` |
| Json.ParseMisplacedUnderscore | esctl/cmd/cat.py:36 | a leading, trailing or doubled underscore (`_1`, `1_`, `1__0`) raises `ValueError` |
| Json.IntTextRoundTrip | esctl/cmd/cat.py:36 | `int(str(i)) == i` for every integer |
| Json.NatTextRoundTrip | esctl/cmd/cat.py:36 | `int(str(n)) == n` for a natural number |
| Json.NegativeTextRoundTrip | esctl/cmd/cat.py:36 | `int("-" + str(n)) == -n` |
| Json.ParseDigits | esctl/cmd/cat.py:36 | a run of digits parses to its decimal value |
| Json.ParseNegative | esctl/cmd/cat.py:36 | a minus sign then a run of digits parses to the negated value |
| Json.PyInt | esctl/cmd/cat.py:36 | `int(v)` keeps an integer, and `None`, a list or a dict raise `TypeError` |
| Json.ToText | esctl/commands.py:18 | `str(v)` of a string is the string itself; of an integer it reads back as that integer; of a list or dict it is bracketed or braced |
| Json.Truthy | esctl/main.py:143-144 | a value is false exactly when it is `None`, `False`, `0`, `""`, `[]` or `{}` |
| Json.PyGetAny | esctl/cmd/cluster.py:29-32 | only a dict has `.get`, which raises `AttributeError` on anything else; a list or dict key is unhashable and raises `TypeError`; a present string key reads its value and any other key reads `None` |
| Json.PyGet | esctl/main.py:142-144 | `v.get(key)` on a dict reads the key's value or `None`, and on anything else raises `AttributeError` |
| Json.Get | esctl/formatter.py:119 | `d.get(key)` reads a present key's value and `None` for a missing one |
| Json.Subscript | esctl/cmd/migration.py:45-47 | `d[key]` reads a present key's value, raises `KeyError` on a missing one and `TypeError` on a value that is not a dict |
| Json.Index0 | esctl/cmd/cluster.py:36 | `xs[0]` is the first item of a non-empty list and raises `IndexError` on an empty one |
| Json.Iterate | esctl/cmd/migration.py:40-41 | iterating a list yields its items; `None`, numbers and booleans are not iterable |
| Json.AllStrings | esctl/cmd/users.py:31 | the items are all strings exactly when this succeeds, and then the strings are the items in order; otherwise it raises `TypeError` |
| Json.PyJoin | esctl/cmd/users.py:31 | `sep.join(list)` joins the strings of a list of strings, raises `TypeError` on a non-string item, and on `None` |
| Json.PyLen | esctl/cmd/migration.py:31 | `len()` of a list counts items and of a dict counts keys |
| Json.PyContains | esctl/config.py:161 | `key in d` on a dict tests for the key, and on `None` raises `TypeError` |
| Text.ReplaceChar | esctl/formatter.py:14-17 | `str.replace` of one character keeps the length |
| Text.ReplaceAll | esctl/formatter.py:18-19 | replacing a substring by one no longer never lengthens the string, and by one as long keeps its length |
| Text.ReplaceCharAt | esctl/formatter.py:14-17 | every occurrence of the old character becomes the new one and every other character stays |
| Text.ReplaceCharRemoves | esctl/formatter.py:14-17 | after replacing a character by a different one, it no longer occurs |
| Text.ReplaceCharKeeps | esctl/formatter.py:14-17 | a character that is neither the old nor the new one occurs afterwards exactly when it occurred before |
| Text.ReplaceCharBetween | esctl/formatter.py:14-17 | the one separator between two separator-free parts is replaced and nothing else changes |
| Text.ReplaceAllChars | esctl/formatter.py:18-19 | replacing a substring brings in no character found neither in the string nor in the replacement |
| Text.ReplaceAllAbsent | esctl/formatter.py:18-19 | a string that does not contain the pattern is left unchanged |
| Text.ReplaceAllShort | esctl/formatter.py:18-19 | a string shorter than the pattern is left unchanged |
| Text.Split | esctl/settings.py:117 | `str.split` always yields at least one piece |
| Text.Join | esctl/cmd/users.py:31 | `sep.join(parts)` starts with the first part |
| Text.SplitPiecesOmitSeparator | esctl/settings.py:117 | no piece contains the separator |
| Text.JoinSplit | esctl/settings.py:117 | joining the pieces with the separator gives back the string |
| Text.SplitJoin | esctl/cmd/cat.py:85 | splitting a join of separator-free pieces gives back the pieces |
| Text.SplitFirst | esctl/main.py:113 | the first piece is the text before the first separator |
| Text.SplitNoSeparator | esctl/settings.py:119 | a string without the separator splits into itself alone |
| Text.ToUpper | esctl/cmd/index.py:55 | upper-casing keeps letters letters and non-letters unchanged, and leaves no lower-case letter |
| Text.ToLower | esctl/formatter.py:21 | lower-casing keeps letters letters and non-letters unchanged, and leaves no upper-case letter |
| Text.Upper | esctl/cmd/index.py:55 | `str.upper` upper-cases each character in place |
| Text.TitleFromAppend | esctl/formatter.py:21 | title-casing a concatenation title-cases the second part from the state the first part leaves |
| Text.Title | esctl/formatter.py:21 | `str.title` keeps the length, lower-cases a letter that follows a letter and upper-cases every other character |
| Text.TitleAt | esctl/formatter.py:21 | the same rule at one given position |
| Text.TitleKeepsNonLetters | esctl/formatter.py:21 | a non-letter occurs in the title-cased string exactly when it occurs in the string |
| Text.TitleIdempotent | esctl/formatter.py:21 | title-casing twice is title-casing once |
| Ordering.LexIrreflexive | esctl/commands.py:15 | no string sorts before itself |
| Ordering.LexAsymmetric | esctl/commands.py:15 | two strings never sort before each other |
| Ordering.LexTransitive | esctl/commands.py:15 | the string order is transitive |
| Ordering.LexTotal | esctl/commands.py:15 | of two different strings one sorts first |
| Ordering.InsertBy | esctl/cmd/cat.py:62 | inserting adds exactly the one element |
| Ordering.SortBy | esctl/cmd/cat.py:62 | `sorted(s, key=...)` is a permutation of `s` |
| Ordering.InsertBySorted | esctl/cmd/cat.py:62 | inserting into a sequence ordered by key keeps it ordered |
| Ordering.SortBySorted | esctl/cmd/cat.py:62 | the result is ordered by key |
| Ordering.InsertByWithKey | esctl/cmd/cat.py:62 | an insertion places the element after every equal-key element it is inserted behind |
| Ordering.SortByStable | esctl/cmd/cat.py:62 | the sort is stable: elements with equal keys keep their input order |
| Ordering.SortBySortedIdentity | esctl/cmd/cat.py:62 | sorting an ordered sequence changes nothing |
| Ordering.SortByIdempotent | esctl/cmd/cat.py:62 | sorting twice is sorting once |
| Ordering.InsertByStrict | esctl/commands.py:15 | inserting a new key into a strictly ordered sequence keeps it strictly ordered |
| Ordering.SortByStrict | esctl/commands.py:15 | with unique keys the result is strictly ordered |
| Utils.ColorNamed | esctl/utils.py:1-12 | every attribute of `Color` is an escape sequence; any other name has no attribute |
| Utils.NamedColor | esctl/cmd/index.py:55 | `getattr(Color, value.upper())` succeeds exactly when the value is a string whose upper-casing names a colour, and gives that colour; otherwise it is an `AttributeError` |
| Utils.GreenColor | esctl/utils.py:7 | `green` names the green code |
| Utils.YellowColor | esctl/utils.py:12 | `yellow` names the yellow code |
| Utils.RedColor | esctl/utils.py:10 | `red` names the red code |
| Utils.Colorize | esctl/utils.py:14-16 | the colour code, then the text, then the reset code |
| Utils.ColorizeStr | esctl/utils.py:14-16 | colourising a string agrees with colourising the string value |
| Utils.ColorizeInjective | esctl/utils.py:14-16 | the text can be read back from a colourised string |
| Utils.ColorKey | esctl/cmd/snapshot.py:31-33 | assigning a colourised value keeps the key's position, or appends the key when it was missing; the key's new value is the colourised old one and no other key changes |
| Utils.ColorKeyAt | esctl/cmd/snapshot.py:31-33 | colouring a key that is present replaces its value where it stands |
| Utils.Prefixed | esctl/utils.py:22 | each child pair appears in order under `key.child` |
| Utils.FlattenDict | esctl/utils.py:19-28 | the result has distinct keys and no object values, and each key holds the last value that the items give it |
| Utils.Items | esctl/utils.py:26 | no expanded item holds an object |
| Utils.Expand | esctl/utils.py:20-24 | a value that is not an object, lists included, stays one pair; an object becomes pairs whose keys all contain a dot |
| Utils.FlattenKeepsPlainEntry | esctl/utils.py:23-24 | a top-level entry without a dot whose value is not an object keeps its key and value |
| Utils.FlattenHasNestedKey | esctl/utils.py:21-22 | a nested entry appears under parent key, dot, child key, at any depth |
| Utils.FlattenEmptyNested | esctl/utils.py:22 | an empty nested object adds no key |
| Utils.FlattenFlat | esctl/utils.py:19-28 | a dictionary without nested objects is already flat |
| Utils.FlattenLaterWins | esctl/utils.py:26-28 | one collision: `a.b: 1` given flat, then `a: {b: 2}` given nested, flatten to the single entry `a.b: 2` |
| Utils.FlattenKeyOrder | esctl/utils.py:19-28 | the flattened keys come in the order the items first give them, so a key given twice stays where it first appeared |
| Commands.Persistency | esctl/cmd/settings.py:9 | the tier is `persistent` exactly when the flag is set, and `transient` exactly when it is not |
| Commands.SortAndOrder | esctl/commands.py:14-15 | the ordered dictionary is never longer than the input |
| Commands.StrictlySortedDistinct | esctl/commands.py:15 | strictly ascending keys are distinct keys |
| Commands.SamePairsSameLookup | esctl/commands.py:15 | two dictionaries holding the same pairs read the same under every key |
| Commands.SortAndOrderIsSort | esctl/commands.py:14-15 | on a dictionary the result is the items sorted by key, in strictly ascending key order |
| Commands.SortAndOrderAscending | esctl/commands.py:14-15 | any earlier key is smaller than any later key |
| Commands.SortAndOrderLookup | esctl/commands.py:14-15 | the size and the key set are kept and every key reads the value it had |
| Commands.SortAndOrderIdempotent | esctl/commands.py:14-15 | ordering an ordered dictionary changes nothing |
| Commands.SortedRowsAscending | esctl/cmd/users.py:11-15 | rows built entry by entry from the ordered response follow the ascending keys |
| Commands.SortedRowsCover | esctl/cmd/users.py:11-15 | every entry of the response has its row |
| Commands.SuccessMessage | esctl/commands.py:17-18 | the line starts with the green `SUCCESS`, then a space, and the rest is exactly the message's `str()` |
| Commands.SuccessMessageInjective | esctl/commands.py:17-18 | the message can be read back from the success line |
| Glob.FindFrom | esctl/settings.py:114 | the first position at or after the start holding the character, or none when no such position exists |
| Glob.Compile | esctl/settings.py:114 | every token takes at least one pattern character, and only a `*` gives the wildcard token |
| Glob.MatchTokensLength | esctl/settings.py:114 | without the wildcard token, each token matches exactly one character |
| Glob.Match | esctl/settings.py:114 | a pattern without `*` matches only names as long as its token list, so never a name longer than itself |
| Glob.Filter | esctl/settings.py:114 | `fnmatch.filter` keeps only names that are in the list and match, never more names than it was given |
| Glob.FilterMembership | esctl/settings.py:114 | a name is kept exactly when it is in the list and matches |
| Glob.FilterAppend | esctl/settings.py:114 | filtering keeps the names' order: it distributes over concatenation |
| Glob.Lits | esctl/settings.py:114 | a plain string becomes one literal token per character, in order |
| Glob.CompilePlain | esctl/settings.py:114 | a pattern without `*`, `?` or `[` compiles to its literal characters |
| Glob.CompilePlainStar | esctl/settings.py:114 | a plain prefix followed by `*` compiles to the literal prefix, then a wildcard |
| Glob.MatchLits | esctl/settings.py:114 | a literal prefix consumes exactly itself |
| Glob.AnyMatchesAll | esctl/settings.py:114 | the wildcard token matches every string |
| Glob.StarMatchesAll | esctl/settings.py:114 | the pattern `*` matches every name |
| Glob.LiteralMatchesItself | esctl/settings.py:114 | a pattern without special characters matches only itself |
| Glob.PrefixStarMatches | esctl/settings.py:114 | `prefix*` matches exactly the names starting with `prefix` |
| Glob.ClassWithoutRanges | esctl/settings.py:114 | a bracket set without `-` holds exactly its characters |
| Glob.RangeClass | esctl/settings.py:114 | `x-y` in a bracket set holds every character from `x` to `y` |
| Formatter.Spaced | esctl/formatter.py:12-17 | the label keeps the id's length, each dot and underscore becomes a space and every other character stays, so no dot or underscore is left |
| Formatter.Substituted | esctl/formatter.py:12-19 | replacing `percent` by `%` does not bring back a dot or an underscore |
| Formatter.DeriveName | esctl/formatter.py:9-23 | a derived label never contains `.` or `_` |
| Formatter.NewTableKey | esctl/formatter.py:1-7 | the id is kept; a given name is kept verbatim; a missing name is derived and so has no `.` or `_` |
| Formatter.FormatColumns | esctl/formatter.py:63-71 | one key per column, in input order, with the column's id; a bare id or 1-tuple gets the derived name, a pair keeps its given name |
| Formatter.Row | esctl/formatter.py:118-119 | entry j of a row is `doc.get(columns[j].id)` |
| Formatter.FormatForLister | esctl/formatter.py:113-121 | headers are the column names in order; one row per document, in order; every row has one entry per column, and entry (i, j) is document i's value under column j's id |
| Formatter.ToShowOne | esctl/formatter.py:136-145 | keys and values have the same length as the lines, and value k is the document's value under line k's id |
| Formatter.ListerAppend | esctl/formatter.py:118-121 | listing a concatenation of documents concatenates their rows under the same headers |
| Formatter.ShowOneIsSingleRow | esctl/formatter.py:113-145 | `to_show_one` on a document gives the headers and the single row `format_for_lister` gives for that document alone |
| Formatter.MissingKeyIsNone | esctl/formatter.py:119 | a document without a column's key shows `None` in that cell |
| Formatter.DeriveNameFoobar | tests/formatter_test.py:9 | `foobar` is labelled `Foobar` |
| Formatter.DeriveNameUnderscore | tests/formatter_test.py:10 | `foo_bar` is labelled `Foo Bar` |
| Formatter.DeriveNameDot | tests/formatter_test.py:11 | `foo.bar` is labelled `Foo Bar` |
| Formatter.DeriveNameHyphen | tests/formatter_test.py:12 | `foo-bar` is labelled `Foo-Bar`: a hyphen is no separator, but title-casing capitalises after it |
| Formatter.DeriveNamePercent | tests/formatter_test.py:13 | `foo.percent` is labelled `Foo %` |
| Formatter.PlainSubstituted | esctl/formatter.py:12-19 | an id without dots, underscores or a `p` goes through the replacements unchanged |
| Formatter.DeriveNameWord | esctl/formatter.py:9-23 | a lower-case word that does not contain `percent` is labelled by the word with its first letter upper-cased |
| Formatter.DerivedHeader | esctl/formatter.py:63-71 | a column without a given label whose id is one lower-case word is headed by that word, capitalised |
| Settings.NewSetting | esctl/settings.py:18-21 | a setting made without a tier has tier `defaults` |
| Settings.SettingText | esctl/settings.py:23-24 | `str(setting)` is the name, `=`, the value's `str()`, `(`, the tier and `)` |
| Settings.SettingTextName | esctl/settings.py:23-24 | the name of a setting without `=` can be read back as the text before the first `=` |
| Settings.ClusterGet | esctl/settings.py:33-44 | the requested tier's value and tier when the tier holds the key; otherwise the `defaults` value with tier `defaults`; otherwise no value, tier `defaults`; a missing tier raises `TypeError` |
| Settings.ForPersistency | esctl/settings.py:46-52 | the tier's value when it holds the key, otherwise no value with tier `defaults`; never a fallback to another tier |
| Settings.MGet | esctl/settings.py:54-63 | the result has exactly the keys transient, persistent, defaults, in that order, and always succeeds on a response with the three tiers |
| Settings.MGetNoFallback | esctl/settings.py:54-63 | each entry comes from its own tier only: a key missing from a tier has no value there even when `defaults` holds it |
| Settings.ClusterGetIsMGetWithFallback | esctl/settings.py:33-63 | `get` is `mget`'s entry for the requested tier when that tier holds the key, and `mget`'s `defaults` entry otherwise |
| Settings.ClusterGetTransientExample | tests/settings_test.py:30-35 | the transient `thread_pool.estimated_time_interval` is `100ms` |
| Settings.ClusterGetPersistentExample | tests/settings_test.py:36-41 | the persistent `thread_pool.estimated_time_interval` is `200ms` |
| Settings.ClusterGetDefaultsExample | tests/settings_test.py:54-60 | a key only in `defaults` reads `90%` with tier `defaults` |
| Settings.ClusterGetUnknownExample | tests/settings_test.py:61-66 | an unknown key has no value |
| Settings.SetBody | esctl/settings.py:73-76 | the body is exactly `{persistency: {name: value}}` |
| Settings.SetBodyReadBack | esctl/settings.py:73-76 | reading back the tier a body writes gives the value that was sent, with that tier |
| Settings.ItemsOf | esctl/settings.py:91-95 | `.items()` succeeds exactly on a dict, giving its entries; otherwise `AttributeError` |
| Settings.Tagged | esctl/settings.py:91-98 | each entry becomes a setting of the given tier, in order |
| Settings.IndexEntry | esctl/settings.py:90-98 | one index's settings are built exactly when its `settings` and `defaults` are both dicts; otherwise `AttributeError` |
| Settings.IndexEntryLookup | esctl/settings.py:90-98 | a name in `defaults` reads its default with tier `defaults`, even when `settings` has it too; a name only in `settings` has tier `settings` |
| Settings.IndexList | esctl/settings.py:82-100 | `list_` fails only with `AttributeError` |
| Settings.IndexListOk | esctl/settings.py:82-100 | `list_` succeeds exactly when every index of the response has dicts of settings and of defaults |
| Settings.IndexListKeys | esctl/settings.py:87-90 | `list_` has each index name of the response once, in first-appearance order |
| Settings.IndexListLookup | esctl/settings.py:87-98 | each index maps to the settings built from its last response entry |
| Settings.Requested | esctl/settings.py:113-119 | a pattern without `*` asks for at least one name |
| Settings.RequestedGlob | esctl/settings.py:113-114 | a pattern with `*` asks for exactly the known names that match it, in known-name order |
| Settings.RequestedList | esctl/settings.py:116-117 | otherwise a pattern with `,` asks for comma-free pieces that join back to the pattern |
| Settings.RequestedSingle | esctl/settings.py:118-119 | otherwise the pattern is the one name asked for |
| Settings.Answers | esctl/settings.py:124-128 | one answer per requested name, in order: the index's own setting when the first index knows the name, otherwise a valueless setting |
| Settings.AnswersPerIndex | esctl/settings.py:121-128 | one list of answers per index, in index order |
| Settings.IndexGet | esctl/settings.py:102-130 | a bad index entry raises `AttributeError`, an empty response `IndexError`, a missing key `TypeError`; otherwise one answer list per index |
| Settings.IndexGetShape | esctl/settings.py:121-128 | every index answers with one entry per requested name, in order, under its own name |
| Settings.IndexGetFirstIndexOnly | esctl/settings.py:109-128 | a name the first index lacks gets a valueless setting in every index; a name the first index has but another lacks reads `None` there |
| Settings.IndexGetEmpty | esctl/settings.py:109-111 | an empty response has no first index and raises `IndexError` |
| Settings.IndexSetBody | esctl/settings.py:132-133 | the body is exactly `{setting: value}` |
| App.FindScheme | esctl/main.py:109-117 | the scheme found is always `http` or `https` |
| App.ClusterWith | tests/main_test.py:22 | the test's cluster entry holds its servers as a list |
| App.ServerList | tests/main_test.py:22 | one JSON string per server, in order |
| App.FindSchemeHttp | esctl/main.py:110-113 | the scheme is `http` exactly when the first server starts with `http:`, and `https` for any other first server |
| App.FindSchemeFirstServerOnly | esctl/main.py:112 | only `servers[0]` is read: later servers never change the scheme |
| App.FindSchemeNoServers | esctl/main.py:112 | an empty server list raises `IndexError`, and a missing one `TypeError` |
| App.FindSchemeSingle | esctl/main.py:110-113 | a single server decides the scheme the same way |
| App.NotHttp | esctl/main.py:112 | a server whose fifth character is not `:` does not start with `http:` |
| App.FindSchemeHttpsExample | tests/main_test.py:7 | `https://foo.example.com:8200` gives `https` |
| App.FindSchemeHttpExample | tests/main_test.py:8 | `http://foo.example.com:8200` gives `http` |
| App.FindSchemeJoinedExample | tests/main_test.py:9-16 | three server URLs glued into one string are one server, which gives `https` |
| App.FindSchemeOtherExample | tests/main_test.py:17 | `foo://foo.example.com:8200` gives `https` |
| App.FindSchemeBareExample | tests/main_test.py:18 | `foo.example.com:8200` gives `https` |
| App.ConsoleLevel | esctl/main.py:67-72 | the level is one of DEBUG, INFO, WARNING, ERROR, and any verbosity outside 0..3 gives DEBUG |
| App.ConsoleLevelMonotone | esctl/main.py:67-72 | from 0 upwards, more verbosity never raises the level |
| App.ConsoleLevelDistinct | esctl/main.py:67-71 | the four named verbosities have four different levels |
| App.InsertPassword | esctl/main.py:119-127 | after resolving, `external_password` is gone from the entry and every key other than `password` reads as before |
| App.InsertPasswordRun | esctl/main.py:119-127 | a definition `{command: {run: cmd}}` replaces the password with the stripped output of `cmd` |
| App.InsertPasswordNoCommand | esctl/main.py:119-123 | a definition without `command` only drops `external_password`, keeping the entry's own password |
| App.ResolvedUser | esctl/main.py:137-139 | an int or bool user raises `TypeError` at the `in` test, a string or list user `AttributeError`; a dict without `external_password` is used as it is |
| App.ResolvedExternal | esctl/main.py:137-139 | a user dict naming a command resolves to the entry with the command's stripped output as its password |
| App.HttpAuth | esctl/main.py:135-146 | no user gives no credentials; an int or bool user raises `TypeError`, a string or list user `AttributeError`; credentials given are both truthy |
| App.HttpAuthBothSet | esctl/main.py:137-146 | for a user dict, credentials exist exactly when its resolved entry exists and has both username and password truthy, and they are that entry's own |
| App.HttpAuthResolved | esctl/main.py:141-146 | the credentials are decided on the resolved entry alone |
| App.HttpAuthPlain | esctl/main.py:137-146 | without `external_password` the entry's own username and password are sent when both are truthy, and nothing otherwise |
| App.HttpAuthExternal | esctl/main.py:137-146 | with `external_password: {command: {run: cmd}}` the password sent is the stripped output of `cmd`, whatever password the entry held |
| App.HttpAuthExternalNone | esctl/main.py:122 | an `external_password` of `None` raises `TypeError` at `"command" in None` |
| App.HttpAuthNotADict | esctl/main.py:141-142 | a string or list user has no `.get` and raises `AttributeError` |
| App.HttpAuthNotAContainer | esctl/main.py:138 | an int or bool user raises `TypeError` at the `in` test |
| Config.ExpectedBlocksDistinct | esctl/config.py:120-126 | the five expected block names are distinct |
| Config.DefaultConfigBlocks | esctl/config.py:41-49 | the default file holds exactly the five expected blocks, once each |
| Config.DefaultConfig | esctl/config.py:41-49 | the default file's blocks come in the order settings, clusters, users, contexts, default-context, and its default context is one of its contexts |
| Config.BlockPairs | esctl/config.py:144-145 | one pair per expected block, in order, holding the file's block or `None` |
| Config.LoadBlocksExposes | esctl/config.py:120-145 | after loading, the parser has exactly the five expected blocks as attributes, each of them exposed as the file holds it (`None` when the file lacks it) |
| Config.LoadBlocks | esctl/config.py:120-145 | after loading, the attributes are distinct and are exactly the five expected blocks |
| Config.LoadedBlock | esctl/config.py:144-145 | a block of a file without repeated names is loaded as the file holds it |
| Config.InitialAttributesDistinct | esctl/config.py:25-29 | a fresh parser's attributes are distinct and all among the expected blocks |
| Config.InitialAttributes | esctl/config.py:25-29 | a fresh parser's attributes are exactly `users`, `contexts`, `clusters` and `settings`, in that order, each an empty dict; `default-context` is not among them |
| Config.BlockPairsLookup | esctl/config.py:144-145 | every expected block reads the file's block, and no other name is read |
| Config.Attribute | esctl/config.py:172 | `__getattribute__` finds exactly the attributes set, and raises `AttributeError` otherwise |
| Config.Spread | esctl/config.py:162-164 | `{**v}` succeeds exactly on a dict, giving its entries; otherwise `TypeError` |
| Config.GetContextInformations | esctl/config.py:155-166 | a resolved context keeps its name; a name the `contexts` block lacks raises `AttributeError`, and an unhashable (list or dict) name `TypeError` |
| Config.UnhashableUser | esctl/config.py:156 | a context naming its user by a list or a dictionary raises `TypeError`, since that name is unhashable |
| Config.ResolvedSteps | esctl/config.py:155-166 | for a context that resolves (its user named by a hashable value), the settings are the global ones when the cluster has none, and the globals merged with the cluster's own otherwise |
| Config.ContextNamesUserAndCluster | esctl/config.py:156-157 | the user and the cluster are the entries the context names; a context without a user has user `None` |
| Config.ClusterSettingsOverride | esctl/config.py:159-162 | a cluster setting overrides the global one with the same key, and every other global setting is kept |
| Config.NoClusterSettingsKeepsGlobals | esctl/config.py:163-164 | without cluster settings the context's settings are the global ones |
| Config.CreateContext | esctl/config.py:168-183 | a given name resolves that context, an `AttributeError` there becomes exit status 1; an `AttributeError` overall can only come from a missing `default-context` |
| Config.DefaultContextUsed | esctl/config.py:169-175 | with no name, or an empty one, the `default-context` is resolved |
| Config.UnknownContextExits | esctl/config.py:177-181 | a name the `contexts` block lacks exits with status 1 |
| Config.DefaultConfigResolves | esctl/config.py:41-49 | the default file resolves, with no name given, to the `localhost` context: no user, one server `http://localhost:9200`, no settings |
| Config.DefaultAttributes | esctl/config.py:41-49 | once loaded, the default file names `localhost` as default context, with one `localhost` context and cluster, no users and no settings |
| Config.LocalhostResolves | esctl/config.py:155-183 | blocks holding exactly the default file's contents resolve, with no name given, to the `localhost` context |
| ConfigCommands.BlockRows | esctl/cmd/config.py:11-19 | a block that is not a dictionary raises `AttributeError`; otherwise there is one row per definition, each built from that definition |
| ConfigCommands.ClusterRow | esctl/cmd/config.py:12-15 | a cluster row holds the cluster's name and its joined servers; a definition that is not a dictionary raises `AttributeError`, and servers that `join` refuses stop the row |
| ConfigCommands.ClusterList | esctl/cmd/config.py:10-19 | one row per configured cluster |
| ConfigCommands.ClusterListRows | esctl/cmd/config.py:12-15 | a cluster row is named after its cluster, and its servers cell splits line by line back into the configured servers |
| ConfigCommands.ContextRow | esctl/cmd/config.py:31-35 | a context row holds name, user and cluster, and is built exactly when the definition is a dictionary |
| ConfigCommands.ContextWithoutUser | esctl/cmd/config.py:33 | a context without a user shows `None` as its user |
| ConfigCommands.Underlined | esctl/cmd/config.py:50-53 | every attribute of the row is underlined, in place |
| ConfigCommands.UnderlinedChanges | esctl/cmd/config.py:50-53 | underlining always changes a non-empty row |
| ConfigCommands.ContextTransform | esctl/cmd/config.py:45-57 | one row out per row in |
| ConfigCommands.ContextTransformMarks | esctl/cmd/config.py:48-55 | a row is underlined when its name is the default context and kept otherwise, so a non-empty row changes exactly when it is the default |
| ConfigCommands.ContextList | esctl/cmd/config.py:29-43 | the listing succeeds exactly when the rows can be built, one per context |
| ConfigCommands.ContextListMarksDefault | esctl/cmd/config.py:29-57 | each context shows its own name, user and cluster, underlined exactly when it is the default context |
| ConfigCommands.ContextListOneDefault | esctl/cmd/config.py:29-57 | with distinct context names at most one row is underlined |
| ConfigCommands.ContextSet | esctl/cmd/config.py:63-75 | a configured context is accepted and any other exits with status 2; after it `default-context` names the context and every other entry is unchanged |
| ConfigCommands.ContextSetThenList | esctl/cmd/config.py:29-75 | after setting the default context, the listing underlines exactly the rows of that context |
| ConfigCommands.UserRow | esctl/cmd/config.py:83-87 | a user row holds name, username and password, and is built exactly when the definition is a dictionary |
| ConfigCommands.UserList | esctl/cmd/config.py:81-89 | one row per configured user |
| ConfigCommands.UserListRows | esctl/cmd/config.py:81-89 | the listing fails exactly when the block or a definition is not a dictionary, and otherwise shows each user's own credentials |
| ConfigCommands.UserListing | esctl/cmd/config.py:81-93 | three columns, one row per user, the third showing the user's configured password |
| SettingsCommands.GetOutput | esctl/cmd/settings.py:16-32 | a line is printed exactly when the setting has a value, and the line starts with that value |
| SettingsCommands.ClusterSettingsGet | esctl/cmd/settings.py:8-32 | on a well-formed cluster response the command always reaches an output |
| SettingsCommands.ClusterSettingsGetShows | esctl/cmd/settings.py:8-32 | the chosen tier's value is printed as is, a value found only in `defaults` is printed marked as a default, and a setting found nowhere is logged as missing from the chosen tier |
| SettingsCommands.GetOutputExamples | tests/cmd/cmd_settings_test.py:20-31 | a transient `foo` prints `foo`, and a default `foo` prints `foo` with the italic `default` marker |
| SettingsCommands.ClusterSettingsReset | esctl/cmd/settings.py:38-50 | the body sends `None` for the setting, under the chosen tier only |
| SettingsCommands.ClusterSettingsSet | esctl/cmd/settings.py:56-71 | the body sends the value as given, under the chosen tier only |
| SettingsCommands.SetThenGet | esctl/cmd/settings.py:8-71 | a cluster whose chosen tier is the body `set` sent shows the value unchanged on `get` |
| LoggingCommands.ParseLevel | esctl/cmd/logging.py:57-62 | a level is accepted exactly when it is TRACE, DEBUG, INFO or WARN |
| LoggingCommands.LevelRoundTrip | esctl/cmd/logging.py:57-62 | every accepted level's name parses back to that level |
| LoggingCommands.LoggerName | esctl/cmd/logging.py:11-12 | the setting name always starts with `logger`, and the name given is kept exactly when it already does |
| LoggingCommands.LoggerNameIdempotent | esctl/cmd/logging.py:11-12 | normalising a normalised name changes nothing |
| LoggingCommands.LoggerNamePrefixes | esctl/cmd/logging.py:11-12 | `foo` and `logger.foo` name the same setting |
| LoggingCommands.LoggingGetAsWritten | esctl/cmd/logging.py:7-18 | on a well-formed cluster response the command, as written, always prints a line |
| LoggingCommands.LoggingGetAsWrittenShowsSetting | esctl/cmd/logging.py:14-18 | as written, the printed line is never `<logger> : <level>`, since `or ""` never applies to a `Setting` |
| LoggingCommands.LoggingGetAsWrittenExample | esctl/cmd/logging.py:14-18 | with `logger.foo` at DEBUG it prints `logger.foo : logger.foo=DEBUG(transient)` instead of `logger.foo : DEBUG` |
| LoggingCommands.LoggingGet | esctl/cmd/logging.py:7-18 | the corrected command always prints a line on a well-formed cluster response |
| LoggingCommands.LoggingGetShowsTier | esctl/cmd/logging.py:14-18 | the corrected command shows the chosen tier's level when it holds one |
| LoggingCommands.LoggingGetShowsDefault | esctl/cmd/logging.py:14-18 | a logger missing from the chosen tier shows its level from `defaults` |
| LoggingCommands.LoggingGetShowsNothing | esctl/cmd/logging.py:14-18 | a logger found nowhere shows an empty level |
| LoggingCommands.LoggingReset | esctl/cmd/logging.py:24-34 | the body sends `None` for the normalised logger, under the chosen tier only |
| LoggingCommands.LoggingSet | esctl/cmd/logging.py:40-53 | the body sends the level's name for the normalised logger, under the chosen tier only |
| LoggingCommands.LoggingSetThenGet | esctl/cmd/logging.py:7-53 | `get` on a cluster holding what `set` sent shows the level that was set |
| MigrationCommands.IndexMessage | esctl/cmd/migration.py:35 | the message starts with the index in brackets and a space, followed by the original message |
| MigrationCommands.PrefixOne | esctl/cmd/migration.py:35 | a deprecation is rewritten exactly when it is a dictionary with a message; its keys are kept and the message gets its index in front; no message raises `KeyError` |
| MigrationCommands.PrefixOneKeepsOthers | esctl/cmd/migration.py:35 | only the message of a deprecation changes |
| MigrationCommands.PrefixOneInPlace | esctl/cmd/migration.py:35 | the message is rewritten where it stands |
| MigrationCommands.PrefixAll | esctl/cmd/migration.py:34-36 | one deprecation out per deprecation in |
| MigrationCommands.PrefixAllAt | esctl/cmd/migration.py:34-36 | the loop succeeds exactly when each deprecation can be rewritten, each in its place |
| MigrationCommands.FlattenFields | esctl/cmd/migration.py:33-36 | flattening fails exactly when some index's value cannot be iterated or one of its deprecations has no message |
| MigrationCommands.FlattenIndexSettings | esctl/cmd/migration.py:31-38 | the response keeps its keys and every kind but `index_settings`; a response without `index_settings` passes unchanged |
| MigrationCommands.FlattenInPlace | esctl/cmd/migration.py:31-38 | a non-empty `index_settings` is replaced, where it stands, by the flat list of its deprecations |
| MigrationCommands.FlattenFieldsCons | esctl/cmd/migration.py:33-36 | the first index's deprecations, prefixed, come before those of the later indices |
| MigrationCommands.FlattenFieldsTwo | esctl/cmd/migration.py:33-36 | two indices flatten to the first's deprecations, then the second's, each with its index in front |
| MigrationCommands.FlattenFieldsOne | esctl/cmd/migration.py:33-36 | one index flattens to its own deprecations with its name in front |
| MigrationCommands.PrefixOneDep | esctl/cmd/migration.py:35 | a deprecation of an index gets `[index] ` in front of its message and nothing else changes |
| MigrationCommands.PrefixAllDeps | esctl/cmd/migration.py:34-36 | a list of deprecations is rewritten one by one, in order |
| MigrationCommands.DeprecationRow | esctl/cmd/migration.py:42-49 | a row is built exactly when the deprecation has a level, a message and a url; its keys are kind, level, message, url; a missing field raises `KeyError` |
| MigrationCommands.DeprecationRowReads | esctl/cmd/migration.py:43-48 | a row reads its kind and the deprecation's own level, message and url |
| MigrationCommands.DeprecationRowDep | esctl/cmd/migration.py:43-48 | a full deprecation gives the row of its kind, level, message and url, its details dropped |
| MigrationCommands.RowKeysRead | esctl/cmd/migration.py:43-48 | a row's four keys are distinct and each reads its own position |
| MigrationCommands.KindRows | esctl/cmd/migration.py:41-49 | one row per deprecation of a kind |
| MigrationCommands.KindRowsAt | esctl/cmd/migration.py:41-49 | a kind's rows succeed exactly when each deprecation's does, each in its place |
| MigrationCommands.KindRowsDeps | esctl/cmd/migration.py:41-49 | a kind's full deprecations give their rows, in order |
| MigrationCommands.AllRows | esctl/cmd/migration.py:40-49 | the row loop fails exactly when some kind cannot be iterated or one of its deprecations lacks a field |
| MigrationCommands.AllRowsKeys | esctl/cmd/migration.py:40-49 | every row has exactly the keys kind, level, message and url, and its kind is a kind of the response |
| MigrationCommands.Transform | esctl/cmd/migration.py:23-51 | without `index_settings` it is the row loop alone; every row has exactly the keys kind, level, message and url, and names a kind of the response |
| MigrationCommands.AllRowsAppend | esctl/cmd/migration.py:40-49 | kinds are processed in order: the rows of earlier kinds come first |
| MigrationCommands.SingleKindRows | esctl/cmd/migration.py:40-49 | a response of one kind gives that kind's rows |
| MigrationCommands.AllRowsDeps | esctl/cmd/migration.py:40-49 | over lists of full deprecations the rows are every kind's deprecations in order, each tagged with its kind |
| MigrationCommands.DepsJsonAppend | esctl/cmd/migration.py:36 | appending deprecations and then writing them out is writing them out and then appending |
| MigrationCommands.EmptyIndexSettingsNoRows | esctl/cmd/migration.py:31 | an empty `index_settings` is not flattened and adds no rows |
| MigrationCommands.EmptyKindNoRows | esctl/cmd/migration.py:40-41 | a kind whose value is an empty dictionary adds no rows |
| MigrationCommands.TestFlattened | tests/cmd/migration_test.py:28-63 | the test's response is flattened with `index_settings` replaced in place by its three prefixed deprecations |
| MigrationCommands.TestIndicesFlattened | tests/cmd/migration_test.py:38-61 | the test's two indices flatten to the deprecation of `logs:apache` then the two of `foobar`, prefixed |
| MigrationCommands.TestFlatResponse | tests/cmd/migration_test.py:28-63 | the flattened test response keeps its four kinds in order |
| MigrationCommands.TestRows | tests/cmd/migration_test.py:77-105 | the test's rows are the cluster deprecation, then the three index deprecations in order with their index in front of their message |
| MigrationCommands.TestFlatRows | tests/cmd/migration_test.py:80-104 | the flattened test response gives the four expected rows |
| MigrationCommands.TestIndexRows | tests/cmd/migration_test.py:86-103 | the three index rows carry `[logs:apache]`, `[foobar]`, `[foobar]` in front of their messages |
| MigrationCommands.MigrationHeaders | esctl/cmd/migration.py:14-21 | four columns, the first derived as `Kind` and the last labelled `Doc` |
| MigrationCommands.MigrationLevelHeader | esctl/cmd/migration.py:17 | the 1-tuple `("level",)` is labelled `Level` |
| MigrationCommands.MigrationMessageHeader | esctl/cmd/migration.py:18 | the column `message` is labelled `Message` |
| CatCommands.AllocationNode | esctl/cmd/cat.py:33-46 | without the table formatter a node passes unchanged; a transformed node keeps its keys and every value but `disk.percent` |
| CatCommands.AllocationThresholds | esctl/cmd/cat.py:35-44 | under the table formatter a usage above 85 turns red, one from 71 to 85 yellow, and a lower one leaves the node unchanged |
| CatCommands.AllocationKeepsUsage | esctl/cmd/cat.py:36-44 | the usage shown is the reported one, either plain or wrapped in red or yellow |
| CatCommands.AllocationWithoutUsage | esctl/cmd/cat.py:35 | a node with no usage, or `None`, passes unchanged |
| CatCommands.AllocationBadUsage | esctl/cmd/cat.py:36 | a usage that `int()` cannot read raises `ValueError` |
| CatCommands.CatAllocation | esctl/cmd/cat.py:30-48 | one node out per node in |
| CatCommands.CatAllocationNodes | esctl/cmd/cat.py:30-48 | the transform succeeds exactly when every node does, each node transformed in its place, and without the table formatter nothing changes |
| CatCommands.PluginHeaders | esctl/cmd/cat.py:57-59 | three columns, the first two labelled `node` and `plugin` |
| CatCommands.PluginVersionHeader | esctl/cmd/cat.py:58 | the third column's label `Version` is derived from its id |
| CatCommands.PluginName | esctl/cmd/cat.py:62 | the sort key is the plugin's `name`; a plugin without one raises `KeyError` |
| CatCommands.CatPlugins | esctl/cmd/cat.py:61-62 | the sorted plugins are a permutation of the plugins given |
| CatCommands.CatPluginsSorted | esctl/cmd/cat.py:61-62 | the sort succeeds exactly when every name is a string; the plugins then come out ordered by name, stably |
| CatCommands.PoolEntry | esctl/cmd/cat.py:111-114 | a column keeps its name, and a column that is not a counter is never touched |
| CatCommands.ThreadPool | esctl/cmd/cat.py:111-114 | a pool keeps its number of columns |
| CatCommands.PoolEntryShows | esctl/cmd/cat.py:113-114 | a counter shows red exactly when `int()` of it is above zero; any other value is left alone |
| CatCommands.ThreadPoolColumns | esctl/cmd/cat.py:110-116 | a pool keeps its columns in order, each shown as a single column is |
| CatCommands.ThreadPoolBadCounter | esctl/cmd/cat.py:113 | a counter that `int()` cannot read stops the transform |
| CatCommands.CatThreadpool | esctl/cmd/cat.py:107-118 | one pool out per pool in |
| CatCommands.CatThreadpoolPools | esctl/cmd/cat.py:107-118 | the transform succeeds exactly when every pool does, each in its place |
| CatCommands.ThreadpoolHeaders | esctl/cmd/cat.py:71-74 | the headers are never empty, and given headers are used as they are |
| CatCommands.ThreadpoolColumns | esctl/cmd/cat.py:85 | one single-element column per comma-separated header, in order |
| CatCommands.ThreadpoolColumnsRoundTrip | esctl/cmd/cat.py:85 | the column ids joined with commas give back the requested headers |
| CatCommands.ThreadpoolColumnsOfIds | esctl/cmd/cat.py:85 | comma-free ids joined with commas split back into those ids |
| CatCommands.DefaultColumnsCommaFree | esctl/cmd/cat.py:71 | no default column name holds a comma |
| CatCommands.DefaultThreadpoolColumns | esctl/cmd/cat.py:71-85 | without `--headers` the six default columns are shown, in order |
| ClusterCommands.FixedRows | esctl/cmd/cluster.py:25-33 | the explanation starts with the five rows index, can_allocate, explanation, last_allocation_status, reason; a response without `unassigned_info` raises `AttributeError` |
| ClusterCommands.FixedRowsDistinct | esctl/cmd/cluster.py:25-33 | the five fixed rows have distinct names |
| ClusterCommands.FixedRowsValues | esctl/cmd/cluster.py:25-33 | each fixed row reads the response under its own name, `explanation` reading `allocate_explanation` and the last two reading `unassigned_info` |
| ClusterCommands.NodeDecision | esctl/cmd/cluster.py:35-38 | a node's row is its `node_name` and the `explanation` of its first decider; it is built exactly when the node is a dict with a string name and a non-empty list of deciders whose first is a dict; a node that is not a dict gives `AttributeError`, empty deciders `IndexError`, `None` deciders `TypeError`, a dict of deciders `KeyError` |
| ClusterCommands.AllocationExplain | esctl/cmd/cluster.py:11-40 | a listing always has the headers Attribute, Value; a transport error never fails; an explanation is listed only when the fixed rows and the node list could be read |
| ClusterCommands.AllocationExplainErrors | esctl/cmd/cluster.py:14-23 | a 400 lists the headers with no rows, and any other transport error returns nothing |
| ClusterCommands.AllocationExplainRows | esctl/cmd/cluster.py:25-40 | the five fixed rows come first, in order; every node is a dict with a non-empty list of deciders; a node whose name no later node repeats is shown under its `node_name` with `deciders[0]["explanation"]` |
| ClusterCommands.AllocationExplainIs | esctl/cmd/cluster.py:35-40 | the listing is the fixed rows updated by each node's decision, in node order |
| ClusterCommands.DecisionRows | esctl/cmd/cluster.py:35-38 | adding the node decisions keeps the fixed rows in front, and the last node of a name wins |
| ClusterCommands.AllocationExplainFixedValues | esctl/cmd/cluster.py:25-38 | a fixed row keeps the response's value unless a node carries its name |
| ClusterCommands.ClusterHealth | esctl/cmd/cluster.py:46-54 | the health is listed under the sorted keys of the response; without the table formatter it is the sorted response itself |
| ClusterCommands.ClusterHealthOrdered | esctl/cmd/cluster.py:47-54 | the keys are strictly ascending and every value but the coloured status is the response's own |
| ClusterCommands.ClusterHealthStatus | esctl/cmd/cluster.py:49-52 | under the table formatter the status is shown in the colour it names |
| ClusterCommands.ClusterHealthNoColor | esctl/cmd/cluster.py:51 | a status that names no colour, or none at all, raises `AttributeError` |
| ClusterCommands.WithPrefix | esctl/cmd/cluster.py:92 | every entry is renamed to the attribute followed by its key, values and order kept |
| ClusterCommands.Explode | esctl/cmd/cluster.py:88-94 | after one attribute's step the attribute is gone, and distinct keys stay distinct |
| ClusterCommands.LastLookupWithPrefix | esctl/cmd/cluster.py:89-92 | a prefixed key reads the value its unprefixed key had last |
| ClusterCommands.WithPrefixKeys | esctl/cmd/cluster.py:92 | no key outside the attribute's prefix is added |
| ClusterCommands.ExplodeLookup | esctl/cmd/cluster.py:88-94 | the attribute is deleted, each element's key under the attribute reads the element's value, and keys outside the prefix are untouched |
| ClusterCommands.ExplodeAbsent | esctl/cmd/cluster.py:88 | statistics without the attribute pass unchanged |
| ClusterCommands.ExplodeAll | esctl/cmd/cluster.py:79-96 | the whole transform keeps keys distinct |
| ClusterCommands.ExplodeAllKeepsAbsent | esctl/cmd/cluster.py:79-96 | a missing key that no attribute begins stays missing |
| ClusterCommands.ExplodeAllRemoves | esctl/cmd/cluster.py:79-96 | for prefix-free attributes none of them is left after the transform |
| ClusterCommands.ExplodeAllAbsent | esctl/cmd/cluster.py:79-96 | statistics holding none of the attributes pass unchanged |
| ClusterCommands.StatsAttributesPrefixFree | esctl/cmd/cluster.py:80-87 | none of the six attributes begins a later one |
| ClusterCommands.NotPrefixAt | esctl/cmd/cluster.py:80-87 | strings that differ at a shared position are not prefixes of one another |
| ClusterCommands.ClusterStats | esctl/cmd/cluster.py:72-77 | the statistics have distinct keys |
| ClusterCommands.ClusterStatsShows | esctl/cmd/cluster.py:72-96 | the statistics come out in strictly ascending key order with none of the six list attributes left |
| ClusterCommands.RoutingAllocationEnable | esctl/cmd/cluster.py:102-130 | no status writes nothing; a status is written exactly when it is one of the four choices, and any other exits with status 2 |
| ClusterCommands.RoutingAllocationWrites | esctl/cmd/cluster.py:103-108 | a valid status is written as given, to the persistent tier with `--persistent` and to the transient tier otherwise |
| IndexCommands.IndexEntry | esctl/cmd/index.py:53-61 | an index is transformed exactly when its health names a colour; its keys are kept and every value but health and status is unchanged |
| IndexCommands.IndexEntryColors | esctl/cmd/index.py:54-61 | the health shows in the colour it names, and the status is italicised exactly when it is `close` |
| IndexCommands.IndexHealthGreen | esctl/cmd/index.py:54-56 | a green index shows its health in green |
| IndexCommands.IndexHealthYellow | esctl/cmd/index.py:54-56 | a yellow index shows its health in yellow |
| IndexCommands.IndexHealthRed | esctl/cmd/index.py:54-56 | a red index shows its health in red |
| IndexCommands.IndexWithoutHealth | esctl/cmd/index.py:55 | an index without health raises `AttributeError` |
| IndexCommands.IndexList | esctl/cmd/index.py:51-63 | without the table formatter the indices pass unchanged; a listing has one entry per index |
| IndexCommands.IndexListIndices | esctl/cmd/index.py:51-63 | under the table formatter the listing succeeds exactly when every index does, each transformed in its place |
| IndexCommands.IndexGivenLabels | esctl/cmd/index.py:36-49 | ten columns, with UUID, Primary, Replica and Primary Store Size as the labels of columns 4, 5, 6 and 10 |
| IndexCommands.IndexDerivedLabels | esctl/cmd/index.py:37-48 | exactly those four columns are given a label |
| SnapshotCommands.SnapshotEntry | esctl/cmd/snapshot.py:28-42 | only the status and failed shards can change, and the keys are kept when the snapshot has `failed_shards` |
| SnapshotCommands.SnapshotColors | esctl/cmd/snapshot.py:30-40 | a partial snapshot shows its status yellow and its failed shards red, a running one only its status cyan, and any other is unchanged |
| SnapshotCommands.SnapshotPartialInPlace | esctl/cmd/snapshot.py:30-36 | a partial snapshot's two values are coloured where they stand |
| SnapshotCommands.SnapshotInProgressInPlace | esctl/cmd/snapshot.py:37-40 | a running snapshot's status is coloured where it stands |
| SnapshotCommands.SnapshotTestSuccess | tests/cmd/snapshot_test.py:7-8 | a successful snapshot is unchanged |
| SnapshotCommands.SnapshotTestPartial | tests/cmd/snapshot_test.py:10-16 | a partial snapshot has both values coloured |
| SnapshotCommands.SnapshotTestInProgress | tests/cmd/snapshot_test.py:17-23 | a running snapshot has only its status coloured |
| SnapshotCommands.SnapshotList | esctl/cmd/snapshot.py:28-42 | one snapshot out per snapshot in, each transformed in its place |
| SnapshotCommands.SnapshotListSettled | esctl/cmd/snapshot.py:28-42 | snapshots that are neither partial nor running pass unchanged |
| SnapshotCommands.SnapshotListing | esctl/cmd/snapshot.py:10-26 | nine columns, one row per snapshot, each cell the transformed snapshot's value |
| NodeCommands.ExclusionSetting | esctl/cmd/node.py:10 | the setting is `cluster.routing.allocation.exclude.` followed by exactly the attribute |
| NodeCommands.ExclusionSettingInjective | esctl/cmd/node.py:10 | different attributes use different settings |
| NodeCommands.NodeExclude | esctl/cmd/node.py:9-31 | with a list the command always writes it; without one it shows the current list, and always can on a response with transient and default tiers |
| NodeCommands.NodeExcludeWrites | esctl/cmd/node.py:27-31 | a new list is written, as given, to the transient tier only, under the attribute's setting |
| NodeCommands.NodeExcludeShows | esctl/cmd/node.py:12-18 | without a list the transient value is shown, else the default value, and `None` or a list set nowhere shows as an empty string |
| NodeCommands.ShownValue | esctl/cmd/node.py:15-16 | `None` is shown as `""`, and every other value as itself |
| NodeCommands.NodeList | esctl/cmd/node.py:82-95 | one row per node and one cell per column, each cell the node's value under the column's id |
| NodeCommands.NodeListGivenLabels | esctl/cmd/node.py:82-95 | ten columns, with IP first and Role eighth |
| NodeCommands.NodeListDerivedLabels | esctl/cmd/node.py:83-94 | only the IP and Role columns carry their own label |
| RoleCommands.RoleEntry | esctl/cmd/roles.py:28-30 | a definition that is not a dictionary raises `AttributeError`, and one whose permissions do not join fails; a row leads with `role` and holds exactly `role`, `cluster` and the definition's keys |
| RoleCommands.RoleEntryFields | esctl/cmd/roles.py:29-30 | `role` is the role's name unless the definition has its own, `cluster` is the permissions joined with `, `, and every other key is the definition's |
| RoleCommands.RolesGet | esctl/cmd/roles.py:8-32 | one row per role of the response |
| RoleCommands.RolesGetAscending | esctl/cmd/roles.py:8-32 | the rows come in strictly ascending order of role name |
| RoleCommands.RolesGetCover | esctl/cmd/roles.py:8-32 | every role of the response has its row, and the listing fails exactly when some role does not transform |
| RoleCommands.RoleLabels | esctl/cmd/roles.py:15-22 | five columns, the second and third labelled as cluster- and index-level permissions |
| RoleCommands.RoleDerivedLabels | esctl/cmd/roles.py:16-21 | only those two columns are given their label |
| TaskCommands.CompletedLookup | esctl/cmd/task.py:48-57 | a completed task reads its key as `name`, an existing `parent_task_id` or else an empty one, its readable start time, and every other key as before |
| TaskCommands.Completed | esctl/cmd/task.py:48-57 | the task's keys stay first and in order, and the only keys it gains are `name`, `parent_task_id` and `start_time_human_readable`; a dictionary stays one |
| TaskCommands.TaskEntry | esctl/cmd/task.py:48-57 | a task that is not a dictionary raises `TypeError`; otherwise it is completed exactly when its start time converts |
| TaskCommands.TaskEntryFields | esctl/cmd/task.py:48-57 | a transformed task carries its key as `name`, keeps an existing `parent_task_id` and otherwise shows an empty one, shows its readable start time, and keeps every other key |
| TaskCommands.NodeTasks | esctl/cmd/task.py:47-59 | a node's tasks are listed only when the node and its `tasks` are dictionaries, one per task |
| TaskCommands.NodesTasks | esctl/cmd/task.py:46-59 | one listed task per (node, task) pair |
| TaskCommands.TaskList | esctl/cmd/task.py:11-61 | a response whose `nodes` is not a dictionary raises `AttributeError`; otherwise one listed task per (node, task) pair |
| TaskCommands.WellFormedCons | esctl/cmd/task.py:46-47 | a list of nodes is well formed exactly when its first node and the rest are |
| TaskCommands.NodeTasksAt | esctl/cmd/task.py:47-59 | a node's listing succeeds exactly when the node is well formed and each task transforms, each in its place |
| TaskCommands.NodesTasksOk | esctl/cmd/task.py:46-59 | the loops succeed exactly when every node is well formed and every task transforms |
| TaskCommands.NodesTasksPairs | esctl/cmd/task.py:46-59 | the `i`-th listed task is the `i`-th (node, task) pair's task, transformed, in iteration order |
| TaskCommands.TaskListNames | esctl/cmd/task.py:43-61 | each listed task carries its own key as `name`, keeps an existing `parent_task_id` and otherwise shows an empty one |
| TaskCommands.TaskListMalformed | esctl/cmd/task.py:46-47 | a node that is not a dictionary, or whose `tasks` is not one, makes the listing fail |
| TaskCommands.TaskListing | esctl/cmd/task.py:19-32 | ten columns, one row per task, each cell the task's value |
| UserCommands.UserEntry | esctl/cmd/users.py:30-32 | a user that is not a dictionary raises `AttributeError`, and roles that do not join fail; otherwise `roles` is the joined roles and every other key is the user's own |
| UserCommands.UsersGet | esctl/cmd/users.py:10-34 | one row per user of the response |
| UserCommands.UserRolesJoined | esctl/cmd/users.py:31 | a list of role names shows as the names separated by `, ` |
| UserCommands.UsersGetAscending | esctl/cmd/users.py:10-34 | the rows come in strictly ascending order of user name |
| UserCommands.UsersGetCover | esctl/cmd/users.py:10-34 | every user of the response has its row, and the listing fails exactly when some user does not transform |
| UserCommands.UsersListing | esctl/cmd/users.py:17-26 | six columns, one row per user, the last showing whether the user is enabled |

## Left out

- HTTP transport (esctl/override.py, esctl/elasticsearch.py): connections, SSL, retries and server choice belong to the Elasticsearch client library. Every cluster response is a parameter.
- YAML reading and writing, and the cerberus schema validation of the configuration file: foreign libraries. The file's contents are a parameter, and `config context set` is modelled as the update of `default-context`, without the write.
- argparse and cliff wiring: argument parsing and table rendering are library code. Parsed flags are parameters, and a listing is the `(headers, rows)` pair the formatter returns.
- Logging handlers, running the external password command with `os.popen`, and the pre- and post-run shell commands in esctl/main.py: process I/O. What the external password command prints is the parameter `output` of `App.InsertPassword`.
- `convert_timestamp_in_ms_to_human_readable` (esctl/cmd/task.py) uses floating point and `datetime`. It is the parameter `readable` of the task transform.
- `uses_table_formatter`, `objects_list_to_flat_dict`, `request` and `read_from_file_or_stdin` are not part of this model. The formatter switch is a `bool` parameter. The flattened statistics `objects_list_to_flat_dict` builds in `ClusterStats` (esctl/cmd/cluster.py:89) are the parameter `flat` of `ClusterCommands.Explode` and `ClusterCommands.ExplodeAll`, unconstrained. The response `request` returns in the migration command (esctl/cmd/migration.py:11) is the parameter `d` of `MigrationCommands.Transform`. Only `read_from_file_or_stdin` belongs to a command that is left out (esctl/cmd/index.py:13).
- `ClusterInfo` relies on `_delete_and_merge_inner_dict_into_parent`, which is not part of this model.
- The raw, alias, repository and document commands, and the open, close, create, delete and hot-threads commands: each is one REST call rendered by the modelled formatter.
- ClusterCommands.RoutingAllocationEnable: `AbstractClusterSettings`, `_settings_set` and `_settings_get` are not defined in the files modelled (esctl/cmd/cluster.py:3 imports a name that esctl/cmd/settings.py does not define), so the request body is assumed to be the one `ClusterSettingsSet` sends, `{persistency: {setting: status}}` with `persistent` or `transient` as the tier; the read-back of the setting after the write is not modelled.
- The node and logging commands read `self.cluster_settings` (esctl/cmd/node.py:13,28, esctl/cmd/logging.py:15,33,50), but the base class names the resolver `settings` (esctl/commands.py:34) and no file defines `cluster_settings`. As the files read, these lines raise `AttributeError`; the model reads `cluster_settings` as the `settings` resolver, which is evidently what was meant.
- The responses printed after `settings.set` calls are not modelled; only the request bodies are.
- Floating-point values are not modelled: JSON numbers are integers.
- Case mapping covers ASCII letters only.
- `str()` of a list or dictionary is approximated without Python's quoting and escaping.
- `setting.persistency is "defaults"` in esctl/cmd/settings.py compares identity. It is modelled as equality, which is what CPython gives for the interned literal.
- tests/cmd/index_test.py and tests/cmd/cmd_settings_test.py refer to `IndexReindex`, `retrieve_setting` and `SettingNotFoundError`, which the code does not define. The model follows the code, which logs a missing setting rather than raising.
- ClusterCommands.NodeDecision: Python would use a node name of any hashable type as the row key. The model requires a string and treats any other name as `TypeError`.
- Json.ParseInt: Python's `int()` also accepts non-ASCII decimal digits (Arabic-Indic digits, say). The model reads ASCII digits only and gives `ValueError` for the others. Its whitespace is Python's full `str.isspace` set.
- CatCommands.CatPlugins: Python can also sort plugins whose names are all integers. The model sorts string names only and fails on any other name.

## Findings

| source | as written | input that shows it | evidently intended | confidence | as-written member | corrected member |
|---|---|---|---|---|---|---|
| esctl/cmd/logging.py:14-18 | `self.cluster_settings.get(...) or ""` is printed as the level. Reading `cluster_settings` as the base class's `settings` resolver (esctl/commands.py:34; as the files read, the attribute is undefined and the line raises `AttributeError` first), a `Setting` object is always truthy, so the line shows `str(setting)`, which is `name=value(persistency)`. | logger `logger.foo` set to `DEBUG` in the transient tier: under that reading the command prints `logger.foo : logger.foo=DEBUG(transient)` | print the setting's value, or an empty string when it has none: `logger.foo : DEBUG` | not executed | LoggingCommands.LoggingGetAsWritten | LoggingCommands.LoggingGet |

=== FILE: app.dfy ===
/** The decisions the application makes once a context is loaded
    (esctl/main.py): the URL scheme, the console log level and the HTTP
    credentials handed to the Elasticsearch client. */
module App {
  import opened Results
  import opened Json
  import opened Assoc
  import Text

  // ---------------------------------------------------------------------------
  // find_scheme
  // ---------------------------------------------------------------------------

  /** `find_scheme` on the context's cluster entry: `http` when the first
      server starts with `http:` (the text before its first colon), `https`
      otherwise. A cluster that is not a dictionary, or whose `servers` is
      missing or empty, raises the error Python would. */
  function FindScheme(cluster: Json): (r: Result<string>)
    ensures r.Ok? ==> r.value == "http" || r.value == "https"
  {
    var servers :- PyGet(cluster, "servers");
    var first :- Index0(servers);
    match first
    case JStr(s) =>
      if Text.StartsWith(s, "http:") then
        Text.SplitFirst("http", s[5..], ':');
        assert s == "http" + [':'] + s[5..];
        Ok(Text.Split(s, ':')[0])
      else
        Ok("https")
    case _ => Err(AttributeError)
  }

  /** Test fixture: a cluster entry with the given servers, as the scheme
      tests build it (tests/main_test.py). It models no source function. */
  function ClusterWith(servers: seq<string>): (r: Json)
    ensures r.JObj? && Get(r.fields, "servers").JArr?
  {
    JObj([("servers", JArr(ServerList(servers)))])
  }

  /** Test fixture: the servers as a JSON list of strings, in order. */
  function ServerList(servers: seq<string>): (r: seq<Json>)
    ensures |r| == |servers|
    ensures forall i :: 0 <= i < |servers| ==> r[i] == JStr(servers[i])
  {
    if servers == [] then [] else [JStr(servers[0])] + ServerList(servers[1..])
  }

  /** The scheme is `http` exactly when the first server starts with `http:`. */
  lemma FindSchemeHttp(first: string, rest: seq<string>)
    ensures FindScheme(ClusterWith([first] + rest)) == Ok(if Text.StartsWith(first, "http:") then "http" else "https")
  {
    var servers := JArr(ServerList([first] + rest));
    assert PyGet(ClusterWith([first] + rest), "servers") == Ok(servers);
    assert Index0(servers) == Ok(JStr(first));
    if Text.StartsWith(first, "http:") {
      Text.SplitFirst("http", first[5..], ':');
      assert first == "http" + [':'] + first[5..];
    }
  }

  /** Only the first server is read. */
  lemma FindSchemeFirstServerOnly(first: string, rest: seq<string>)
    ensures FindScheme(ClusterWith([first] + rest)) == FindScheme(ClusterWith([first]))
  {
    FindSchemeHttp(first, rest);
    FindSchemeHttp(first, []);
    assert [first] + [] == [first];
  }

  /** A cluster without servers cannot give a scheme. */
  lemma FindSchemeNoServers()
    ensures FindScheme(ClusterWith([])) == Err(IndexError)
    ensures FindScheme(JObj([])) == Err(TypeError)
  {
  }

  /** A single server decides the scheme the same way. */
  lemma FindSchemeSingle(server: string)
    ensures FindScheme(ClusterWith([server])) == Ok(if Text.StartsWith(server, "http:") then "http" else "https")
  {
    FindSchemeHttp(server, []);
    assert [server] + [] == [server];
  }

  /** A server whose fifth character is not a colon does not start with `http:`. */
  lemma NotHttp(server: string)
    requires |server| >= 5 && server[4] != ':'
    ensures !Text.StartsWith(server, "http:")
  {
    assert server[..5][4] == server[4];
  }

  /** The cases of the scheme-discovery test: `http:` selects `http`... */
  lemma FindSchemeHttpExample()
    ensures FindScheme(ClusterWith(["http:" + "//foo.example.com:8200"])) == Ok("http")
  {
    var http := "http:" + "//foo.example.com:8200";
    FindSchemeSingle(http);
    assert http[..5] == "http:";
  }

  /** ... and `https:` does not. */
  lemma FindSchemeHttpsExample()
    ensures FindScheme(ClusterWith(["https" + "://foo.example.com:8200"])) == Ok("https")
  {
    var https := "https" + "://foo.example.com:8200";
    FindSchemeSingle(https);
    NotHttp(https);
  }

  /** Servers glued into one string are one server, read as `https`. */
  lemma FindSchemeJoinedExample()
    ensures FindScheme(ClusterWith(["https://foo.example.com:8200" + "http://bar.example.com:8200"
                                    + "http://baz.example.com:8200"])) == Ok("https")
  {
    var https := "https://foo.example.com:8200";
    var joined := https + "http://bar.example.com:8200" + "http://baz.example.com:8200";
    FindSchemeSingle(joined);
    assert joined[4] == https[4] == 's';
    NotHttp(joined);
  }

  /** The test's server with another scheme uses `https`... */
  lemma FindSchemeOtherExample()
    ensures FindScheme(ClusterWith(["foo://foo.example.com:8200"])) == Ok("https")
  {
    var foo := "foo://foo.example.com:8200";
    FindSchemeSingle(foo);
    NotHttp(foo);
  }

  /** ... and so does its server without a scheme. */
  lemma FindSchemeBareExample()
    ensures FindScheme(ClusterWith(["foo.example.com:8200"])) == Ok("https")
  {
    var bare := "foo.example.com:8200";
    FindSchemeSingle(bare);
    NotHttp(bare);
  }

  // ---------------------------------------------------------------------------
  // configure_logging: the console level
  // ---------------------------------------------------------------------------

  /** The numeric levels of Python's `logging` module. */
  const DEBUG: int := 10
  const INFO: int := 20
  const WARNING: int := 30
  const ERROR: int := 40

  /** The console level for a verbosity: `-q` (0) shows errors only, the
      default (1) warnings, then info (2) and debug (3); any other
      verbosity shows everything. */
  function ConsoleLevel(verbosity: int): (r: int)
    ensures r in {DEBUG, INFO, WARNING, ERROR}
    ensures !(0 <= verbosity <= 3) ==> r == DEBUG
  {
    if verbosity == 0 then ERROR
    else if verbosity == 1 then WARNING
    else if verbosity == 2 then INFO
    else DEBUG
  }

  /** More verbosity never hides more: from 0 upwards the level only falls. */
  lemma ConsoleLevelMonotone(a: int, b: int)
    requires 0 <= a <= b
    ensures ConsoleLevel(b) <= ConsoleLevel(a)
  {
  }

  /** Each of the four named verbosities has its own level. */
  lemma ConsoleLevelDistinct(a: int, b: int)
    requires 0 <= a <= 3 && 0 <= b <= 3
    requires ConsoleLevel(a) == ConsoleLevel(b)
    ensures a == b
  {
  }

  // ---------------------------------------------------------------------------
  // initialize_app: http_auth
  // ---------------------------------------------------------------------------

  /** `insert_password_into_context` on a user entry holding
      `external_password`: the entry is taken out, and when its `command`
      has a `run`, that command's output, stripped, becomes the password.
      `output` is what the shell prints for a command; running it is I/O
      and not modelled. A definition that is neither a dictionary nor a
      container raises the error Python would, and so does a command that
      is not a string (`os.popen` refuses it). */
  function InsertPassword(user: Obj, output: string -> string): (r: Result<Obj>)
    ensures r.Ok? ==> !HasKey(r.value, EXTERNAL_PASSWORD)
    ensures r.Ok? ==> forall k :: k != EXTERNAL_PASSWORD && k != PASSWORD ==> Lookup(r.value, k) == Lookup(user, k)
  {
    var definition := Get(user, EXTERNAL_PASSWORD);
    var rest := Remove(user, EXTERNAL_PASSWORD);
    RemoveKeys(user, rest);
    var hasCommand :- PyContains(definition, "command");
    if !hasCommand then Ok(rest)
    else
      var command :- PyGet(definition, "command");
      var hasRun :- PyContains(command, "run");
      if !hasRun then Ok(rest)
      else
        var run :- PyGet(command, "run");
        if !run.JStr? then Err(TypeError)
        else
          var password := JStr(StripRight(StripLeft(output(run.s))));
          PutLookupAll(rest, password);
          Ok(Put(rest, PASSWORD, password))
  }

  const EXTERNAL_PASSWORD: string := "external_password"
  const PASSWORD: string := "password"

  /** Removing a key leaves the key out and every other key as it was. */
  lemma RemoveKeys(user: Obj, rest: Obj)
    requires rest == Remove(user, EXTERNAL_PASSWORD)
    ensures !HasKey(rest, EXTERNAL_PASSWORD)
    ensures forall k :: k != EXTERNAL_PASSWORD ==> Lookup(rest, k) == Lookup(user, k)
  {
    forall k
      ensures Lookup(rest, k) == if k == EXTERNAL_PASSWORD then None else Lookup(user, k)
    {
      RemoveLookup(user, EXTERNAL_PASSWORD, k);
    }
    assert Lookup(rest, EXTERNAL_PASSWORD) == None;
  }

  /** Assigning the password changes no other key. */
  lemma PutLookupAll(rest: Obj, password: Json)
    ensures forall k :: Lookup(Put(rest, PASSWORD, password), k) == if k == PASSWORD then Some(password) else Lookup(rest, k)
  {
    forall k
      ensures Lookup(Put(rest, PASSWORD, password), k) == if k == PASSWORD then Some(password) else Lookup(rest, k)
    {
      PutLookup(rest, PASSWORD, password, k);
    }
  }

  /** The user entry `initialize_app` ends up with: its external password
      resolved first when it names one. A user that is not a container
      makes the `in` test raise `TypeError`; one that is a string or a list
      has no `.get` and raises `AttributeError`. */
  function ResolvedUser(user: Json, output: string -> string): (r: Result<Obj>)
    requires !user.JNull?
    ensures user.JInt? || user.JBool? ==> r == Err(TypeError)
    ensures user.JStr? || user.JArr? ==> r == Err(AttributeError)
    ensures user.JObj? && !HasKey(user.fields, EXTERNAL_PASSWORD) ==> r == Ok(user.fields)
  {
    var external :- PyContains(user, EXTERNAL_PASSWORD);
    match user
    case JObj(f) => if external then InsertPassword(f, output) else Ok(f)
    case _ => Err(AttributeError)
  }

  /** The `http_auth` of `initialize_app` for the context's user entry:
      `(username, password)` of the resolved entry when both are set and
      non-empty, otherwise (and with no user at all) `None`. */
  function HttpAuth(user: Json, output: string -> string): (r: Result<Option<(Json, Json)>>)
    ensures user.JNull? ==> r == Ok(None)
    ensures r.Ok? && r.value.Some? ==> Truthy(r.value.value.0) && Truthy(r.value.value.1)
    ensures user.JInt? || user.JBool? ==> r == Err(TypeError)
    ensures user.JStr? || user.JArr? ==> r == Err(AttributeError)
  {
    if user.JNull? then Ok(None)
    else
      var f :- ResolvedUser(user, output);
      var username := Get(f, "username");
      var password := Get(f, PASSWORD);
      if Truthy(username) && Truthy(password) then Ok(Some((username, password))) else Ok(None)
  }

  /** For a user entry, credentials are sent exactly when the resolved
      entry has both set, and they are that entry's own. */
  lemma HttpAuthBothSet(user: Obj, output: string -> string)
    ensures var r := HttpAuth(JObj(user), output);
            var f := ResolvedUser(JObj(user), output);
            (r.Ok? <==> f.Ok?) &&
            (r.Ok? ==>
               (r.value.Some? <==> Truthy(Get(f.value, "username")) && Truthy(Get(f.value, PASSWORD))) &&
               (r.value.Some? ==> r.value.value == (Get(f.value, "username"), Get(f.value, PASSWORD))))
  {
  }

  /** Without `external_password` the entry's own username and password
      are sent when both are set. */
  lemma HttpAuthPlain(user: Obj, output: string -> string)
    requires !HasKey(user, EXTERNAL_PASSWORD)
    ensures HttpAuth(JObj(user), output) ==
              Ok(if Truthy(Get(user, "username")) && Truthy(Get(user, PASSWORD))
                 then Some((Get(user, "username"), Get(user, PASSWORD))) else None)
  {
  }

  /** An external password `{command: {run: cmd}}` is replaced by the
      stripped output of `cmd`. */
  lemma InsertPasswordRun(user: Obj, cmd: string, output: string -> string)
    requires Lookup(user, EXTERNAL_PASSWORD) == Some(JObj([("command", JObj([("run", JStr(cmd))]))]))
    ensures InsertPassword(user, output) ==
              Ok(Put(Remove(user, EXTERNAL_PASSWORD), PASSWORD, JStr(StripRight(StripLeft(output(cmd))))))
  {
    var command := JObj([("run", JStr(cmd))]);
    var definition := JObj([("command", command)]);
    assert Get(user, EXTERNAL_PASSWORD) == definition;
    assert PyContains(definition, "command") == Ok(true);
    assert PyGet(definition, "command") == Ok(command);
    assert PyContains(command, "run") == Ok(true);
    assert PyGet(command, "run") == Ok(JStr(cmd));
  }

  /** A definition without a `command` only drops `external_password`:
      the entry keeps whatever password it held. */
  lemma InsertPasswordNoCommand(user: Obj, definition: Obj, output: string -> string)
    requires Lookup(user, EXTERNAL_PASSWORD) == Some(JObj(definition))
    requires !HasKey(definition, "command")
    ensures InsertPassword(user, output) == Ok(Remove(user, EXTERNAL_PASSWORD))
  {
    assert Get(user, EXTERNAL_PASSWORD) == JObj(definition);
  }

  /** An entry naming a command resolves to the entry with the command's
      output as its password. */
  lemma ResolvedExternal(user: Obj, cmd: string, output: string -> string)
    requires Lookup(user, EXTERNAL_PASSWORD) == Some(JObj([("command", JObj([("run", JStr(cmd))]))]))
    ensures ResolvedUser(JObj(user), output) ==
              Ok(Put(Remove(user, EXTERNAL_PASSWORD), PASSWORD, JStr(StripRight(StripLeft(output(cmd))))))
  {
    InsertPasswordRun(user, cmd, output);
    assert PyContains(JObj(user), EXTERNAL_PASSWORD) == Ok(true);
  }

  /** The credentials depend on the user entry only through the entry it
      resolves to. */
  lemma HttpAuthResolved(user: Obj, output: string -> string, f: Obj)
    requires ResolvedUser(JObj(user), output) == Ok(f)
    ensures HttpAuth(JObj(user), output) ==
              Ok(if Truthy(Get(f, "username")) && Truthy(Get(f, PASSWORD))
                 then Some((Get(f, "username"), Get(f, PASSWORD))) else None)
  {
  }

  /** With `external_password: {command: {run: cmd}}` the password sent is
      the stripped output of `cmd`, whatever password the entry held. */
  lemma HttpAuthExternal(user: Obj, cmd: string, output: string -> string)
    requires Lookup(user, EXTERNAL_PASSWORD) == Some(JObj([("command", JObj([("run", JStr(cmd))]))]))
    ensures var secret := JStr(StripRight(StripLeft(output(cmd))));
            HttpAuth(JObj(user), output) ==
              Ok(if Truthy(Get(user, "username")) && Truthy(secret)
                 then Some((Get(user, "username"), secret)) else None)
  {
    var secret := JStr(StripRight(StripLeft(output(cmd))));
    var rest := Remove(user, EXTERNAL_PASSWORD);
    var f := Put(rest, PASSWORD, secret);
    ResolvedExternal(user, cmd, output);
    HttpAuthResolved(user, output, f);
    PutLookup(rest, PASSWORD, secret, PASSWORD);
    PutLookup(rest, PASSWORD, secret, "username");
    RemoveLookup(user, EXTERNAL_PASSWORD, "username");
    assert Get(f, PASSWORD) == secret;
    assert Get(f, "username") == Get(user, "username");
  }

  /** An entry whose external password is `None` raises `TypeError` at
      `"command" in None`. */
  lemma HttpAuthExternalNone(user: Obj, output: string -> string)
    requires Lookup(user, EXTERNAL_PASSWORD) == Some(JNull)
    ensures HttpAuth(JObj(user), output) == Err(TypeError)
  {
    assert HasKey(user, EXTERNAL_PASSWORD);
  }

  /** A user entry that is a string or a list has no `.get`. */
  lemma HttpAuthNotADict(user: Json, output: string -> string)
    requires user.JStr? || user.JArr?
    ensures HttpAuth(user, output) == Err(AttributeError)
  {
  }

  /** A number or a boolean cannot be searched with `in`. */
  lemma HttpAuthNotAContainer(user: Json, output: string -> string)
    requires user.JInt? || user.JBool?
    ensures HttpAuth(user, output) == Err(TypeError)
  {
  }
}

=== FILE: assoc.dfy ===
/** Python dictionaries as ordered association lists.

    A Python `dict` remembers insertion order; assigning to a key that is
    already present replaces its value in place, and a new key goes to the end.
    `Lookup` reads the first pair with the key, which for a real dictionary
    (`DistinctKeys`) is the only one. */
module Assoc {
  import opened Results

  /** The keys in order. */
  function Keys<K, V>(d: seq<(K, V)>): (r: seq<K>)
    ensures |r| == |d|
    ensures forall i :: 0 <= i < |d| ==> r[i] == d[i].0
  {
    if d == [] then [] else [d[0].0] + Keys(d[1..])
  }

  lemma {:induction false} KeysAppend<K, V>(a: seq<(K, V)>, b: seq<(K, V)>)
    ensures Keys(a + b) == Keys(a) + Keys(b)
  {
    assert |Keys(a + b)| == |Keys(a) + Keys(b)|;
    forall i | 0 <= i < |a + b|
      ensures Keys(a + b)[i] == (Keys(a) + Keys(b))[i]
    {
      if i < |a| {
        assert (a + b)[i] == a[i];
      } else {
        assert (a + b)[i] == b[i - |a|];
      }
    }
  }

  /** Python `k in d`. */
  predicate HasKey<K(==), V>(d: seq<(K, V)>, k: K) {
    k in Keys(d)
  }

  /** The invariant every Python dictionary satisfies. */
  predicate DistinctKeys<K(==), V>(d: seq<(K, V)>) {
    forall i, j :: 0 <= i < j < |d| ==> d[i].0 != d[j].0
  }

  /** Keys that differ pairwise make a dictionary. */
  lemma DistinctByKeys<K, V>(d: seq<(K, V)>)
    requires forall i, j :: 0 <= i < j < |d| ==> Keys(d)[i] != Keys(d)[j]
    ensures DistinctKeys(d)
  {
    forall i, j | 0 <= i < j < |d|
      ensures d[i].0 != d[j].0
    {
      assert Keys(d)[i] != Keys(d)[j];
    }
  }

  /** Python `d.get(k)`, with `None` for a missing key. */
  function Lookup<K(==), V>(d: seq<(K, V)>, k: K): (r: Option<V>)
    ensures r.Some? <==> HasKey(d, k)
    ensures r.Some? ==> (k, r.value) in d
  {
    if d == [] then None
    else if d[0].0 == k then Some(d[0].1)
    else Lookup(d[1..], k)
  }

  /** In a dictionary, looking a key up finds exactly the pairs it holds. */
  lemma {:induction false} LookupDistinct<K, V>(d: seq<(K, V)>, k: K, v: V)
    requires DistinctKeys(d)
    ensures Lookup(d, k) == Some(v) <==> (k, v) in d
  {
    if d != [] && d[0].0 != k {
      LookupDistinct(d[1..], k, v);
    }
  }

  /** In a dictionary, the key at position `i` reads the value at position `i`. */
  lemma LookupAt<K, V>(d: seq<(K, V)>, i: nat)
    requires DistinctKeys(d) && i < |d|
    ensures Lookup(d, d[i].0) == Some(d[i].1)
  {
    LookupDistinct(d, d[i].0, d[i].1);
  }

  /** Python `d[k] = v`. */
  function Put<K(==, !new), V>(d: seq<(K, V)>, k: K, v: V): (r: seq<(K, V)>)
    ensures Keys(r) == if HasKey(d, k) then Keys(d) else Keys(d) + [k]
    ensures DistinctKeys(d) ==> DistinctKeys(r)
  {
    if d == [] then [(k, v)]
    else if d[0].0 == k then
      PutHere(d, v);
      [(k, v)] + d[1..]
    else
      var rest := Put(d[1..], k, v);
      PutFurther(d, k, rest);
      [d[0]] + rest
  }

  /** The step of `Put` that finds the key in front. */
  lemma PutHere<K, V>(d: seq<(K, V)>, v: V)
    requires d != []
    ensures Keys([(d[0].0, v)] + d[1..]) == Keys(d)
    ensures DistinctKeys(d) ==> DistinctKeys([(d[0].0, v)] + d[1..])
  {
    assert d == [d[0]] + d[1..];
    ConsKeys(d[0], d[1..]);
    ConsKeys((d[0].0, v), d[1..]);
  }

  /** The step of `Put` that passes a different key in front. */
  lemma PutFurther<K, V>(d: seq<(K, V)>, k: K, rest: seq<(K, V)>)
    requires d != [] && d[0].0 != k
    requires Keys(rest) == if k in Keys(d[1..]) then Keys(d[1..]) else Keys(d[1..]) + [k]
    requires DistinctKeys(d[1..]) ==> DistinctKeys(rest)
    ensures Keys([d[0]] + rest) == if k in Keys(d) then Keys(d) else Keys(d) + [k]
    ensures DistinctKeys(d) ==> DistinctKeys([d[0]] + rest)
  {
    assert d == [d[0]] + d[1..];
    ConsKeys(d[0], d[1..]);
    ConsKeys(d[0], rest);
    PutFurtherKeys(d[0].0, Keys(d[1..]), k, Keys(rest));
  }

  lemma PutFurtherKeys<K>(k0: K, front: seq<K>, k: K, rest: seq<K>)
    requires k0 != k
    requires rest == if k in front then front else front + [k]
    ensures [k0] + rest == if k in [k0] + front then [k0] + front else [k0] + front + [k]
    ensures k0 !in front ==> k0 !in rest
  {
    assert k in [k0] + front <==> k in front;
  }

  /** A pair in front of a dictionary: its key comes first, and the whole is
      a dictionary exactly when the rest is one without that key. */
  lemma ConsKeys<K, V>(p: (K, V), rest: seq<(K, V)>)
    ensures Keys([p] + rest) == [p.0] + Keys(rest)
    ensures DistinctKeys([p] + rest) <==> p.0 !in Keys(rest) && DistinctKeys(rest)
  {
    var d := [p] + rest;
    assert d[1..] == rest;
    if DistinctKeys(d) {
      forall i, j | 0 <= i < j < |rest| ensures rest[i].0 != rest[j].0 {
        assert d[i + 1] == rest[i] && d[j + 1] == rest[j];
      }
    }
    if p.0 !in Keys(rest) && DistinctKeys(rest) {
      forall i, j | 0 <= i < j < |d| ensures d[i].0 != d[j].0 {
        if i == 0 {
          assert d[j].0 == Keys(rest)[j - 1];
        } else {
          assert d[i] == rest[i - 1] && d[j] == rest[j - 1];
        }
      }
    }
  }

  /** In a dictionary, overwriting the key at position `i` replaces that
      pair where it stands. */
  lemma PutAt<K(!new), V>(d: seq<(K, V)>, i: nat, v: V)
    requires DistinctKeys(d) && i < |d|
    ensures Put(d, d[i].0, v) == d[..i] + [(d[i].0, v)] + d[i + 1..]
  {
    PutAtFirst(d, i, v);
  }

  lemma {:induction false} PutAtFirst<K(!new), V>(d: seq<(K, V)>, i: nat, v: V)
    requires i < |d|
    requires forall j :: 0 <= j < i ==> d[j].0 != d[i].0
    ensures Put(d, d[i].0, v) == d[..i] + [(d[i].0, v)] + d[i + 1..]
  {
    var k := d[i].0;
    if i == 0 {
      assert Put(d, k, v) == [(k, v)] + d[1..];
      assert d[..0] == [];
    } else {
      var tail := d[1..];
      assert tail[i - 1] == d[i];
      forall j | 0 <= j < i - 1
        ensures tail[j].0 != tail[i - 1].0
      {
        assert tail[j] == d[j + 1];
      }
      PutAtFirst(tail, i - 1, v);
      PutAtStep(d, i, v);
    }
  }

  /** One step of `PutAtFirst`: a different first key stays in front. */
  lemma PutAtStep<K(!new), V>(d: seq<(K, V)>, i: nat, v: V)
    requires 0 < i < |d| && d[0].0 != d[i].0
    requires Put(d[1..], d[i].0, v) == d[1..][..i - 1] + [(d[i].0, v)] + d[1..][i..]
    ensures Put(d, d[i].0, v) == d[..i] + [(d[i].0, v)] + d[i + 1..]
  {
    var tail := d[1..];
    assert Put(d, d[i].0, v) == [d[0]] + Put(tail, d[i].0, v);
    PrefixCons(d, i);
    assert tail[i..] == d[i + 1..];
    ConsConcat(d[0], tail[..i - 1], [(d[i].0, v)], tail[i..]);
  }

  lemma PrefixCons<T>(d: seq<T>, i: nat)
    requires 0 < i <= |d|
    ensures d[..i] == [d[0]] + d[1..][..i - 1]
  {
  }

  lemma ConsConcat<T>(a: T, x: seq<T>, y: seq<T>, z: seq<T>)
    ensures [a] + (x + y + z) == ([a] + x) + y + z
  {
  }

  /** After `d[k] = v`, `k` reads `v` and every other key reads as before. */
  lemma {:induction false} PutLookup<K(!new), V>(d: seq<(K, V)>, k: K, v: V, k': K)
    ensures Lookup(Put(d, k, v), k') == if k' == k then Some(v) else Lookup(d, k')
  {
    if d != [] && d[0].0 != k {
      PutLookup(d[1..], k, v, k');
      assert Put(d, k, v) == [d[0]] + Put(d[1..], k, v);
    }
  }

  /** The value of the last pair with key `k`, if any. */
  function LastLookup<K(==), V>(ps: seq<(K, V)>, k: K): (r: Option<V>)
    ensures r.Some? <==> HasKey(ps, k)
  {
    if ps == [] then None
    else if ps[|ps| - 1].0 == k then Some(ps[|ps| - 1].1)
    else LastLookup(ps[..|ps| - 1], k)
  }

  /** The last pair with a key is the one `LastLookup` finds. */
  lemma {:induction false} LastLookupAt<K, V>(ps: seq<(K, V)>, i: nat)
    requires i < |ps|
    requires forall j :: i < j < |ps| ==> ps[j].0 != ps[i].0
    ensures LastLookup(ps, ps[i].0) == Some(ps[i].1)
  {
    if i < |ps| - 1 {
      var front := ps[..|ps| - 1];
      assert front[i] == ps[i];
      LastLookupAt(front, i);
    }
  }

  /** In a dictionary the last and the first value of a key agree. */
  lemma LastLookupDistinct<K, V>(ps: seq<(K, V)>, k: K)
    requires DistinctKeys(ps)
    ensures LastLookup(ps, k) == Lookup(ps, k)
  {
    if HasKey(ps, k) {
      var v := Lookup(ps, k).value;
      var i :| 0 <= i < |ps| && ps[i] == (k, v);
      LastLookupAt(ps, i);
    }
  }

  /** Assign every pair of `ps` into `d`, left to right: Python's `{**d, **ps}`,
      `d.update(ps)` and (from an empty `d`) `dict(ps)`. A later pair wins.
      No pair of `d` is lost, and each merged pair adds at most one. */
  function PutAll<K(==, !new), V>(d: seq<(K, V)>, ps: seq<(K, V)>): (r: seq<(K, V)>)
    ensures |d| <= |r| <= |d| + |ps|
  {
    if ps == [] then d
    else
      var last := ps[|ps| - 1];
      Put(PutAll(d, ps[..|ps| - 1]), last.0, last.1)
  }

  /** One step of `PutAll`: the last pair is assigned last. */
  lemma PutAllSnoc<K(!new), V>(d: seq<(K, V)>, ps: seq<(K, V)>)
    requires ps != []
    ensures ps == ps[..|ps| - 1] + [ps[|ps| - 1]]
    ensures PutAll(d, ps) == Put(PutAll(d, ps[..|ps| - 1]), ps[|ps| - 1].0, ps[|ps| - 1].1)
  {
    var front := ps[..|ps| - 1];
    assert ps == front + [ps[|ps| - 1]];
  }

  lemma HasKeySnoc<K, V>(ps: seq<(K, V)>, p: (K, V), k: K)
    ensures HasKey(ps + [p], k) <==> HasKey(ps, k) || p.0 == k
  {
    assert Keys(ps + [p]) == Keys(ps) + [p.0];
  }

  lemma PutHasKey<K(!new), V>(d: seq<(K, V)>, k0: K, v: V, k: K)
    ensures HasKey(Put(d, k0, v), k) <==> HasKey(d, k) || k == k0
  {
  }

  /** The merge holds exactly the keys of both sides. */
  lemma PutAllHasKeys<K(!new), V>(d: seq<(K, V)>, ps: seq<(K, V)>)
    ensures forall k :: HasKey(PutAll(d, ps), k) <==> HasKey(d, k) || HasKey(ps, k)
  {
    forall k
      ensures HasKey(PutAll(d, ps), k) <==> HasKey(d, k) || HasKey(ps, k)
    {
      PutAllHasKey(d, ps, k);
    }
  }

  /** Assignment keeps any prefix of the keys. */
  lemma PutKeepsPrefix<K(!new), V>(d: seq<(K, V)>, k: K, v: V, front: seq<K>)
    requires |front| <= |Keys(d)| && Keys(d)[..|front|] == front
    ensures |front| <= |Keys(Put(d, k, v))| && Keys(Put(d, k, v))[..|front|] == front
  {
    var ks, kd := Keys(Put(d, k, v)), Keys(d);
    if !HasKey(d, k) {
      assert ks == kd + [k];
      assert ks[..|front|] == kd[..|front|];
    }
  }

  /** A key reads its last value in `ps`, or its value in `d` if `ps` lacks it. */
  lemma {:induction false} PutAllLookup<K(!new), V>(d: seq<(K, V)>, ps: seq<(K, V)>, k: K)
    ensures Lookup(PutAll(d, ps), k) == match LastLookup(ps, k)
                                        case Some(v) => Some(v)
                                        case None => Lookup(d, k)
  {
    if ps != [] {
      var front := ps[..|ps| - 1];
      var last := ps[|ps| - 1];
      PutAllLookup(d, front, k);
      PutAllSnoc(d, ps);
      PutLookup(PutAll(d, front), last.0, last.1, k);
    }
  }

  /** Merging a dictionary: its keys read its values, the others read `d`'s. */
  lemma PutAllDictLookup<K(!new), V>(d: seq<(K, V)>, ps: seq<(K, V)>, k: K)
    requires DistinctKeys(ps)
    ensures Lookup(PutAll(d, ps), k) == if HasKey(ps, k) then Lookup(ps, k) else Lookup(d, k)
  {
    PutAllLookup(d, ps, k);
    LastLookupDistinct(ps, k);
  }

  /** `PutAll` knows exactly the keys of `d` and of `ps`. */
  lemma {:induction false} PutAllHasKey<K(!new), V>(d: seq<(K, V)>, ps: seq<(K, V)>, k: K)
    ensures HasKey(PutAll(d, ps), k) <==> HasKey(d, k) || HasKey(ps, k)
  {
    if ps != [] {
      var front := ps[..|ps| - 1];
      var last := ps[|ps| - 1];
      PutAllHasKey(d, front, k);
      PutAllSnoc(d, ps);
      PutHasKey(PutAll(d, front), last.0, last.1, k);
      HasKeySnoc(front, last, k);
    }
  }

  /** `PutAll` keeps the keys of `d` in front, in their order. */
  lemma {:induction false} PutAllKeepsOrder<K(!new), V>(d: seq<(K, V)>, ps: seq<(K, V)>)
    ensures |d| <= |PutAll(d, ps)| && Keys(PutAll(d, ps))[..|d|] == Keys(d)
  {
    if ps != [] {
      var front := ps[..|ps| - 1];
      var last := ps[|ps| - 1];
      PutAllKeepsOrder(d, front);
      PutAllSnoc(d, ps);
      var f := PutAll(d, front);
      if !HasKey(f, last.0) {
        assert (Keys(f) + [last.0])[..|d|] == Keys(f)[..|d|];
      }
    }
  }

  /** `PutAll` keeps a dictionary a dictionary. */
  lemma {:induction false} PutAllDistinct<K(!new), V>(d: seq<(K, V)>, ps: seq<(K, V)>)
    requires DistinctKeys(d)
    ensures DistinctKeys(PutAll(d, ps))
  {
    if ps != [] {
      PutAllDistinct(d, ps[..|ps| - 1]);
      PutAllSnoc(d, ps);
    }
  }

  /** Python `dict(ps)`. */
  function FromPairs<K(==, !new), V>(ps: seq<(K, V)>): (r: seq<(K, V)>)
    ensures DistinctKeys(r)
    ensures forall k :: Lookup(r, k) == LastLookup(ps, k)
  {
    PutAllDistinct([], ps);
    assert forall k :: Lookup(PutAll([], ps), k) == LastLookup(ps, k) by {
      forall k {
        PutAllLookup([], ps, k);
      }
    }
    PutAll([], ps)
  }

  /** Python `del d[k]` (a dictionary holds the key at most once). */
  function Remove<K(==), V>(d: seq<(K, V)>, k: K): (r: seq<(K, V)>)
    ensures forall p :: p in r ==> p in d && p.0 != k
  {
    if d == [] then []
    else if d[0].0 == k then Remove(d[1..], k)
    else [d[0]] + Remove(d[1..], k)
  }

  /** Removing `k` forgets `k` and nothing else. */
  lemma {:induction false} RemoveLookup<K, V>(d: seq<(K, V)>, k: K, k': K)
    ensures Lookup(Remove(d, k), k') == if k' == k then None else Lookup(d, k')
  {
    if d != [] {
      RemoveLookup(d[1..], k, k');
      if d[0].0 != k {
        assert ([d[0]] + Remove(d[1..], k))[1..] == Remove(d[1..], k);
      }
    }
  }

  lemma {:induction false} RemoveDistinct<K, V>(d: seq<(K, V)>, k: K)
    requires DistinctKeys(d)
    ensures DistinctKeys(Remove(d, k))
  {
    if d != [] {
      RemoveDistinct(d[1..], k);
      var rest := Remove(d[1..], k);
      if d[0].0 != k {
        forall j | 0 <= j < |rest|
          ensures rest[j].0 != d[0].0
        {
          assert rest[j] in d[1..];
          var i :| 0 <= i < |d[1..]| && d[1..][i] == rest[j];
          assert d[i + 1] == rest[j];
        }
      }
    }
  }

  /** Assigning a key that is not there appends the pair. */
  lemma {:induction false} PutAbsent<K(!new), V>(d: seq<(K, V)>, k: K, v: V)
    requires !HasKey(d, k)
    ensures Put(d, k, v) == d + [(k, v)]
  {
    if d != [] {
      assert d[0].0 != k && !HasKey(d[1..], k) by {
        assert Keys(d) == [d[0].0] + Keys(d[1..]);
      }
      PutAbsent(d[1..], k, v);
      assert Put(d, k, v) == [d[0]] + Put(d[1..], k, v);
      ConsConcat(d[0], d[1..], [(k, v)], []);
      assert d == [d[0]] + d[1..];
    }
  }

  /** Assignment introduces no pair other than the one assigned. */
  lemma {:induction false} PutMembers<K(!new), V>(d: seq<(K, V)>, k: K, v: V, p: (K, V))
    requires p in Put(d, k, v)
    ensures p in d || p == (k, v)
  {
    if d != [] && d[0].0 != k {
      if p != d[0] {
        assert p in Put(d[1..], k, v);
        PutMembers(d[1..], k, v, p);
      }
    }
  }

  /** Every pair of `PutAll(d, ps)` comes from `d` or from `ps`. */
  lemma {:induction false} PutAllMembers<K(!new), V>(d: seq<(K, V)>, ps: seq<(K, V)>, p: (K, V))
    requires p in PutAll(d, ps)
    ensures p in d || p in ps
  {
    if ps != [] {
      var front := ps[..|ps| - 1];
      var last := ps[|ps| - 1];
      PutMembers(PutAll(d, front), last.0, last.1, p);
      if p != last {
        PutAllMembers(d, front, p);
      }
    }
  }

  /** A sequence of pairs with distinct keys is already a dictionary. */
  lemma {:induction false} FromPairsDistinct<K(!new), V>(ps: seq<(K, V)>)
    requires DistinctKeys(ps)
    ensures FromPairs(ps) == ps
  {
    if ps != [] {
      var front := ps[..|ps| - 1];
      var last := ps[|ps| - 1];
      PutAllSnoc([], ps);
      assert DistinctKeys(front);
      FromPairsDistinct(front);
      assert !HasKey(front, last.0);
      PutAbsent(front, last.0, last.1);
    }
  }

  /** The keys of `ps` in the order they first occur, each once. */
  function FirstKeys<K(==, !new), V>(ps: seq<(K, V)>): (r: seq<K>)
    ensures forall k :: k in r <==> HasKey(ps, k)
  {
    if ps == [] then []
    else
      var front := ps[..|ps| - 1];
      var last := ps[|ps| - 1];
      var ks := FirstKeys(front);
      assert Keys(ps) == Keys(front) + [last.0] by {
        assert ps == front + [last];
        KeysAppend(front, [last]);
      }
      if last.0 in ks then ks else ks + [last.0]
  }

  /** `dict(ps)` lists its keys in the order they first occur in `ps`:
      a repeated key keeps the position it was first given. */
  lemma {:induction false} FromPairsKeys<K(!new), V>(ps: seq<(K, V)>)
    ensures Keys(FromPairs(ps)) == FirstKeys(ps)
  {
    if ps != [] {
      var front := ps[..|ps| - 1];
      var last := ps[|ps| - 1];
      PutAllSnoc([], ps);
      FromPairsKeys(front);
      assert HasKey(PutAll([], front), last.0) <==> last.0 in FirstKeys(front);
    }
  }

  /** The last pair for `k` in `a + b` is in `b` if `b` has one. */
  lemma {:induction false} LastLookupAppend<K, V>(a: seq<(K, V)>, b: seq<(K, V)>, k: K)
    ensures LastLookup(a + b, k) == if HasKey(b, k) then LastLookup(b, k) else LastLookup(a, k)
    decreases |b|
  {
    if b == [] {
      assert a + b == a;
    } else {
      var front, last := b[..|b| - 1], b[|b| - 1];
      assert b == front + [last];
      assert a + b == (a + front) + [last];
      LastLookupSnoc(front, last, k);
      LastLookupSnoc(a + front, last, k);
      HasKeySnoc(front, last, k);
      LastLookupAppend(a, front, k);
    }
  }

  /** One more pair: it is the last one for its key. */
  lemma LastLookupSnoc<K, V>(ps: seq<(K, V)>, p: (K, V), k: K)
    ensures LastLookup(ps + [p], k) == if p.0 == k then Some(p.1) else LastLookup(ps, k)
  {
    assert (ps + [p])[..|ps|] == ps;
  }

  /** Replacing the entry at `i` by splicing is the sequence update. */
  lemma SpliceIsUpdate<T>(d: seq<T>, i: nat, entry: T)
    requires i < |d|
    ensures d[..i] + [entry] + d[i + 1..] == d[i := entry]
  {
    var spliced := d[..i] + [entry] + d[i + 1..];
    assert |spliced| == |d|;
    forall j | 0 <= j < |d| ensures spliced[j] == d[i := entry][j] {
      if j < i {
        assert spliced[j] == d[..i][j];
      } else if j > i {
        assert spliced[j] == d[i + 1..][j - i - 1];
      }
    }
  }
}

=== FILE: cat.dfy ===
/** The `cat allocation`, `cat plugins` and `cat thread-pool` commands
    (esctl/cmd/cat.py). Each reads a `_cat` response, a list of flat
    dictionaries, rewrites some values for display and hands the result to
    the lister formatter. */
module CatCommands {
  import opened Results
  import opened Json
  import opened Assoc
  import opened Formatter
  import opened Ordering
  import Utils
  import Text

  // ---------------------------------------------------------------------------
  // cat allocation
  // ---------------------------------------------------------------------------

  const DISK_PERCENT: string := "disk.percent"

  /** The columns of `cat allocation`. */
  const AllocationColumns: seq<ColumnArg> := [
    Bare("shards"),
    Bare("disk.indices"),
    Bare("disk.used"),
    Bare("disk.avail"),
    Bare("disk.total"),
    Bare(DISK_PERCENT),
    Bare("host"),
    Tuple2("ip", "IP"),
    Bare("node")
  ]

  /** One node of `CatAllocation.transform`. Only under the table formatter,
      and only when the node reports a disk usage, is that usage coloured:
      red above 85, yellow above 70. The usage goes through `int()`, which
      raises on a value that is not a number. */
  function AllocationNode(node: Obj, table: bool): (r: Result<Obj>)
    ensures !table ==> r == Ok(node)
    ensures r.Ok? ==> Keys(r.value) == Keys(node)
    ensures r.Ok? ==> forall k :: k != DISK_PERCENT ==> Lookup(r.value, k) == Lookup(node, k)
  {
    var usage := Get(node, DISK_PERCENT);
    if !table || usage.JNull? then Ok(node)
    else
      var percent :- PyInt(usage);
      if percent > 85 then Ok(Utils.ColorKey(node, DISK_PERCENT, Utils.RED))
      else if percent > 70 then Ok(Utils.ColorKey(node, DISK_PERCENT, Utils.YELLOW))
      else Ok(node)
  }

  /** Under the table formatter a usage above 85 turns red, one above 70 (up
      to 85) yellow, and a lower one stays as it was. */
  lemma AllocationThresholds(node: Obj, percent: int)
    requires PyInt(Get(node, DISK_PERCENT)) == Ok(percent)
    ensures var r := AllocationNode(node, true);
            var usage := Get(node, DISK_PERCENT);
            r.Ok? &&
            (percent > 85 ==> Lookup(r.value, DISK_PERCENT) == Some(JStr(Utils.Colorize(usage, Utils.RED)))) &&
            (70 < percent <= 85 ==> Lookup(r.value, DISK_PERCENT) == Some(JStr(Utils.Colorize(usage, Utils.YELLOW)))) &&
            (percent <= 70 ==> r.value == node)
  {
  }

  /** Colouring never changes the text of the usage: it is still there
      between the colour code and the reset code. */
  lemma AllocationKeepsUsage(node: Obj, table: bool)
    requires AllocationNode(node, table).Ok?
    requires HasKey(node, DISK_PERCENT)
    ensures var shown := Get(AllocationNode(node, table).value, DISK_PERCENT);
            shown == Get(node, DISK_PERCENT) ||
            exists color :: color in {Utils.RED, Utils.YELLOW} && shown == JStr(Utils.Colorize(Get(node, DISK_PERCENT), color))
  {
    var r := AllocationNode(node, table).value;
    if r != node {
      var percent := PyInt(Get(node, DISK_PERCENT)).value;
      var color := if percent > 85 then Utils.RED else Utils.YELLOW;
      assert Get(r, DISK_PERCENT) == JStr(Utils.Colorize(Get(node, DISK_PERCENT), color));
    }
  }

  /** A node without a usage, or with `None`, is left alone. */
  lemma AllocationWithoutUsage(node: Obj, table: bool)
    requires Get(node, DISK_PERCENT).JNull?
    ensures AllocationNode(node, table) == Ok(node)
  {
  }

  /** A usage that is not a number stops the command with `ValueError`. */
  lemma AllocationBadUsage(node: Obj, s: string)
    requires Get(node, DISK_PERCENT) == JStr(s)
    requires ParseInt(s).Err?
    ensures AllocationNode(node, true) == Err(ValueError)
  {
  }

  /** `CatAllocation.transform`: every node in order. */
  function CatAllocation(nodes: seq<Obj>, table: bool): (r: Result<seq<Obj>>)
    ensures r.Ok? ==> |r.value| == |nodes|
  {
    MapResult(nodes, n => AllocationNode(n, table))
  }

  /** The nodes keep their order and each is transformed on its own; with
      another formatter nothing changes. */
  lemma CatAllocationNodes(nodes: seq<Obj>, table: bool)
    ensures CatAllocation(nodes, table).Ok? <==> forall i :: 0 <= i < |nodes| ==> AllocationNode(nodes[i], table).Ok?
    ensures CatAllocation(nodes, table).Ok? ==>
              forall i :: 0 <= i < |nodes| ==> AllocationNode(nodes[i], table) == Ok(CatAllocation(nodes, table).value[i])
    ensures !table ==> CatAllocation(nodes, false) == Ok(nodes)
  {
    MapResultAt(nodes, n => AllocationNode(n, table));
    if !table {
      MapResultIdentity(nodes, n => AllocationNode(n, false));
    }
  }

  // ---------------------------------------------------------------------------
  // cat plugins
  // ---------------------------------------------------------------------------

  /** The columns of `cat plugins`: the plugin's `name` is the node's name
      in this API and is labelled `node`. */
  const PluginColumns: seq<ColumnArg> := [Tuple2("name", "node"), Tuple2("component", "plugin"), Bare("version")]

  /** The first two headers are the given `node` and `plugin`... */
  lemma PluginHeaders(plugins: seq<Obj>)
    ensures |FormatForLister(plugins, PluginColumns).headers| == 3
    ensures FormatForLister(plugins, PluginColumns).headers[0] == "node"
    ensures FormatForLister(plugins, PluginColumns).headers[1] == "plugin"
  {
  }

  /** ... and the third is derived from `version`. */
  lemma PluginVersionHeader(plugins: seq<Obj>)
    ensures FormatForLister(plugins, PluginColumns).headers[2] == "Version"
  {
    WordLabel("version", "Version");
  }

  /** `i["name"]`, the sort key; only string names are compared. */
  function PluginName(plugin: Obj): (r: Result<string>)
    ensures r.Ok? <==> Get(plugin, "name").JStr?
    ensures r.Ok? ==> r.value == PluginKey(plugin)
    ensures !HasKey(plugin, "name") ==> r == Err(KeyError("name"))
  {
    var name :- Subscript(JObj(plugin), "name");
    if name.JStr? then Ok(name.s) else Err(TypeError)
  }

  function PluginKey(plugin: Obj): string {
    ToText(Get(plugin, "name"))
  }

  /** `CatPlugins.transform`: `sorted(plugins, key=lambda i: i["name"])`. */
  function CatPlugins(plugins: seq<Obj>): (r: Result<seq<Obj>>)
    ensures r.Ok? ==> multiset(r.value) == multiset(plugins)
  {
    var _ :- MapResult(plugins, PluginName);
    Ok(SortBy(plugins, PluginKey))
  }

  /** The plugins come out ordered by name, those sharing a name in their
      original order, and the sort fails exactly when a name is missing or
      not a string. */
  lemma CatPluginsSorted(plugins: seq<Obj>, name: string)
    ensures CatPlugins(plugins).Ok? <==> forall i :: 0 <= i < |plugins| ==> Get(plugins[i], "name").JStr?
    ensures CatPlugins(plugins).Ok? ==> SortedBy(CatPlugins(plugins).value, PluginKey)
    ensures CatPlugins(plugins).Ok? ==>
              WithKey(CatPlugins(plugins).value, PluginKey, name) == WithKey(plugins, PluginKey, name)
  {
    MapResultAt(plugins, PluginName);
    SortBySorted(plugins, PluginKey);
    SortByStable(plugins, PluginKey, name);
  }

  // ---------------------------------------------------------------------------
  // cat thread-pool
  // ---------------------------------------------------------------------------

  /** The columns whose positive counts are highlighted. */
  const COUNTERS: seq<string> := ["active", "queue", "rejected"]

  /** The columns of `_default_headers`. */
  const DEFAULT_COLUMNS: seq<string> := ["node_name", "name", "active", "queue", "rejected", "type"]

  /** `_default_headers`, "node_name,name,active,queue,rejected,type". */
  const DEFAULT_HEADERS: string := Text.Join(DEFAULT_COLUMNS, [','])

  /** One column of a thread pool: a counter above zero turns red, whatever
      the formatter; `int()` is only applied to counters. */
  function PoolEntry(entry: (string, Json)): (r: Result<(string, Json)>)
    ensures r.Ok? ==> r.value.0 == entry.0
    ensures entry.0 !in COUNTERS ==> r == Ok(entry)
  {
    if entry.0 in COUNTERS then
      var count :- PyInt(entry.1);
      if count > 0 then Ok((entry.0, JStr(Utils.Colorize(entry.1, Utils.RED)))) else Ok(entry)
    else Ok(entry)
  }

  /** The inner loop over one thread pool's columns, each replaced in place. */
  function ThreadPool(pool: Obj): (r: Result<Obj>)
    ensures r.Ok? ==> |r.value| == |pool|
  {
    MapResult(pool, PoolEntry)
  }

  /** A counter is red exactly when it is above zero; every other value is
      untouched. */
  lemma PoolEntryShows(entry: (string, Json))
    requires PoolEntry(entry).Ok?
    ensures entry.0 !in COUNTERS ==> PoolEntry(entry).value.1 == entry.1
    ensures entry.0 in COUNTERS ==>
              PyInt(entry.1).Ok? &&
              PoolEntry(entry).value.1 == (if PyInt(entry.1).value > 0 then JStr(Utils.Colorize(entry.1, Utils.RED)) else entry.1)
  {
  }

  /** A pool keeps its columns, in order, and each value is shown as
      `PoolEntryShows` says. */
  lemma ThreadPoolColumns(pool: Obj)
    requires ThreadPool(pool).Ok?
    ensures Keys(ThreadPool(pool).value) == Keys(pool)
    ensures forall i :: 0 <= i < |pool| ==> PoolEntry(pool[i]) == Ok(ThreadPool(pool).value[i])
  {
    MapResultAt(pool, PoolEntry);
    var r := ThreadPool(pool).value;
    forall j | 0 <= j < |pool| ensures Keys(r)[j] == Keys(pool)[j] {
      assert PoolEntry(pool[j]) == Ok(r[j]);
    }
  }

  /** A counter that is not a number stops the command with `ValueError`;
      a non-number elsewhere is never read. */
  lemma ThreadPoolBadCounter(pool: Obj, i: nat, s: string)
    requires i < |pool| && pool[i].0 in COUNTERS && pool[i].1 == JStr(s) && ParseInt(s).Err?
    ensures ThreadPool(pool).Err?
  {
    MapResultAt(pool, PoolEntry);
  }

  /** `CatThreadpool.transform`. */
  function CatThreadpool(pools: seq<Obj>): (r: Result<seq<Obj>>)
    ensures r.Ok? ==> |r.value| == |pools|
  {
    MapResult(pools, ThreadPool)
  }

  /** The pools keep their order, each transformed on its own. */
  lemma CatThreadpoolPools(pools: seq<Obj>)
    ensures CatThreadpool(pools).Ok? <==> forall i :: 0 <= i < |pools| ==> ThreadPool(pools[i]).Ok?
    ensures CatThreadpool(pools).Ok? ==>
              forall i :: 0 <= i < |pools| ==> ThreadPool(pools[i]) == Ok(CatThreadpool(pools).value[i])
  {
    MapResultAt(pools, ThreadPool);
  }

  /** `parsed_args.headers if parsed_args.headers else self._default_headers`. */
  function ThreadpoolHeaders(headers: Option<string>): (r: string)
    ensures r != ""
    ensures headers.Some? && headers.value != "" ==> r == headers.value
  {
    if headers.Some? && headers.value != "" then headers.value else DEFAULT_HEADERS
  }

  /** `[(h,) for h in headers.split(",")]`. */
  function ThreadpoolColumns(headers: string): (r: seq<ColumnArg>)
    ensures |r| == |Text.Split(headers, ',')|
    ensures forall j :: 0 <= j < |r| ==> r[j] == Tuple1(Text.Split(headers, ',')[j])
  {
    var ids := Text.Split(headers, ',');
    seq(|ids|, j requires 0 <= j < |ids| => Tuple1(ids[j]))
  }

  /** The column ids, joined with commas, are the requested headers: every
      requested column is shown, in order, and nothing else. */
  lemma ThreadpoolColumnsRoundTrip(headers: string)
    ensures var cols := ThreadpoolColumns(headers);
            Text.Join(seq(|cols|, j requires 0 <= j < |cols| => cols[j].id), [',']) == headers
  {
    var cols := ThreadpoolColumns(headers);
    var ids := seq(|cols|, j requires 0 <= j < |cols| => cols[j].id);
    assert ids == Text.Split(headers, ',');
    Text.JoinSplit(headers, ',');
  }

  /** Headers written as ids joined by commas give back those ids. */
  lemma ThreadpoolColumnsOfIds(ids: seq<string>)
    requires |ids| >= 1 && forall i :: 0 <= i < |ids| ==> ',' !in ids[i]
    ensures ThreadpoolColumns(Text.Join(ids, [','])) == seq(|ids|, j requires 0 <= j < |ids| => Tuple1(ids[j]))
  {
    Text.SplitJoin(ids, ',');
  }

  /** No default column id holds a comma. */
  lemma DefaultColumnsCommaFree()
    ensures forall i :: 0 <= i < |DEFAULT_COLUMNS| ==> ',' !in DEFAULT_COLUMNS[i]
  {
  }

  /** Without `--headers` the six default columns are shown, in order. */
  lemma DefaultThreadpoolColumns()
    ensures ThreadpoolColumns(ThreadpoolHeaders(None))
            == seq(|DEFAULT_COLUMNS|, j requires 0 <= j < |DEFAULT_COLUMNS| => Tuple1(DEFAULT_COLUMNS[j]))
  {
    DefaultColumnsCommaFree();
    ThreadpoolColumnsOfIds(DEFAULT_COLUMNS);
  }
}

=== FILE: cluster.dfy ===
/** The `cluster allocation explain`, `cluster health`, `cluster stats` and
    `cluster routing allocation enable` commands (esctl/cmd/cluster.py). */
module ClusterCommands {
  import opened Results
  import opened Json
  import opened Assoc
  import opened Commands
  import opened Settings
  import Ordering
  import Utils
  import Text

  // ---------------------------------------------------------------------------
  // cluster allocation explain
  // ---------------------------------------------------------------------------

  /** What `allocation_explain()` gives back: the explanation, or the status
      code of the `TransportError` it raised. */
  datatype ExplainResponse = Explained(body: Obj) | TransportError(status: int)

  /** A two-column listing: the headers and one `(attribute, value)` row per
      entry of the dictionary. */
  datatype Table = Table(headers: seq<string>, rows: Obj)

  const ATTRIBUTE_VALUE: seq<string> := ["Attribute", "Value"]

  /** The five rows every explanation starts with, in this order. */
  const FIXED_KEYS: seq<string> := ["index", "can_allocate", "explanation", "last_allocation_status", "reason"]

  /** The `output` dictionary before the nodes are added. The two values
      under `unassigned_info` are read with `.get`, which fails when that
      entry is missing. */
  function FixedRows(body: Obj): (r: Result<Obj>)
    ensures r.Ok? ==> Keys(r.value) == FIXED_KEYS
    ensures r.Ok? <==> Get(body, "unassigned_info").JObj?
    ensures r.Err? ==> r.error == AttributeError
  {
    match Get(body, "unassigned_info")
    case JObj(info) =>
      Ok([("index", Get(body, "index")),
          ("can_allocate", Get(body, "can_allocate")),
          ("explanation", Get(body, "allocate_explanation")),
          ("last_allocation_status", Get(info, "last_allocation_status")),
          ("reason", Get(info, "reason"))])
    case _ => Err(AttributeError)
  }

  lemma FixedRowsDistinct(body: Obj)
    requires Get(body, "unassigned_info").JObj?
    ensures DistinctKeys(FixedRows(body).value)
  {
    FixedKeysDistinct();
    DistinctByKeys(FixedRows(body).value);
  }

  lemma FixedKeysDistinct()
    ensures forall i, j :: 0 <= i < j < |FIXED_KEYS| ==> FIXED_KEYS[i] != FIXED_KEYS[j]
  {
    var f := FIXED_KEYS;
    assert f[0][0] == 'i' && f[1][0] == 'c' && f[2][0] == 'e' && f[3][0] == 'l' && f[4][0] == 'r';
  }

  /** Each fixed row holds the response's value under its own name. */
  lemma FixedRowsValues(body: Obj, info: Obj)
    requires Get(body, "unassigned_info") == JObj(info)
    ensures var fixed := FixedRows(body).value;
            DistinctKeys(fixed) &&
            Lookup(fixed, "index") == Some(Get(body, "index")) &&
            Lookup(fixed, "can_allocate") == Some(Get(body, "can_allocate")) &&
            Lookup(fixed, "explanation") == Some(Get(body, "allocate_explanation")) &&
            Lookup(fixed, "last_allocation_status") == Some(Get(info, "last_allocation_status")) &&
            Lookup(fixed, "reason") == Some(Get(info, "reason"))
  {
    var fixed := FixedRows(body).value;
    FixedRowsDistinct(body);
    LookupAt(fixed, 0);
    LookupAt(fixed, 1);
    LookupAt(fixed, 2);
    LookupAt(fixed, 3);
    LookupAt(fixed, 4);
  }

  /** The row of one node: its name and the explanation of its first
      decider. The right-hand side of the assignment is evaluated first, so
      a node that is not a dict, or whose deciders are `None`, empty or not
      a list of dicts, fails before the name is read. A node name that is
      not a string is a `TypeError` here. */
  function NodeDecision(node: Json): (r: Result<(string, Json)>)
    ensures r.Ok? <==>
              (node.JObj? && Get(node.fields, "node_name").JStr? &&
               var ds := Get(node.fields, "deciders");
               ds.JArr? && |ds.items| > 0 && ds.items[0].JObj?)
    ensures r.Ok? ==> node.JObj? && Get(node.fields, "node_name") == JStr(r.value.0)
    ensures r.Ok? ==> r.value.1 == Get(Get(node.fields, "deciders").items[0].fields, "explanation")
    ensures !node.JObj? ==> r == Err(AttributeError)
    ensures node.JObj? && Get(node.fields, "deciders") == JArr([]) ==> r == Err(IndexError)
    ensures node.JObj? && Get(node.fields, "deciders") == JNull ==> r == Err(TypeError)
    ensures node.JObj? && Get(node.fields, "deciders").JObj? ==> r == Err(KeyError("0"))
  {
    match node
    case JObj(f) =>
      var first :- Index0(Get(f, "deciders"));
      var explanation :- PyGet(first, "explanation");
      var name := Get(f, "node_name");
      if name.JStr? then Ok((name.s, explanation)) else Err(TypeError)
    case _ => Err(AttributeError)
  }

  /** `ClusterAllocationExplain.take_action`. A 400 means that no shard is
      unassigned: the headers alone. Any other transport error falls
      through the `if` and the method returns `None`. */
  function AllocationExplain(response: ExplainResponse): (r: Result<Option<Table>>)
    ensures r.Ok? && r.value.Some? ==> r.value.value.headers == ATTRIBUTE_VALUE
    ensures response.TransportError? ==> r.Ok?
    ensures response.Explained? && r.Ok? ==>
              r.value.Some? && FixedRows(response.body).Ok? && Iterate(Get(response.body, "node_allocation_decisions")).Ok?
  {
    match response
    case TransportError(status) =>
      if status == 400 then Ok(Some(Table(ATTRIBUTE_VALUE, []))) else Ok(None)
    case Explained(body) =>
      var fixed :- FixedRows(body);
      var nodes :- Iterate(Get(body, "node_allocation_decisions"));
      var decisions :- MapResult(nodes, NodeDecision);
      Ok(Some(Table(ATTRIBUTE_VALUE, PutAll(fixed, decisions))))
  }

  /** The outcome of a transport error depends only on its code. */
  lemma AllocationExplainErrors(status: int)
    ensures status == 400 ==> AllocationExplain(TransportError(status)) == Ok(Some(Table(["Attribute", "Value"], [])))
    ensures status != 400 ==> AllocationExplain(TransportError(status)) == Ok(None)
  {
  }

  /** An explanation lists the five fixed rows first, in order, then one row
      per node: a node reads the explanation of its first decider, unless a
      later node has the same name. */
  lemma AllocationExplainRows(body: Obj)
    requires AllocationExplain(Explained(body)).Ok?
    ensures var rows := AllocationExplain(Explained(body)).value.value.rows;
            var nodes := Iterate(Get(body, "node_allocation_decisions")).value;
            |rows| >= 5 && Keys(rows)[..5] == FIXED_KEYS &&
            (forall i :: 0 <= i < |nodes| ==> NodeDecision(nodes[i]).Ok?) &&
            (forall i :: 0 <= i < |nodes| &&
                         (forall j :: i < j < |nodes| ==> NodeDecision(nodes[j]).value.0 != NodeDecision(nodes[i]).value.0) ==>
               Lookup(rows, NodeDecision(nodes[i]).value.0) == Some(NodeDecision(nodes[i]).value.1))
    ensures var nodes := Iterate(Get(body, "node_allocation_decisions")).value;
            forall i :: 0 <= i < |nodes| ==>
              NodeDecision(nodes[i]).Ok? && nodes[i].JObj? &&
              var ds := Get(nodes[i].fields, "deciders");
              ds.JArr? && |ds.items| > 0 && ds.items[0].JObj? &&
              NodeDecision(nodes[i]).value == (Get(nodes[i].fields, "node_name").s, Get(ds.items[0].fields, "explanation"))
  {
    var nodes := Iterate(Get(body, "node_allocation_decisions")).value;
    AllocationExplainIs(body);
    DecisionRows(FixedRows(body).value, nodes);
  }

  lemma AllocationExplainIs(body: Obj)
    requires AllocationExplain(Explained(body)).Ok?
    ensures var nodes := Iterate(Get(body, "node_allocation_decisions")).value;
            MapResult(nodes, NodeDecision).Ok? &&
            AllocationExplain(Explained(body)).value.value.rows == PutAll(FixedRows(body).value, MapResult(nodes, NodeDecision).value)
  {
  }

  /** The node rows after the fixed ones: each node's decision, the last of
      a name winning. */
  lemma DecisionRows(fixed: Obj, nodes: seq<Json>)
    requires Keys(fixed) == FIXED_KEYS && MapResult(nodes, NodeDecision).Ok?
    ensures var rows := PutAll(fixed, MapResult(nodes, NodeDecision).value);
            |rows| >= 5 && Keys(rows)[..5] == FIXED_KEYS &&
            (forall i :: 0 <= i < |nodes| ==> NodeDecision(nodes[i]).Ok?) &&
            (forall i :: 0 <= i < |nodes| &&
                         (forall j :: i < j < |nodes| ==> NodeDecision(nodes[j]).value.0 != NodeDecision(nodes[i]).value.0) ==>
               Lookup(rows, NodeDecision(nodes[i]).value.0) == Some(NodeDecision(nodes[i]).value.1))
  {
    var decisions := MapResult(nodes, NodeDecision).value;
    MapResultAt(nodes, NodeDecision);
    PutAllKeepsOrder(fixed, decisions);
    forall i | 0 <= i < |nodes| &&
               (forall j :: i < j < |nodes| ==> NodeDecision(nodes[j]).value.0 != NodeDecision(nodes[i]).value.0)
      ensures Lookup(PutAll(fixed, decisions), decisions[i].0) == Some(decisions[i].1)
    {
      assert forall j :: i < j < |decisions| ==> decisions[j].0 != decisions[i].0 by {
        forall j | i < j < |decisions| ensures decisions[j] == NodeDecision(nodes[j]).value { }
      }
      LastRowWins(fixed, decisions, i);
    }
  }

  /** A row that no later row renames is read back as given. */
  lemma LastRowWins(fixed: Obj, rows: Obj, i: nat)
    requires i < |rows|
    requires forall j :: i < j < |rows| ==> rows[j].0 != rows[i].0
    ensures Lookup(PutAll(fixed, rows), rows[i].0) == Some(rows[i].1)
  {
    LastLookupAt(rows, i);
    PutAllLookup(fixed, rows, rows[i].0);
  }

  /** The fixed rows keep the response's values as long as no node is
      named like one of them. */
  lemma AllocationExplainFixedValues(body: Obj, nodes: seq<Json>, k: string)
    requires AllocationExplain(Explained(body)).Ok?
    requires Iterate(Get(body, "node_allocation_decisions")) == Ok(nodes)
    requires k in FIXED_KEYS
    requires forall node :: node in nodes ==> !(NodeDecision(node).Ok? && NodeDecision(node).value.0 == k)
    ensures Lookup(AllocationExplain(Explained(body)).value.value.rows, k) == Lookup(FixedRows(body).value, k)
  {
    var fixed := FixedRows(body).value;
    var decisions := MapResult(nodes, NodeDecision).value;
    MapResultAt(nodes, NodeDecision);
    PutAllLookup(fixed, decisions, k);
    forall j | 0 <= j < |decisions| ensures Keys(decisions)[j] != k {
      assert nodes[j] in nodes;
    }
  }

  // ---------------------------------------------------------------------------
  // cluster health
  // ---------------------------------------------------------------------------

  const STATUS: string := "status"

  /** `ClusterHealth.take_action`: the health ordered by key; under the table
      formatter the status takes the colour it names. */
  function ClusterHealth(health: Obj, table: bool): (r: Result<Obj>)
    ensures !table ==> r == Ok(SortAndOrder(health))
    ensures r.Ok? ==> Keys(r.value) == Keys(SortAndOrder(health))
  {
    var ordered := SortAndOrder(health);
    if !table then Ok(ordered)
    else
      var color :- Utils.NamedColor(Get(ordered, STATUS));
      Ok(Utils.ColorKey(ordered, STATUS, color))
  }

  /** The keys come out in strictly ascending order and every value but
      the status is the response's own; without the table formatter the
      status is too. */
  lemma ClusterHealthOrdered(health: Obj, table: bool, k: string)
    requires DistinctKeys(health)
    requires ClusterHealth(health, table).Ok?
    ensures var r := ClusterHealth(health, table).value;
            (forall i, j :: 0 <= i < j < |r| ==> Ordering.LexLess(r[i].0, r[j].0)) &&
            (k != STATUS || !table ==> Lookup(r, k) == Lookup(health, k))
  {
    var ordered := SortAndOrder(health);
    var r := ClusterHealth(health, table).value;
    SortAndOrderLookup(health, k);
    forall i, j | 0 <= i < j < |r| ensures Ordering.LexLess(r[i].0, r[j].0) {
      assert r[i].0 == Keys(r)[i] && r[j].0 == Keys(r)[j];
      assert ordered[i].0 == Keys(ordered)[i] && ordered[j].0 == Keys(ordered)[j];
      SortAndOrderAscending(health, i, j);
    }
  }

  /** Under the table formatter the status is shown in the colour it
      names. */
  lemma ClusterHealthStatus(health: Obj, color: string)
    requires DistinctKeys(health)
    requires Utils.NamedColor(Get(health, STATUS)) == Ok(color)
    ensures ClusterHealth(health, true).Ok?
    ensures Lookup(ClusterHealth(health, true).value, STATUS) == Some(JStr(Utils.Colorize(Get(health, STATUS), color)))
  {
    SortAndOrderLookup(health, STATUS);
  }

  /** Under the table formatter a health without a status, or with one that
      names no colour, fails with `AttributeError`. */
  lemma ClusterHealthNoColor(health: Obj)
    requires DistinctKeys(health)
    requires Utils.NamedColor(Get(health, STATUS)).Err?
    ensures ClusterHealth(health, true) == Err(AttributeError)
  {
    SortAndOrderLookup(health, STATUS);
  }

  // ---------------------------------------------------------------------------
  // cluster stats
  // ---------------------------------------------------------------------------

  /** The list-valued statistics that `ClusterStats.transform` spreads into
      one key per element. */
  const STATS_ATTRIBUTES: seq<string> := [
    "nodes.jvm.versions",
    "nodes.os.cpu",
    "nodes.plugins",
    "nodes.os.names",
    "nodes.os.pretty_names",
    "nodes.packaging_types"
  ]

  /** `"{}{}".format(attribute, key)` for every key of `ps`. */
  function WithPrefix(attribute: string, ps: Obj): (r: Obj)
    ensures |r| == |ps|
    ensures forall j :: 0 <= j < |ps| ==> r[j] == (attribute + ps[j].0, ps[j].1)
  {
    seq(|ps|, j requires 0 <= j < |ps| => (attribute + ps[j].0, ps[j].1))
  }

  /** One attribute of `ClusterStats.transform`: when present, its value goes
      through `objects_list_to_flat_dict` (the parameter `flat`, whose code
      is not part of this model), every resulting entry is added under the
      attribute's name followed by its key, and the attribute is deleted. */
  function Explode(stats: Obj, attribute: string, flat: Json -> Obj): (r: Obj)
    ensures !HasKey(r, attribute)
    ensures DistinctKeys(stats) ==> DistinctKeys(r)
  {
    if !HasKey(stats, attribute) then stats
    else
      var merged := PutAll(stats, WithPrefix(attribute, flat(Get(stats, attribute))));
      RemoveLookup(merged, attribute, attribute);
      assert DistinctKeys(stats) ==> DistinctKeys(Remove(merged, attribute)) by {
        if DistinctKeys(stats) {
          PutAllDistinct(stats, WithPrefix(attribute, flat(Get(stats, attribute))));
          RemoveDistinct(merged, attribute);
        }
      }
      Remove(merged, attribute)
  }

  /** A prefixed key reads the last value of its unprefixed key. */
  lemma {:induction false} LastLookupWithPrefix(attribute: string, ps: Obj, k: string)
    ensures LastLookup(WithPrefix(attribute, ps), attribute + k) == LastLookup(ps, k)
  {
    if ps != [] {
      var front := ps[..|ps| - 1];
      assert WithPrefix(attribute, ps)[..|ps| - 1] == WithPrefix(attribute, front);
      LastLookupWithPrefix(attribute, front, k);
      if attribute + ps[|ps| - 1].0 == attribute + k {
        assert ps[|ps| - 1].0 == (attribute + ps[|ps| - 1].0)[|attribute|..];
      }
    }
  }

  /** Only keys that start with the attribute's name are added. */
  lemma WithPrefixKeys(attribute: string, ps: Obj, k: string)
    requires !Text.StartsWith(k, attribute)
    ensures !HasKey(WithPrefix(attribute, ps), k)
  {
    var prefixed := WithPrefix(attribute, ps);
    forall j | 0 <= j < |ps| ensures Keys(prefixed)[j] != k {
      assert (attribute + ps[j].0)[..|attribute|] == attribute;
    }
  }

  /** What one attribute's step does to each key: the attribute is gone, an
      element's key under the attribute reads the element's value, and any
      key that does not start with the attribute is untouched. */
  lemma ExplodeLookup(stats: Obj, attribute: string, flat: Json -> Obj, k: string)
    requires HasKey(stats, attribute)
    ensures var r := Explode(stats, attribute, flat);
            var ps := flat(Get(stats, attribute));
            (k == attribute ==> Lookup(r, k) == None) &&
            (k != "" && HasKey(ps, k) ==> Lookup(r, attribute + k) == LastLookup(ps, k)) &&
            (!Text.StartsWith(k, attribute) ==> Lookup(r, k) == Lookup(stats, k))
  {
    var ps := flat(Get(stats, attribute));
    var prefixed := WithPrefix(attribute, ps);
    var merged := PutAll(stats, prefixed);
    RemoveLookup(merged, attribute, k);
    PutAllLookup(stats, prefixed, k);
    if !Text.StartsWith(k, attribute) {
      WithPrefixKeys(attribute, ps, k);
    }
    if k != "" && HasKey(ps, k) {
      assert attribute + k != attribute by {
        assert |attribute + k| > |attribute|;
      }
      RemoveLookup(merged, attribute, attribute + k);
      PutAllLookup(stats, prefixed, attribute + k);
      LastLookupWithPrefix(attribute, ps, k);
    }
  }

  /** A statistics dictionary without the attribute passes unchanged. */
  lemma ExplodeAbsent(stats: Obj, attribute: string, flat: Json -> Obj)
    requires !HasKey(stats, attribute)
    ensures Explode(stats, attribute, flat) == stats
  {
  }

  /** `ClusterStats.transform`: the attributes, one after the other. */
  function ExplodeAll(stats: Obj, attributes: seq<string>, flat: Json -> Obj): (r: Obj)
    ensures DistinctKeys(stats) ==> DistinctKeys(r)
    decreases |attributes|
  {
    if attributes == [] then stats else ExplodeAll(Explode(stats, attributes[0], flat), attributes[1..], flat)
  }

  /** No attribute is the beginning of an attribute handled after it, so a
      later step cannot bring back an earlier attribute. */
  predicate PrefixFree(attributes: seq<string>) {
    forall i, j :: 0 <= i < j < |attributes| ==> !Text.StartsWith(attributes[i], attributes[j])
  }

  /** A key that is missing and that no attribute begins stays missing. */
  lemma {:induction false} ExplodeAllKeepsAbsent(stats: Obj, attributes: seq<string>, flat: Json -> Obj, k: string)
    requires !HasKey(stats, k)
    requires forall j :: 0 <= j < |attributes| ==> !Text.StartsWith(k, attributes[j])
    ensures !HasKey(ExplodeAll(stats, attributes, flat), k)
    decreases |attributes|
  {
    if attributes != [] {
      if HasKey(stats, attributes[0]) {
        ExplodeLookup(stats, attributes[0], flat, k);
      }
      ExplodeAllKeepsAbsent(Explode(stats, attributes[0], flat), attributes[1..], flat, k);
    }
  }

  /** After the transform none of the attributes is left. */
  lemma {:induction false} ExplodeAllRemoves(stats: Obj, attributes: seq<string>, flat: Json -> Obj)
    requires PrefixFree(attributes)
    ensures forall i :: 0 <= i < |attributes| ==> !HasKey(ExplodeAll(stats, attributes, flat), attributes[i])
    decreases |attributes|
  {
    if attributes != [] {
      var next := Explode(stats, attributes[0], flat);
      assert PrefixFree(attributes[1..]) by {
        forall i, j | 0 <= i < j < |attributes[1..]|
          ensures !Text.StartsWith(attributes[1..][i], attributes[1..][j])
        {
          assert attributes[1..][i] == attributes[i + 1] && attributes[1..][j] == attributes[j + 1];
        }
      }
      ExplodeAllRemoves(next, attributes[1..], flat);
      ExplodeAllKeepsAbsent(next, attributes[1..], flat, attributes[0]);
      forall i | 0 <= i < |attributes|
        ensures !HasKey(ExplodeAll(stats, attributes, flat), attributes[i])
      {
        if i > 0 {
          assert attributes[i] == attributes[1..][i - 1];
        }
      }
    }
  }

  /** Statistics holding none of the attributes pass unchanged. */
  lemma {:induction false} ExplodeAllAbsent(stats: Obj, attributes: seq<string>, flat: Json -> Obj)
    requires forall j :: 0 <= j < |attributes| ==> !HasKey(stats, attributes[j])
    ensures ExplodeAll(stats, attributes, flat) == stats
    decreases |attributes|
  {
    if attributes != [] {
      ExplodeAllAbsent(stats, attributes[1..], flat);
    }
  }

  /** The six attributes are prefix-free. */
  lemma StatsAttributesPrefixFree()
    ensures PrefixFree(STATS_ATTRIBUTES)
  {
    var a := STATS_ATTRIBUTES;
    forall i, j | 0 <= i < j < |a| ensures !Text.StartsWith(a[i], a[j]) {
      NotPrefixAt(a[i], a[j], if a[i][6] != a[j][6] then 6 else if a[i][7] != a[j][7] then 7 else 9);
    }
  }

  /** Two strings that differ at a position both have are not prefixes of
      one another. */
  lemma NotPrefixAt(s: string, p: string, k: nat)
    requires k < |s| && k < |p| && s[k] != p[k]
    ensures !Text.StartsWith(s, p)
  {
    if |p| <= |s| {
      assert s[..|p|][k] != p[k];
    }
  }

  /** `ClusterStats.take_action`: the response flattened, transformed and
      ordered by key. */
  function ClusterStats(response: Obj, flat: Json -> Obj): (r: Obj)
    ensures DistinctKeys(r)
  {
    var stats := ExplodeAll(Utils.FlattenDict(response), STATS_ATTRIBUTES, flat);
    SortAndOrderLookup(stats, "");
    SortAndOrder(stats)
  }

  /** The statistics come out in strictly ascending key order, and none of
      the list attributes is left. */
  lemma ClusterStatsShows(response: Obj, flat: Json -> Obj)
    ensures var r := ClusterStats(response, flat);
            (forall i, j :: 0 <= i < j < |r| ==> Ordering.LexLess(r[i].0, r[j].0)) &&
            (forall i :: 0 <= i < |STATS_ATTRIBUTES| ==> !HasKey(r, STATS_ATTRIBUTES[i]))
  {
    var stats := ExplodeAll(Utils.FlattenDict(response), STATS_ATTRIBUTES, flat);
    var r := ClusterStats(response, flat);
    forall i, j | 0 <= i < j < |r| ensures Ordering.LexLess(r[i].0, r[j].0) {
      SortAndOrderAscending(stats, i, j);
    }
    StatsAttributesPrefixFree();
    ExplodeAllRemoves(Utils.FlattenDict(response), STATS_ATTRIBUTES, flat);
    forall i | 0 <= i < |STATS_ATTRIBUTES| ensures !HasKey(r, STATS_ATTRIBUTES[i]) {
      SortAndOrderLookup(stats, STATS_ATTRIBUTES[i]);
    }
  }

  // ---------------------------------------------------------------------------
  // cluster routing allocation enable
  // ---------------------------------------------------------------------------

  const ROUTING_SETTING: string := "cluster.routing.allocation.enable"

  /** The values the `status` argument accepts. */
  const ROUTING_CHOICES: seq<string> := ["all", "primaries", "new_primaries", "none"]

  /** The write of `ClusterRoutingAllocationEnable.take_action`, if any: a
      status outside the choices makes the argument parser exit with code 2;
      a valid one is set at the chosen persistency; without a status nothing
      is written. The read that follows is not part of this model. */
  function RoutingAllocationEnable(status: Option<string>, persistent: bool): (r: Result<Option<Obj>>)
    ensures status.None? ==> r == Ok(None)
    ensures status.Some? ==> (r.Ok? <==> status.value in ROUTING_CHOICES)
    ensures r.Err? ==> r.error == SystemExit(2)
  {
    match status
    case None => Ok(None)
    case Some(s) =>
      if s in ROUTING_CHOICES then Ok(Some(SetBody(ROUTING_SETTING, JStr(s), Persistency(persistent))))
      else Err(SystemExit(2))
  }

  /** A valid status is written, as given, to the persistent tier exactly
      when `--persistent` is set and to the transient tier otherwise. */
  lemma RoutingAllocationWrites(s: string, persistent: bool)
    requires s in ROUTING_CHOICES
    ensures var body := RoutingAllocationEnable(Some(s), persistent).value.value;
            Keys(body) == [if persistent then PERSISTENT else TRANSIENT] &&
            Lookup(body, if persistent then PERSISTENT else TRANSIENT) == Some(JObj([(ROUTING_SETTING, JStr(s))]))
  {
  }
}

=== FILE: cmd_config.dfy ===
/** The `config cluster list`, `config context list`, `config context set`
    and `config user list` commands (esctl/cmd/config.py): listings of the
    blocks of the loaded configuration, and the choice of the default
    context. */
module ConfigCommands {
  import opened Results
  import opened Json
  import opened Assoc
  import opened Formatter
  import Config
  import Utils
  import Text

  const CLUSTERS: string := "clusters"
  const CONTEXTS: string := "contexts"
  const USERS: string := "users"
  const NAME: string := "name"
  const SERVERS: string := "servers"
  const USER: string := "user"
  const CLUSTER: string := "cluster"
  const USERNAME: string := "username"
  const PASSWORD: string := "password"

  /** The rows built from one configuration block: `.items()` needs a
      dictionary, and each definition needs `.get`. */
  function BlockRows(config: Obj, block: string, row: ((string, Json)) -> Result<Obj>): (r: Result<seq<Obj>>)
    ensures !Get(config, block).JObj? ==> r == Err(AttributeError)
    ensures r.Ok? ==> Get(config, block).JObj? && Pointwise(Get(config, block).fields, r.value, row)
  {
    match Get(config, block)
    case JObj(entries) =>
      MapResultAt(entries, row);
      MapResult(entries, row)
    case _ => Err(AttributeError)
  }

  // ---------------------------------------------------------------------------
  // config cluster list
  // ---------------------------------------------------------------------------

  /** One cluster: its name, and its servers one per line. */
  function ClusterRow(cluster: (string, Json)): (r: Result<Obj>)
    ensures !cluster.1.JObj? ==> r == Err(AttributeError)
    ensures cluster.1.JObj? ==> (r.Ok? <==> PyJoin("\n", Get(cluster.1.fields, SERVERS)).Ok?)
    ensures r.Ok? ==> Keys(r.value) == [NAME, SERVERS] && Lookup(r.value, NAME) == Some(JStr(cluster.0))
  {
    match cluster.1
    case JObj(definition) =>
      var servers :- PyJoin("\n", Get(definition, SERVERS));
      Ok([(NAME, JStr(cluster.0)), (SERVERS, JStr(servers))])
    case _ => Err(AttributeError)
  }

  /** `ConfigClusterList.take_action`'s rows, one per configured cluster. */
  function ClusterList(config: Obj): (r: Result<seq<Obj>>)
    ensures r.Ok? ==> Get(config, CLUSTERS).JObj? && |r.value| == |Get(config, CLUSTERS).fields|
  {
    BlockRows(config, CLUSTERS, ClusterRow)
  }

  /** Every cluster row is named after its cluster, and the servers cell
      splits back, line by line, into the configured servers when they
      are a non-empty list of one-line strings. */
  lemma ClusterListRows(config: Obj, i: nat, servers: seq<string>)
    requires ClusterList(config).Ok? && i < |ClusterList(config).value|
    requires var definition := Get(config, CLUSTERS).fields[i].1;
             definition.JObj? && Get(definition.fields, SERVERS) == JArr(seq(|servers|, k requires 0 <= k < |servers| => JStr(servers[k])))
    requires |servers| >= 1 && forall k :: 0 <= k < |servers| ==> '\n' !in servers[k]
    ensures var row := ClusterList(config).value[i];
            Lookup(row, NAME) == Some(JStr(Get(config, CLUSTERS).fields[i].0)) &&
            exists cell :: Lookup(row, SERVERS) == Some(JStr(cell)) && Text.Split(cell, '\n') == servers
  {
    var cluster := Get(config, CLUSTERS).fields[i];
    var row := ClusterList(config).value[i];
    assert ClusterRow(cluster) == Ok(row);
    var items := Get(cluster.1.fields, SERVERS).items;
    assert forall k :: 0 <= k < |items| ==> items[k] == JStr(servers[k]);
    assert AllStrings(items).Ok?;
    var all := AllStrings(items).value;
    assert forall k :: 0 <= k < |servers| ==> JStr(all[k]) == items[k] == JStr(servers[k]);
    assert all == servers;
    var cell := Text.Join(servers, "\n");
    assert row == [(NAME, JStr(cluster.0)), (SERVERS, JStr(cell))];
    Text.SplitJoin(servers, '\n');
  }

  // ---------------------------------------------------------------------------
  // config context list / config context set
  // ---------------------------------------------------------------------------

  /** One context: its name, user and cluster, `None` for those missing. */
  function ContextRow(context: (string, Json)): (r: Result<Obj>)
    ensures r.Ok? <==> context.1.JObj?
    ensures !context.1.JObj? ==> r == Err(AttributeError)
    ensures r.Ok? ==> Keys(r.value) == [NAME, USER, CLUSTER] && Lookup(r.value, NAME) == Some(JStr(context.0))
  {
    match context.1
    case JObj(definition) =>
      Ok([(NAME, JStr(context.0)), (USER, Get(definition, USER)), (CLUSTER, Get(definition, CLUSTER))])
    case _ => Err(AttributeError)
  }

  /** A context without a user shows `None` as its user. */
  lemma ContextWithoutUser(name: string, definition: Obj)
    requires !HasKey(definition, USER)
    ensures ContextRow((name, JObj(definition))).Ok?
    ensures Lookup(ContextRow((name, JObj(definition))).value, USER) == Some(JNull)
  {
  }

  /** Every attribute of a row, underlined. */
  function Underlined(row: Obj): (r: Obj)
    ensures |r| == |row| && Keys(r) == Keys(row)
    ensures forall i :: 0 <= i < |row| ==> r[i] == (row[i].0, JStr(Utils.Colorize(row[i].1, Utils.UNDERLINE)))
  {
    var r := seq(|row|, i requires 0 <= i < |row| => (row[i].0, JStr(Utils.Colorize(row[i].1, Utils.UNDERLINE))));
    assert forall i :: 0 <= i < |row| ==> Keys(r)[i] == Keys(row)[i];
    r
  }

  /** Underlining always shows: no non-empty row is its own underlining. */
  lemma UnderlinedChanges(row: Obj)
    requires row != []
    ensures Underlined(row) != row
  {
    var v := row[0].1;
    var shown := Utils.Colorize(v, Utils.UNDERLINE);
    if v.JStr? {
      assert |shown| > |v.s|;
    }
    assert Underlined(row)[0].1 != v;
  }

  /** `ConfigContextList.transform`: the row of the default context has
      every attribute underlined; the others are kept. */
  function ContextTransform(rows: seq<Obj>, default: Json): (r: seq<Obj>)
    ensures |r| == |rows|
  {
    seq(|rows|, i requires 0 <= i < |rows| =>
      if Get(rows[i], NAME) == default then Underlined(rows[i]) else rows[i])
  }

  /** The transform keeps the rows in order, underlines the default
      context's row, and changes a (non-empty) row exactly when its name is
      the default context. */
  lemma ContextTransformMarks(rows: seq<Obj>, default: Json, i: nat)
    requires i < |rows|
    ensures Get(rows[i], NAME) == default ==> ContextTransform(rows, default)[i] == Underlined(rows[i])
    ensures Get(rows[i], NAME) != default ==> ContextTransform(rows, default)[i] == rows[i]
    ensures rows[i] != [] ==> (ContextTransform(rows, default)[i] != rows[i] <==> Get(rows[i], NAME) == default)
  {
    if rows[i] != [] {
      UnderlinedChanges(rows[i]);
    }
  }

  /** `ConfigContextList.take_action`'s rows: one per context, then the
      default context underlined. */
  function ContextList(config: Obj): (r: Result<seq<Obj>>)
    ensures r.Ok? <==> BlockRows(config, CONTEXTS, ContextRow).Ok?
    ensures r.Ok? ==> |r.value| == |Get(config, CONTEXTS).fields|
  {
    var rows :- BlockRows(config, CONTEXTS, ContextRow);
    Ok(ContextTransform(rows, Get(config, Config.DEFAULT_CONTEXT)))
  }

  /** The `i`-th listed context is underlined exactly when it is the
      default context, and otherwise shows its own name, user and cluster. */
  lemma ContextListMarksDefault(config: Obj, i: nat)
    requires ContextList(config).Ok? && i < |ContextList(config).value|
    ensures var (name, definition) := Get(config, CONTEXTS).fields[i];
            var row := [(NAME, JStr(name)), (USER, Get(definition.fields, USER)), (CLUSTER, Get(definition.fields, CLUSTER))];
            definition.JObj? &&
            (JStr(name) == Get(config, Config.DEFAULT_CONTEXT) ==> ContextList(config).value[i] == Underlined(row)) &&
            (JStr(name) != Get(config, Config.DEFAULT_CONTEXT) ==> ContextList(config).value[i] == row)
  {
    var rows := BlockRows(config, CONTEXTS, ContextRow).value;
    var context := Get(config, CONTEXTS).fields[i];
    assert ContextRow(context) == Ok(rows[i]);
    ContextTransformMarks(rows, Get(config, Config.DEFAULT_CONTEXT), i);
  }

  /** In a configuration whose contexts form a dictionary, at most one row
      is underlined. */
  lemma ContextListOneDefault(config: Obj, i: nat, j: nat)
    requires ContextList(config).Ok? && i < j < |ContextList(config).value|
    requires DistinctKeys(Get(config, CONTEXTS).fields)
    ensures ContextList(config).value[i] == BlockRows(config, CONTEXTS, ContextRow).value[i] ||
            ContextList(config).value[j] == BlockRows(config, CONTEXTS, ContextRow).value[j]
  {
    var rows := BlockRows(config, CONTEXTS, ContextRow).value;
    var contexts := Get(config, CONTEXTS).fields;
    assert ContextRow(contexts[i]) == Ok(rows[i]) && ContextRow(contexts[j]) == Ok(rows[j]);
    assert Get(rows[i], NAME) == JStr(contexts[i].0) && Get(rows[j], NAME) == JStr(contexts[j].0);
    ContextTransformMarks(rows, Get(config, Config.DEFAULT_CONTEXT), i);
    ContextTransformMarks(rows, Get(config, Config.DEFAULT_CONTEXT), j);
  }

  /** `ConfigContextSet.take_action`, without the write to the file: the
      argument parser accepts only a configured context (its choices are
      the `contexts` block, and `None` means any value) and exits with
      status 2 otherwise; then `default-context` is set. */
  function ContextSet(config: Obj, context: string): (r: Result<Obj>)
    ensures r.Ok? ==> Lookup(r.value, Config.DEFAULT_CONTEXT) == Some(JStr(context))
    ensures r.Ok? ==> forall k :: k != Config.DEFAULT_CONTEXT ==> Lookup(r.value, k) == Lookup(config, k)
    ensures r.Ok? && HasKey(config, Config.DEFAULT_CONTEXT) ==> Keys(r.value) == Keys(config)
    ensures Get(config, CONTEXTS).JObj? ==> (r.Ok? <==> HasKey(Get(config, CONTEXTS).fields, context))
    ensures r.Err? && Get(config, CONTEXTS).JObj? ==> r.error == SystemExit(2)
  {
    var choices := Get(config, CONTEXTS);
    var accepted :- if choices.JNull? then Ok(true) else PyContains(choices, context);
    if !accepted then Err(SystemExit(2))
    else
      var r := Put(config, Config.DEFAULT_CONTEXT, JStr(context));
      assert forall k :: Lookup(r, k) == if k == Config.DEFAULT_CONTEXT then Some(JStr(context)) else Lookup(config, k) by {
        forall k ensures Lookup(r, k) == if k == Config.DEFAULT_CONTEXT then Some(JStr(context)) else Lookup(config, k) {
          PutLookup(config, Config.DEFAULT_CONTEXT, JStr(context), k);
        }
      }
      Ok(r)
  }

  /** After setting the default context, the context listing underlines
      exactly the row of that context. */
  lemma ContextSetThenList(config: Obj, context: string, i: nat)
    requires ContextSet(config, context).Ok?
    requires ContextList(config).Ok? && i < |ContextList(config).value|
    ensures var after := ContextSet(config, context).value;
            var before := BlockRows(config, CONTEXTS, ContextRow).value;
            ContextList(after).Ok? && |ContextList(after).value| == |before| &&
            (ContextList(after).value[i] != before[i] <==> Get(config, CONTEXTS).fields[i].0 == context)
  {
    var after := ContextSet(config, context).value;
    assert Get(after, CONTEXTS) == Get(config, CONTEXTS);
    assert Get(after, Config.DEFAULT_CONTEXT) == JStr(context);
    var rows := BlockRows(config, CONTEXTS, ContextRow).value;
    var contexts := Get(config, CONTEXTS).fields;
    assert BlockRows(after, CONTEXTS, ContextRow) == BlockRows(config, CONTEXTS, ContextRow);
    assert ContextRow(contexts[i]) == Ok(rows[i]);
    ContextTransformMarks(rows, JStr(context), i);
  }

  // ---------------------------------------------------------------------------
  // config user list
  // ---------------------------------------------------------------------------

  /** One user: its name, username and password, `None` for those missing. */
  function UserRow(user: (string, Json)): (r: Result<Obj>)
    ensures r.Ok? <==> user.1.JObj?
    ensures !user.1.JObj? ==> r == Err(AttributeError)
    ensures r.Ok? ==> Keys(r.value) == [NAME, USERNAME, PASSWORD] && Lookup(r.value, NAME) == Some(JStr(user.0))
  {
    match user.1
    case JObj(definition) =>
      Ok([(NAME, JStr(user.0)), (USERNAME, Get(definition, USERNAME)), (PASSWORD, Get(definition, PASSWORD))])
    case _ => Err(AttributeError)
  }

  /** `ConfigUserList.take_action`'s rows, one per configured user. */
  function UserList(config: Obj): (r: Result<seq<Obj>>)
    ensures r.Ok? ==> Get(config, USERS).JObj? && |r.value| == |Get(config, USERS).fields|
  {
    BlockRows(config, USERS, UserRow)
  }

  /** The user listing fails exactly when the block or a definition is not
      a dictionary, and otherwise shows each user's own credentials. */
  lemma UserListRows(config: Obj)
    ensures UserList(config).Ok? <==>
              Get(config, USERS).JObj? &&
              forall i :: 0 <= i < |Get(config, USERS).fields| ==> Get(config, USERS).fields[i].1.JObj?
    ensures UserList(config).Ok? ==>
              forall i :: 0 <= i < |Get(config, USERS).fields| ==>
                var (name, definition) := Get(config, USERS).fields[i];
                UserList(config).value[i]
                == [(NAME, JStr(name)), (USERNAME, Get(definition.fields, USERNAME)), (PASSWORD, Get(definition.fields, PASSWORD))]
  {
    if Get(config, USERS).JObj? {
      MapResultAt(Get(config, USERS).fields, UserRow);
    }
  }

  /** The columns of the user listing, with derived labels. */
  const UserColumns: seq<ColumnArg> := [Bare(NAME), Bare(USERNAME), Bare(PASSWORD)]

  /** The user listing shows, in its third column, each user's configured
      password. */
  lemma UserListing(config: Obj)
    requires UserList(config).Ok?
    ensures var listing := FormatForLister(UserList(config).value, UserColumns);
            var users := Get(config, USERS).fields;
            |listing.headers| == 3 && |listing.rows| == |users| &&
            forall i :: 0 <= i < |users| ==> listing.rows[i][2] == Get(users[i].1.fields, PASSWORD)
  {
    UserListRows(config);
    var users := Get(config, USERS).fields;
    var rows := UserList(config).value;
    assert UserColumns[2].id == PASSWORD;
    forall i | 0 <= i < |users| ensures Get(rows[i], PASSWORD) == Get(users[i].1.fields, PASSWORD) {
      assert rows[i][2] == (PASSWORD, Get(users[i].1.fields, PASSWORD));
    }
  }
}

=== FILE: cmd_settings.dfy ===
/** The `cluster settings get`, `reset` and `set` commands
    (esctl/cmd/settings.py). The cluster response is an input; a write
    command returns the line it prints first and the body it sends. */
module SettingsCommands {
  import opened Results
  import opened Json
  import opened Assoc
  import opened Commands
  import opened Settings
  import Utils
  import Text

  /** What a write command announces, and the request body it sends. */
  datatype Write = Write(announce: string, body: Obj)

  /** `Color.colorize("default", Color.ITALIC)`. */
  function DefaultMarker(): string {
    Utils.ColorizeStr("default", Utils.ITALIC)
  }

  /** What `ClusterSettingsGet` shows for a resolved setting: the value,
      marked when it came from `defaults`, or an error when there is none. */
  function GetOutput(setting: Setting, persistency: string): (r: Output)
    ensures r.Print? <==> !setting.value.JNull?
    ensures r.Print? ==> Text.StartsWith(r.line, ToText(setting.value))
  {
    if !setting.value.JNull? then
      if setting.persistency == DEFAULTS then
        Print(ToText(setting.value) + " (" + DefaultMarker() + ")")
      else
        Print(ToText(setting.value))
    else
      LogError(Utils.ColorizeStr(setting.name, Utils.ITALIC) + " does not exists in "
               + Utils.ColorizeStr(persistency, Utils.ITALIC) + " cluster settings.")
  }

  /** `ClusterSettingsGet.take_action` over the cluster response. */
  function ClusterSettingsGet(response: Obj, setting: string, persistent: bool): (r: Result<Output>)
    ensures WellFormedCluster(response) ==> r.Ok?
  {
    var persistency := Persistency(persistent);
    var resolved :- ClusterGet(response, setting, persistency);
    Ok(GetOutput(resolved, persistency))
  }

  /** The command shows the chosen tier's value as is, a value found only in
      `defaults` marked as a default, and an error when neither holds one. */
  lemma ClusterSettingsGetShows(response: Obj, setting: string, persistent: bool)
    requires WellFormedCluster(response)
    ensures var tier := Tier(response, Persistency(persistent));
            var defaults := Tier(response, DEFAULTS);
            var r := ClusterSettingsGet(response, setting, persistent);
            (HasKey(tier, setting) && !Lookup(tier, setting).value.JNull? ==>
               r == Ok(Print(ToText(Lookup(tier, setting).value)))) &&
            (!HasKey(tier, setting) && HasKey(defaults, setting) && !Lookup(defaults, setting).value.JNull? ==>
               r == Ok(Print(ToText(Lookup(defaults, setting).value) + " (" + DefaultMarker() + ")"))) &&
            (!HasKey(tier, setting) && !HasKey(defaults, setting) ==>
               r == Ok(LogError(Utils.ColorizeStr(setting, Utils.ITALIC) + " does not exists in "
                                + Utils.ColorizeStr(Persistency(persistent), Utils.ITALIC) + " cluster settings.")))
  {
  }

  /** The two output cases of the command's test. */
  lemma GetOutputExamples()
    ensures GetOutput(Setting("whatever", JStr("foo"), TRANSIENT), TRANSIENT) == Print("foo")
    ensures GetOutput(Setting("whatever", JStr("foo"), DEFAULTS), TRANSIENT)
              == Print("foo" + " (" + Utils.ColorizeStr("default", Utils.ITALIC) + ")")
  {
  }

  /** `ClusterSettingsReset.take_action`: announce, then write `None` to the
      setting at the chosen persistency. */
  function ClusterSettingsReset(setting: string, persistent: bool): (r: Write)
    ensures Keys(r.body) == [Persistency(persistent)]
    ensures Lookup(r.body, Persistency(persistent)) == Some(JObj([(setting, JNull)]))
  {
    Write("Resetting " + Utils.ColorizeStr(setting, Utils.ITALIC) + " to its default value",
          SetBody(setting, JNull, Persistency(persistent)))
  }

  /** `ClusterSettingsSet.take_action`: announce, then write the value as
      given at the chosen persistency. */
  function ClusterSettingsSet(setting: string, value: string, persistent: bool): (r: Write)
    ensures Keys(r.body) == [Persistency(persistent)]
    ensures Lookup(r.body, Persistency(persistent)) == Some(JObj([(setting, JStr(value))]))
  {
    Write("Changing " + Utils.ColorizeStr(setting, Utils.ITALIC) + " to " + Utils.ColorizeStr(value, Utils.ITALIC),
          SetBody(setting, JStr(value), Persistency(persistent)))
  }

  /** What `set` sends is what `get` shows: a cluster whose chosen tier is
      the body that was sent shows the value unchanged. */
  lemma SetThenGet(setting: string, value: string, persistent: bool, transient: Obj, persistentTier: Obj, defaults: Obj)
    ensures var sent := ClusterSettingsSet(setting, value, persistent).body;
            var other := if persistent then (TRANSIENT, JObj(transient)) else (PERSISTENT, JObj(persistentTier));
            ClusterSettingsGet(sent + [other, (DEFAULTS, JObj(defaults))], setting, persistent) == Ok(Print(value))
  {
    var p := Persistency(persistent);
    var sent := ClusterSettingsSet(setting, value, persistent).body;
    var other := if persistent then (TRANSIENT, JObj(transient)) else (PERSISTENT, JObj(persistentTier));
    var response := sent + [other, (DEFAULTS, JObj(defaults))];
    assert response[0] == (p, JObj([(setting, JStr(value))]));
    assert Get(response, p) == JObj([(setting, JStr(value))]);
    assert HasKey([(setting, JStr(value))], setting);
  }
}

=== FILE: commands.dfy ===
/** Helpers shared by every command (esctl/commands.py): ordering a
    dictionary by key, the success message, and what a command emits. */
module Commands {
  import opened Results
  import opened Assoc
  import opened Json
  import Ordering
  import Utils

  /** What a command hands to the terminal: a printed line or a logged error. */
  datatype Output = Print(line: string) | LogError(message: string)

  /** Python `"persistent" if parsed_args.persistent else "transient"`, shared
      by the settings, logging and routing-allocation commands. */
  function Persistency(persistent: bool): (r: string)
    ensures r == "persistent" <==> persistent
    ensures r == "transient" <==> !persistent
  {
    if persistent then "persistent" else "transient"
  }

  // ---------------------------------------------------------------------------
  // _sort_and_order_dict
  // ---------------------------------------------------------------------------

  function EntryKey(p: (string, Json)): string { p.0 }

  /** Python `{e[0]: e[1] for e in sorted(dct.items())}`. The keys of a
      dictionary are distinct, so sorting the items sorts by key. */
  function SortAndOrder(d: Obj): (r: Obj)
    ensures |r| <= |d|
  {
    var sorted := Ordering.SortBy(d, EntryKey);
    FromPairs(sorted)
  }

  /** Strictly ascending keys are distinct keys. */
  lemma StrictlySortedDistinct(r: Obj)
    requires Ordering.StrictlySortedBy(r, EntryKey)
    ensures DistinctKeys(r)
  {
    forall i, j | 0 <= i < j < |r|
      ensures r[i].0 != r[j].0
    {
      assert Ordering.LexLess(EntryKey(r[i]), EntryKey(r[j]));
      Ordering.LexIrreflexive(r[i].0);
    }
  }

  lemma SamePairsHasKey(d: Obj, r: Obj, k: string)
    requires multiset(r) == multiset(d)
    requires HasKey(r, k)
    ensures HasKey(d, k)
  {
    var i :| 0 <= i < |r| && Keys(r)[i] == k;
    assert r[i] in multiset(d);
    var j :| 0 <= j < |d| && d[j] == r[i];
    assert Keys(d)[j] == k;
  }

  /** Two dictionaries holding the same pairs read the same everywhere. */
  lemma SamePairsSameLookup(d: Obj, r: Obj, k: string)
    requires DistinctKeys(d) && DistinctKeys(r)
    requires multiset(r) == multiset(d)
    ensures Lookup(r, k) == Lookup(d, k)
  {
    if HasKey(d, k) {
      var v := Lookup(d, k).value;
      assert (k, v) in multiset(r);
      LookupDistinct(r, k, v);
    } else if HasKey(r, k) {
      SamePairsHasKey(d, r, k);
      assert false;
    }
  }

  /** On a dictionary, the comprehension changes nothing after the sort. */
  lemma SortAndOrderIsSort(d: Obj)
    requires DistinctKeys(d)
    ensures SortAndOrder(d) == Ordering.SortBy(d, EntryKey)
    ensures Ordering.StrictlySortedBy(SortAndOrder(d), EntryKey)
  {
    var sorted := Ordering.SortBy(d, EntryKey);
    assert Ordering.UniqueKeysBy(d, EntryKey);
    Ordering.SortByStrict(d, EntryKey);
    StrictlySortedDistinct(sorted);
    FromPairsDistinct(sorted);
  }

  /** The keys come out in strictly ascending order. */
  lemma SortAndOrderAscending(d: Obj, i: nat, j: nat)
    requires DistinctKeys(d)
    requires i < j < |SortAndOrder(d)|
    ensures Ordering.LexLess(SortAndOrder(d)[i].0, SortAndOrder(d)[j].0)
  {
    SortAndOrderIsSort(d);
    var r := SortAndOrder(d);
    assert Ordering.LexLess(EntryKey(r[i]), EntryKey(r[j]));
  }

  /** Same size, and every key reads the value it had. */
  lemma SortAndOrderLookup(d: Obj, k: string)
    requires DistinctKeys(d)
    ensures |SortAndOrder(d)| == |d|
    ensures DistinctKeys(SortAndOrder(d))
    ensures Lookup(SortAndOrder(d), k) == Lookup(d, k)
  {
    SortAndOrderIsSort(d);
    var r := SortAndOrder(d);
    StrictlySortedDistinct(r);
    SamePairsSameLookup(d, r, k);
  }

  /** Ordering an ordered dictionary again changes nothing. */
  lemma SortAndOrderIdempotent(d: Obj)
    requires DistinctKeys(d)
    ensures SortAndOrder(SortAndOrder(d)) == SortAndOrder(d)
  {
    SortAndOrderIsSort(d);
    SortAndOrderLookup(d, "");
    SortAndOrderIsSort(SortAndOrder(d));
    Ordering.SortByIdempotent(d, EntryKey);
  }

  /** Rows built, entry by entry, from a response put in order follow the
      ascending keys. */
  lemma SortedRowsAscending<B>(d: Obj, f: ((string, Json)) -> Result<B>, i: nat, j: nat)
    requires DistinctKeys(d) && MapResult(SortAndOrder(d), f).Ok?
    requires i < j < |SortAndOrder(d)|
    ensures var sorted := SortAndOrder(d);
            var rows := MapResult(sorted, f).value;
            f(sorted[i]) == Ok(rows[i]) && f(sorted[j]) == Ok(rows[j]) &&
            Ordering.LexLess(sorted[i].0, sorted[j].0)
  {
    MapResultAt(SortAndOrder(d), f);
    SortAndOrderAscending(d, i, j);
  }

  /** ... and every entry of the response has its row. */
  lemma SortedRowsCover<B>(d: Obj, f: ((string, Json)) -> Result<B>, k: string)
    requires DistinctKeys(d) && MapResult(SortAndOrder(d), f).Ok? && HasKey(d, k)
    ensures var sorted := SortAndOrder(d);
            exists i :: 0 <= i < |sorted| && sorted[i] == (k, Lookup(d, k).value) &&
                        f(sorted[i]) == Ok(MapResult(sorted, f).value[i])
  {
    var sorted := SortAndOrder(d);
    MapResultAt(sorted, f);
    SortAndOrderLookup(d, k);
    var i :| 0 <= i < |sorted| && sorted[i] == (k, Lookup(d, k).value);
  }

  // ---------------------------------------------------------------------------
  // print_success
  // ---------------------------------------------------------------------------

  /** Python `"{} {}".format(Color.colorize("SUCCESS", Color.GREEN), message)`. */
  function SuccessMessage(message: Json): (r: string)
    ensures |r| > |Utils.ColorizeStr("SUCCESS", Utils.GREEN)|
    ensures r[..|Utils.ColorizeStr("SUCCESS", Utils.GREEN)|] == Utils.ColorizeStr("SUCCESS", Utils.GREEN)
    ensures r[|Utils.ColorizeStr("SUCCESS", Utils.GREEN)|] == ' '
    ensures r[|Utils.ColorizeStr("SUCCESS", Utils.GREEN)| + 1..] == ToText(message)
  {
    Utils.ColorizeStr("SUCCESS", Utils.GREEN) + " " + ToText(message)
  }

  /** The message can be read back from the success line. */
  lemma SuccessMessageInjective(a: Json, b: Json)
    requires SuccessMessage(a) == SuccessMessage(b)
    ensures ToText(a) == ToText(b)
  {
    var n := |Utils.ColorizeStr("SUCCESS", Utils.GREEN) + " "|;
    assert ToText(a) == SuccessMessage(a)[n..];
    assert ToText(b) == SuccessMessage(b)[n..];
  }
}

=== FILE: config.dfy ===
/** The configuration file parser (esctl/config.py): the default file, the
    blocks it exposes once loaded, and how a context is resolved from them.

    Reading and writing the YAML file and the schema validation are not part
    of this model: a loaded file is the dictionary `raw`, and the parser's
    attributes are the dictionary `attrs` (its `__dict__`). */
module Config {
  import opened Results
  import opened Assoc
  import opened Json

  /** The blocks `load_configuration` copies into attributes, in order. */
  const EXPECTED_BLOCKS: seq<string> := ["clusters", "contexts", "default-context", "settings", "users"]

  const DEFAULT_CONTEXT: string := "default-context"

  /** A resolved context: its name, its user entry (or `None`), its cluster
      entry, and the settings in force for it. */
  datatype Context = Context(name: Json, user: Json, cluster: Json, settings: Obj)

  /** The attributes a fresh parser starts with: an empty dict for every
      expected block but `default-context`, which it does not have yet. */
  function InitialAttributes(): (r: Obj)
    ensures Keys(r) == [EXPECTED_BLOCKS[4], EXPECTED_BLOCKS[1], EXPECTED_BLOCKS[0], EXPECTED_BLOCKS[3]]
    ensures forall i :: 0 <= i < |r| ==> r[i].1 == JObj([]) && r[i].0 in EXPECTED_BLOCKS
    ensures forall k :: k in Keys(r) ==> Lookup(r, k) == Some(JObj([]))
    ensures !HasKey(r, DEFAULT_CONTEXT)
  {
    [("users", JObj([])), ("contexts", JObj([])), ("clusters", JObj([])), ("settings", JObj([]))]
  }

  /** Whether the file's `default-context` names one of its contexts. */
  predicate DefaultContextDefined(raw: Obj) {
    && Get(raw, DEFAULT_CONTEXT).JStr?
    && Get(raw, "contexts").JObj?
    && HasKey(Get(raw, "contexts").fields, Get(raw, DEFAULT_CONTEXT).s)
  }

  /** The file written when none exists: its blocks come in the order
      settings, clusters, users, contexts, default-context, and its default
      context is one of its contexts. */
  function DefaultConfig(): (r: Obj)
    ensures Keys(r) == [EXPECTED_BLOCKS[3], EXPECTED_BLOCKS[0], EXPECTED_BLOCKS[4], EXPECTED_BLOCKS[1], EXPECTED_BLOCKS[2]]
    ensures DefaultContextDefined(r)
  {
    var contexts := [("localhost", JObj([("cluster", JStr("localhost"))]))];
    var r := [("settings", JObj([])),
              ("clusters", JObj([("localhost", JObj([("servers", JArr([JStr("http://localhost:9200")]))]))])),
              ("users", JObj([])),
              ("contexts", JObj(contexts)),
              (DEFAULT_CONTEXT, JStr("localhost"))];
    assert r[0].0 == "settings" && r[1].0 == "clusters" && r[2].0 == "users";
    assert r[3].0 == "contexts" && r[4].0 == DEFAULT_CONTEXT;
    var b := EXPECTED_BLOCKS;
    assert Keys(r) == [b[3], b[0], b[4], b[1], b[2]];
    BlocksInAnyOrder(r);
    LookupAt(r, 4);
    LookupAt(r, 3);
    assert HasKey(contexts, "localhost") by { assert Keys(contexts)[0] == "localhost"; }
    r
  }

  /** No two expected blocks share a name. */
  lemma ExpectedBlocksDistinct()
    ensures forall i, j :: 0 <= i < j < |EXPECTED_BLOCKS| ==> EXPECTED_BLOCKS[i] != EXPECTED_BLOCKS[j]
  {
    var b := EXPECTED_BLOCKS;
    assert b[0][0] == 'c' && b[0][1] == 'l';
    assert b[1][0] == 'c' && b[1][1] == 'o';
    assert b[2][0] == 'd' && b[3][0] == 's' && b[4][0] == 'u';
  }

  /** The default file holds exactly the expected blocks, once each. */
  lemma DefaultConfigBlocks()
    ensures DistinctKeys(DefaultConfig())
    ensures multiset(Keys(DefaultConfig())) == multiset(EXPECTED_BLOCKS)
  {
    BlocksInAnyOrder(DefaultConfig());
  }

  /** A dictionary whose keys are distinct is one whose `Keys` are. */
  lemma BlocksInAnyOrder(r: Obj)
    requires var b := EXPECTED_BLOCKS; Keys(r) == [b[3], b[0], b[4], b[1], b[2]]
    ensures DistinctKeys(r)
    ensures multiset(Keys(r)) == multiset(EXPECTED_BLOCKS)
  {
    PermutedBlocksDistinct(Keys(r));
    DistinctByKeys(r);
    PermutationOfBlocks(Keys(r));
  }

  lemma PermutedBlocksDistinct(perm: seq<string>)
    requires var b := EXPECTED_BLOCKS; perm == [b[3], b[0], b[4], b[1], b[2]]
    ensures forall i, j :: 0 <= i < j < |perm| ==> perm[i] != perm[j]
  {
    var b := EXPECTED_BLOCKS;
    var at: seq<nat> := [3, 0, 4, 1, 2];
    assert forall i :: 0 <= i < 5 ==> at[i] < 5 && perm[i] == b[at[i]];
    ExpectedBlocksDistinct();
    forall i, j | 0 <= i < j < |perm|
      ensures perm[i] != perm[j]
    {
      assert at[i] != at[j];
    }
  }

  lemma PermutationOfBlocks(perm: seq<string>)
    requires var b := EXPECTED_BLOCKS; perm == [b[3], b[0], b[4], b[1], b[2]]
    ensures multiset(perm) == multiset(EXPECTED_BLOCKS)
  {
    var b := EXPECTED_BLOCKS;
    assert perm == [b[3]] + [b[0]] + [b[4]] + [b[1]] + [b[2]];
    assert b == [b[0]] + [b[1]] + [b[2]] + [b[3]] + [b[4]];
  }

  /** The pairs `(block, raw.get(block))` for the given blocks. */
  function BlockPairs(raw: Obj, blocks: seq<string>): (r: Obj)
    ensures Keys(r) == blocks
    ensures forall i :: 0 <= i < |r| ==> r[i].1 == Get(raw, blocks[i])
  {
    if blocks == [] then [] else [(blocks[0], Get(raw, blocks[0]))] + BlockPairs(raw, blocks[1..])
  }

  /** The parser's attributes after `load_configuration(raw)`: every expected
      block is set to the file's block, `None` when the file lacks it. */
  function LoadBlocks(raw: Obj): (attrs: Obj)
    ensures DistinctKeys(attrs)
    ensures forall k :: HasKey(attrs, k) <==> k in EXPECTED_BLOCKS
  {
    var init := InitialAttributes();
    var ps := BlockPairs(raw, EXPECTED_BLOCKS);
    InitialAttributesDistinct();
    PutAllDistinct(init, ps);
    PutAllHasKeys(init, ps);
    PutAll(init, ps)
  }

  /** Once loaded, the parser exposes exactly the five expected blocks, each
      holding what the file holds under that name. */
  lemma LoadBlocksExposes(raw: Obj, k: string)
    ensures DistinctKeys(LoadBlocks(raw))
    ensures HasKey(LoadBlocks(raw), k) <==> k in EXPECTED_BLOCKS
    ensures k in EXPECTED_BLOCKS ==> Lookup(LoadBlocks(raw), k) == Some(Get(raw, k))
  {
    var init := InitialAttributes();
    var ps := BlockPairs(raw, EXPECTED_BLOCKS);
    InitialAttributesDistinct();
    PutAllDistinct(init, ps);
    PutAllHasKey(init, ps, k);
    PutAllLookup(init, ps, k);
    BlockPairsLookup(raw, k);
  }

  lemma InitialAttributesDistinct()
    ensures DistinctKeys(InitialAttributes())
    ensures forall k :: HasKey(InitialAttributes(), k) ==> k in EXPECTED_BLOCKS
  {
    var b := EXPECTED_BLOCKS;
    var init := InitialAttributes();
    assert Keys(init) == [b[4], b[1], b[0], b[3]];
    ExpectedBlocksDistinct();
    DistinctByKeys(init);
  }

  /** Every expected block reads the file's block, last and only once. */
  lemma BlockPairsLookup(raw: Obj, k: string)
    ensures HasKey(BlockPairs(raw, EXPECTED_BLOCKS), k) <==> k in EXPECTED_BLOCKS
    ensures k in EXPECTED_BLOCKS ==> LastLookup(BlockPairs(raw, EXPECTED_BLOCKS), k) == Some(Get(raw, k))
  {
    var ps := BlockPairs(raw, EXPECTED_BLOCKS);
    ExpectedBlocksDistinct();
    DistinctByKeys(ps);
    LastLookupDistinct(ps, k);
    if k in EXPECTED_BLOCKS {
      var i :| 0 <= i < |ps| && Keys(ps)[i] == k;
      LookupAt(ps, i);
    }
  }

  /** Python `self.__getattribute__(name)`. */
  function Attribute(attrs: Obj, name: string): (r: Result<Json>)
    ensures r.Ok? <==> HasKey(attrs, name)
    ensures r.Err? ==> r.error == AttributeError
  {
    match Lookup(attrs, name)
    case Some(v) => Ok(v)
    case None => Err(AttributeError)
  }

  /** Python `{**v}`: only a mapping can be spread. */
  function Spread(v: Json): (r: Result<Obj>)
    ensures r.Ok? <==> v.JObj?
    ensures r.Ok? ==> r.value == v.fields
    ensures r.Err? ==> r.error == TypeError
  {
    match v
    case JObj(f) => Ok(f)
    case _ => Err(TypeError)
  }

  /** `get_context_informations`: the user and the cluster are looked up by
      the names the context gives; the cluster's own settings, when it has
      some, override the global ones key by key. A missing context or block
      raises `AttributeError` (`None.get`), a missing cluster `TypeError`
      (`"settings" in None`). */
  function GetContextInformations(attrs: Obj, name: Json): (r: Result<Context>)
    ensures r.Ok? ==> r.value.name == name
    ensures (Get(attrs, "contexts").JObj? && !name.JArr? && !name.JObj? &&
             !(name.JStr? && HasKey(Get(attrs, "contexts").fields, name.s)))
              ==> r == Err(AttributeError)
    ensures Get(attrs, "contexts").JObj? && (name.JArr? || name.JObj?) ==> r == Err(TypeError)
  {
    var context :- PyGetAny(Get(attrs, "contexts"), name);
    match context
    case JObj(entry) =>
      var user :- PyGetAny(Get(attrs, "users"), Get(entry, "user"));
      var cluster :- PyGetAny(Get(attrs, "clusters"), Get(entry, "cluster"));
      var hasSettings :- PyContains(cluster, "settings");
      var globals :- Spread(Get(attrs, "settings"));
      if hasSettings then
        var own :- PyGet(cluster, "settings");
        var clusterSettings :- Spread(own);
        Ok(Context(name, user, cluster, PutAll(PutAll([], globals), clusterSettings)))
      else
        Ok(Context(name, user, cluster, PutAll([], globals)))
    case _ => Err(AttributeError)
  }

  /** `create_context`: with no (or an empty) name the `default-context` is
      used; a context that cannot be loaded (`AttributeError`) is fatal and
      exits with status 1. Other errors propagate. */
  function CreateContext(attrs: Obj, contextName: Option<string>): (r: Result<Context>)
    ensures r.Err? && r.error == AttributeError ==>
              (contextName.None? || contextName == Some("")) && !HasKey(attrs, DEFAULT_CONTEXT)
    ensures contextName.Some? && contextName.value != "" &&
            GetContextInformations(attrs, JStr(contextName.value)) == Err(AttributeError) ==>
              r == Err(SystemExit(1))
    ensures contextName.Some? && contextName.value != "" &&
            GetContextInformations(attrs, JStr(contextName.value)) != Err(AttributeError) ==>
              r == GetContextInformations(attrs, JStr(contextName.value))
  {
    var name :- if contextName.Some? && contextName.value != "" then Ok(JStr(contextName.value))
                else Attribute(attrs, DEFAULT_CONTEXT);
    match GetContextInformations(attrs, name)
    case Err(AttributeError) => Err(SystemExit(1))
    case other => other
  }

  /** The pieces of a resolved context, for a context, user and cluster that
      are all present. */
  predicate Resolves(attrs: Obj, name: string, context: Obj, cluster: Obj, globals: Obj)
  {
    Get(attrs, "contexts").JObj? &&
    Lookup(Get(attrs, "contexts").fields, name) == Some(JObj(context)) &&
    Get(attrs, "users").JObj? &&
    !Get(context, "user").JArr? && !Get(context, "user").JObj? &&
    Get(attrs, "clusters").JObj? &&
    Get(context, "cluster").JStr? &&
    Lookup(Get(attrs, "clusters").fields, Get(context, "cluster").s) == Some(JObj(cluster)) &&
    Get(attrs, "settings") == JObj(globals)
  }

  /** `get_context_informations` step by step, for a context that resolves. */
  lemma ResolvedSteps(attrs: Obj, name: string, context: Obj, cluster: Obj, globals: Obj)
    requires Resolves(attrs, name, context, cluster, globals)
    ensures var user := PyGetAny(Get(attrs, "users"), Get(context, "user"));
            var r := GetContextInformations(attrs, JStr(name));
            user.Ok? &&
            (!HasKey(cluster, "settings") ==>
               r == Ok(Context(JStr(name), user.value, JObj(cluster), PutAll([], globals)))) &&
            (HasKey(cluster, "settings") && Get(cluster, "settings").JObj? ==>
               r == Ok(Context(JStr(name), user.value, JObj(cluster),
                               PutAll(PutAll([], globals), Get(cluster, "settings").fields))))
  {
    var contexts := Get(attrs, "contexts");
    var clusters := Get(attrs, "clusters");
    assert PyGetAny(contexts, JStr(name)) == Ok(JObj(context));
    var user := PyGetAny(Get(attrs, "users"), Get(context, "user"));
    assert user.Ok?;
    assert PyGetAny(clusters, Get(context, "cluster")) == Ok(JObj(cluster));
    assert PyContains(JObj(cluster), "settings") == Ok(HasKey(cluster, "settings"));
    assert Spread(Get(attrs, "settings")) == Ok(globals);
    if HasKey(cluster, "settings") {
      assert PyGet(JObj(cluster), "settings") == Ok(Get(cluster, "settings"));
    }
  }

  /** A user named by a list or a dictionary cannot be looked up: it is
      unhashable, and the context does not resolve. */
  lemma UnhashableUser(attrs: Obj, name: string, context: Obj)
    requires Get(attrs, "contexts").JObj?
    requires Lookup(Get(attrs, "contexts").fields, name) == Some(JObj(context))
    requires Get(attrs, "users").JObj?
    requires Get(context, "user").JArr? || Get(context, "user").JObj?
    ensures GetContextInformations(attrs, JStr(name)) == Err(TypeError)
  {
    assert PyGetAny(Get(attrs, "contexts"), JStr(name)) == Ok(JObj(context));
  }

  /** The user and the cluster are the entries named by the context; a
      context without a user, or naming an unknown one, has user `None`. */
  lemma ContextNamesUserAndCluster(attrs: Obj, name: string, context: Obj, cluster: Obj, globals: Obj)
    requires Resolves(attrs, name, context, cluster, globals)
    requires HasKey(cluster, "settings") ==> Get(cluster, "settings").JObj?
    ensures var r := GetContextInformations(attrs, JStr(name));
            r.Ok? &&
            r.value.cluster == JObj(cluster) &&
            Ok(r.value.user) == PyGetAny(Get(attrs, "users"), Get(context, "user")) &&
            (!HasKey(context, "user") ==> r.value.user == JNull)
  {
    ResolvedSteps(attrs, name, context, cluster, globals);
  }

  /** Cluster settings override the global ones key by key; every other
      global setting is kept. */
  lemma ClusterSettingsOverride(attrs: Obj, name: string, context: Obj, cluster: Obj, globals: Obj, own: Obj, k: string)
    requires Resolves(attrs, name, context, cluster, globals)
    requires DistinctKeys(globals) && DistinctKeys(own)
    requires Lookup(cluster, "settings") == Some(JObj(own))
    ensures var r := GetContextInformations(attrs, JStr(name));
            r.Ok? &&
            DistinctKeys(r.value.settings) &&
            Lookup(r.value.settings, k) == if HasKey(own, k) then Lookup(own, k) else Lookup(globals, k)
  {
    ResolvedSteps(attrs, name, context, cluster, globals);
    FromPairsDistinct(globals);
    FromPairsDistinct(own);
    PutAllDistinct(globals, own);
    PutAllLookup(globals, own, k);
    assert Lookup(FromPairs(own), k) == LastLookup(own, k);
  }

  /** Without cluster settings, the context's settings are the global ones. */
  lemma NoClusterSettingsKeepsGlobals(attrs: Obj, name: string, context: Obj, cluster: Obj, globals: Obj)
    requires Resolves(attrs, name, context, cluster, globals)
    requires DistinctKeys(globals)
    requires !HasKey(cluster, "settings")
    ensures var r := GetContextInformations(attrs, JStr(name));
            r.Ok? && r.value.settings == globals
  {
    ResolvedSteps(attrs, name, context, cluster, globals);
    FromPairsDistinct(globals);
  }

  /** With no name, or an empty one, the `default-context` is resolved. */
  lemma DefaultContextUsed(attrs: Obj, contextName: Option<string>, default: string)
    requires contextName.None? || contextName == Some("")
    requires Lookup(attrs, DEFAULT_CONTEXT) == Some(JStr(default))
    requires default != ""
    ensures CreateContext(attrs, contextName) == CreateContext(attrs, Some(default))
  {
  }

  /** A name the `contexts` block does not hold is fatal: exit status 1. */
  lemma UnknownContextExits(attrs: Obj, name: string)
    requires name != ""
    requires Get(attrs, "contexts").JObj? && !HasKey(Get(attrs, "contexts").fields, name)
    ensures CreateContext(attrs, Some(name)) == Err(SystemExit(1))
  {
  }

  /** The default file resolves, with no name given, to the `localhost`
      context: no user, the `localhost` cluster at `http://localhost:9200`,
      and no settings. */
  lemma DefaultConfigResolves()
    ensures CreateContext(LoadBlocks(DefaultConfig()), None)
              == Ok(Context(JStr("localhost"), JNull,
                            JObj([("servers", JArr([JStr("http://localhost:9200")]))]), []))
  {
    DefaultAttributes();
    LocalhostResolves(LoadBlocks(DefaultConfig()));
  }

  /** The blocks of the default file, once loaded. */
  lemma DefaultAttributes()
    ensures var attrs := LoadBlocks(DefaultConfig());
            Lookup(attrs, DEFAULT_CONTEXT) == Some(JStr("localhost")) &&
            Get(attrs, "contexts") == JObj([("localhost", JObj([("cluster", JStr("localhost"))]))]) &&
            Get(attrs, "users") == JObj([]) &&
            Get(attrs, "clusters") == JObj([("localhost", JObj([("servers", JArr([JStr("http://localhost:9200")]))]))]) &&
            Get(attrs, "settings") == JObj([])
  {
    var raw := DefaultConfig();
    assert raw[0] == ("settings", JObj([]));
    assert raw[1] == ("clusters", JObj([("localhost", JObj([("servers", JArr([JStr("http://localhost:9200")]))]))]));
    assert raw[2] == ("users", JObj([]));
    assert raw[3] == ("contexts", JObj([("localhost", JObj([("cluster", JStr("localhost"))]))]));
    assert raw[4] == (DEFAULT_CONTEXT, JStr("localhost"));
    DefaultConfigBlocks();
    LoadedBlock(raw, 0);
    LoadedBlock(raw, 1);
    LoadedBlock(raw, 2);
    LoadedBlock(raw, 3);
    LoadedBlock(raw, 4);
  }

  /** A block of a file without repeated names is loaded as it stands. */
  lemma LoadedBlock(raw: Obj, i: nat)
    requires DistinctKeys(raw) && i < |raw| && raw[i].0 in EXPECTED_BLOCKS
    ensures Lookup(LoadBlocks(raw), raw[i].0) == Some(raw[i].1)
    ensures Get(LoadBlocks(raw), raw[i].0) == raw[i].1
  {
    LoadBlocksExposes(raw, raw[i].0);
    LookupAt(raw, i);
  }

  lemma LocalhostResolves(attrs: Obj)
    requires Lookup(attrs, DEFAULT_CONTEXT) == Some(JStr("localhost"))
    requires Get(attrs, "contexts") == JObj([("localhost", JObj([("cluster", JStr("localhost"))]))])
    requires Get(attrs, "users") == JObj([])
    requires Get(attrs, "clusters") == JObj([("localhost", JObj([("servers", JArr([JStr("http://localhost:9200")]))]))])
    requires Get(attrs, "settings") == JObj([])
    ensures CreateContext(attrs, None)
              == Ok(Context(JStr("localhost"), JNull,
                            JObj([("servers", JArr([JStr("http://localhost:9200")]))]), []))
  {
    var context := [("cluster", JStr("localhost"))];
    var cluster := [("servers", JArr([JStr("http://localhost:9200")]))];
    assert Resolves(attrs, "localhost", context, cluster, []);
    ResolvedSteps(attrs, "localhost", context, cluster, []);
    assert !HasKey(cluster, "settings");
    assert Attribute(attrs, DEFAULT_CONTEXT) == Ok(JStr("localhost"));
  }
}

=== FILE: formatter.dfy ===
/** Column naming and the projection of JSON documents onto table rows
    (esctl/formatter.py). */
module Formatter {
  import opened Results
  import opened Json
  import opened Assoc
  import Text

  /** A column as a command lists it: a bare id, a 1-tuple `(id,)`, or an
      `(id, name)` pair. */
  datatype ColumnArg = Bare(id: string) | Tuple1(id: string) | Tuple2(id: string, name: string)

  /** A column id and its display name. */
  datatype TableKey = TableKey(id: string, name: string)

  /** The first two steps of `_create_name_from_id`: dots and underscores
      become spaces. (Each replacement in the source is guarded by an `in`
      test, which changes nothing.) */
  function Spaced(id: string): (r: string)
    ensures '.' !in r && '_' !in r
    ensures |r| == |id|
    ensures forall i :: 0 <= i < |r| ==> r[i] == (if id[i] == '.' || id[i] == '_' then ' ' else id[i])
  {
    var dotless := Text.ReplaceChar(id, '.', ' ');
    Text.ReplaceCharRemoves(id, '.', ' ');
    Text.ReplaceCharKeeps(dotless, '_', ' ', '.');
    Text.ReplaceCharRemoves(dotless, '_', ' ');
    Text.ReplaceCharAt(id, '.', ' ');
    Text.ReplaceCharAt(dotless, '_', ' ');
    Text.ReplaceChar(dotless, '_', ' ')
  }

  /** Then `percent` becomes `%`. */
  function Substituted(id: string): (r: string)
    ensures '.' !in r && '_' !in r
  {
    var spaced := Spaced(id);
    Text.ReplaceAllChars(spaced, "percent", "%", '.');
    Text.ReplaceAllChars(spaced, "percent", "%", '_');
    Text.ReplaceAll(spaced, "percent", "%")
  }

  /** `TableKey._create_name_from_id`: the substituted id, title-cased. */
  function DeriveName(id: string): (r: string)
    ensures '.' !in r && '_' !in r
  {
    var named := Substituted(id);
    Text.TitleKeepsNonLetters(named, '.');
    Text.TitleKeepsNonLetters(named, '_');
    Text.Title(named)
  }

  /** `TableKey(id, name)`: a missing name is derived from the id. */
  function NewTableKey(id: string, name: Option<string>): (r: TableKey)
    ensures r.id == id
    ensures name.Some? ==> r.name == name.value
    ensures name.None? ==> '.' !in r.name && '_' !in r.name
  {
    TableKey(id, if name.Some? then name.value else DeriveName(id))
  }

  /** `_format_columns`: one key per column, in order; a bare id or a 1-tuple
      gets a derived name, a pair keeps its given name. */
  function FormatColumns(cols: seq<ColumnArg>): (r: seq<TableKey>)
    ensures |r| == |cols|
    ensures forall j :: 0 <= j < |cols| ==> r[j].id == cols[j].id
    ensures forall j :: 0 <= j < |cols| ==>
      r[j].name == (if cols[j].Tuple2? then cols[j].name else DeriveName(cols[j].id))
  {
    seq(|cols|, j requires 0 <= j < |cols| =>
      NewTableKey(cols[j].id, if cols[j].Tuple2? then Some(cols[j].name) else None))
  }

  /** The headers and rows handed to a cliff `Lister`. */
  datatype Listing = Listing(headers: seq<string>, rows: seq<seq<Json>>)

  function Names(keys: seq<TableKey>): (r: seq<string>)
    ensures |r| == |keys|
    ensures forall j :: 0 <= j < |keys| ==> r[j] == keys[j].name
  {
    seq(|keys|, j requires 0 <= j < |keys| => keys[j].name)
  }

  /** `line.get(column.id)` for every column, in order. */
  function Row(doc: Obj, keys: seq<TableKey>): (r: seq<Json>)
    ensures |r| == |keys|
    ensures forall j :: 0 <= j < |keys| ==> r[j] == Get(doc, keys[j].id)
  {
    if keys == [] then [] else [Get(doc, keys[0].id)] + Row(doc, keys[1..])
  }

  function Rows(docs: seq<Obj>, keys: seq<TableKey>): (r: seq<seq<Json>>)
    ensures |r| == |docs|
  {
    if docs == [] then [] else [Row(docs[0], keys)] + Rows(docs[1..], keys)
  }

  lemma {:induction false} RowsAt(docs: seq<Obj>, keys: seq<TableKey>)
    ensures forall i :: 0 <= i < |docs| ==> Rows(docs, keys)[i] == Row(docs[i], keys)
  {
    if docs != [] {
      RowsAt(docs[1..], keys);
    }
  }

  /** `JSONToCliffFormatter(docs).format_for_lister(cols)`. */
  function FormatForLister(docs: seq<Obj>, cols: seq<ColumnArg>): (r: Listing)
    ensures |r.headers| == |cols| && |r.rows| == |docs|
    ensures forall j :: 0 <= j < |cols| ==> r.headers[j] == FormatColumns(cols)[j].name
    ensures forall i :: 0 <= i < |docs| ==> |r.rows[i]| == |cols|
    ensures forall i, j :: 0 <= i < |docs| && 0 <= j < |cols| ==>
      r.rows[i][j] == Get(docs[i], cols[j].id)
  {
    var keys := FormatColumns(cols);
    RowsAt(docs, keys);
    Listing(Names(keys), Rows(docs, keys))
  }

  /** `JSONToCliffFormatter(doc).to_show_one(lines)`: the names and the values. */
  function ToShowOne(doc: Obj, lines: seq<ColumnArg>): (r: (seq<string>, seq<Json>))
    ensures |r.0| == |r.1| == |lines|
    ensures forall k :: 0 <= k < |lines| ==> r.1[k] == Get(doc, lines[k].id)
  {
    var keys := FormatColumns(lines);
    (Names(keys), Row(doc, keys))
  }

  // ---------------------------------------------------------------------------
  // Properties
  // ---------------------------------------------------------------------------

  /** Each document gives its own row: listing a concatenation concatenates
      the rows, under the same headers. */
  lemma ListerAppend(a: seq<Obj>, b: seq<Obj>, cols: seq<ColumnArg>)
    ensures FormatForLister(a + b, cols).rows == FormatForLister(a, cols).rows + FormatForLister(b, cols).rows
    ensures FormatForLister(a + b, cols).headers == FormatForLister(a, cols).headers
  {
    RowsAppend(a, b, FormatColumns(cols));
  }

  lemma {:induction false} RowsAppend(a: seq<Obj>, b: seq<Obj>, keys: seq<TableKey>)
    ensures Rows(a + b, keys) == Rows(a, keys) + Rows(b, keys)
  {
    if a == [] {
      assert a + b == b;
    } else {
      var ab := a + b;
      assert ab[0] == a[0];
      assert ab[1..] == a[1..] + b;
      RowsAppend(a[1..], b, keys);
      assert Rows(ab, keys) == [Row(a[0], keys)] + Rows(ab[1..], keys);
    }
  }

  /** `to_show_one` on a document is `format_for_lister` on that document alone. */
  lemma ShowOneIsSingleRow(doc: Obj, cols: seq<ColumnArg>)
    ensures ToShowOne(doc, cols).0 == FormatForLister([doc], cols).headers
    ensures [ToShowOne(doc, cols).1] == FormatForLister([doc], cols).rows
  {
  }

  /** A missing key gives `None` in the row. */
  lemma MissingKeyIsNone(docs: seq<Obj>, cols: seq<ColumnArg>, i: nat, j: nat)
    requires i < |docs| && j < |cols|
    requires !HasKey(docs[i], cols[j].id)
    ensures FormatForLister(docs, cols).rows[i][j] == JNull
  {
  }

  // The naming rules on the cases the repository's tests list, evaluated
  // stage by stage.

  lemma TitleFoo()
    ensures Text.TitleFrom("foo", false) == "Foo"
    ensures Text.TitleFrom("bar", false) == "Bar"
  {
    assert Text.TitleFrom("o", true) == "o";
    assert Text.TitleFrom("oo", true) == "oo";
    assert Text.TitleFrom("r", true) == "r";
    assert Text.TitleFrom("ar", true) == "ar";
  }

  /** Title-casing "foo", a non-letter separator, "bar". */
  lemma TitleFooSepBar(sep: char, id: string, title: string)
    requires !Text.IsLetter(sep)
    requires id == "foo" + [sep] + "bar" && title == "Foo" + [sep] + "Bar"
    ensures Text.Title(id) == title
  {
    TitleFoo();
    Text.TitleFromAppend("foo" + [sep], "bar", false);
    Text.TitleFromAppend("foo", [sep], false);
    assert Text.TitleFrom([sep], true) == [sep];
  }

  /** The two instances the naming cases need: a space and a hyphen. */
  lemma TitleFooBars()
    ensures Text.Title("foo bar") == "Foo Bar"
    ensures Text.Title("foo-bar") == "Foo-Bar"
  {
    TitleFooSepBar(' ', "foo bar", "Foo Bar");
    TitleFooSepBar('-', "foo-bar", "Foo-Bar");
  }

  lemma SpacedFooBar(sep: char)
    requires sep == '.' || sep == '_'
    ensures Spaced("foo" + [sep] + "bar") == "foo bar"
  {
    var id := "foo" + [sep] + "bar";
    assert '.' !in "foo" && '.' !in "bar" && '_' !in "foo" && '_' !in "bar";
    if sep == '.' {
      Text.ReplaceCharBetween("foo", "bar", '.', ' ');
      Text.ReplaceCharAbsent("foo" + [' '] + "bar", '_', ' ');
    } else {
      Text.ReplaceCharAbsent(id, '.', ' ');
      Text.ReplaceCharBetween("foo", "bar", '_', ' ');
    }
    assert "foo" + [' '] + "bar" == "foo bar";
  }

  lemma NoPercentInFooBar()
    ensures Text.ReplaceAll("foo bar", "percent", "%") == "foo bar"
  {
    var s := "foo bar";
    assert !Text.StartsWith(s, "percent") by { assert s[0] != "percent"[0]; }
    assert s[1..] == "oo bar";
    Text.ReplaceAllShort("oo bar", "percent", "%");
    assert [s[0]] + "oo bar" == s;
  }

  lemma DeriveNameFoobar()
    ensures DeriveName("foobar") == "Foobar"
  {
    Text.ReplaceCharAbsent("foobar", '.', ' ');
    Text.ReplaceCharAbsent("foobar", '_', ' ');
    assert Spaced("foobar") == "foobar";
    Text.ReplaceAllShort("oobar", "percent", "%");
    assert Substituted("foobar") == "foobar";
    TitleFoobar();
  }

  /** Title-casing "foobar". */
  lemma TitleFoobar()
    ensures Text.Title("foobar") == "Foobar"
  {
    Text.TitleFromAppend("foo", "bar", false);
    TitleFoo();
    assert Text.TitleFrom("bar", true) == "bar" by {
      assert Text.TitleFrom("r", true) == "r";
      assert Text.TitleFrom("ar", true) == "ar";
    }
    assert "foo" + "bar" == "foobar";
  }

  lemma DeriveNameUnderscore()
    ensures DeriveName("foo_bar") == "Foo Bar"
  {
    SpacedFooBar('_');
    assert "foo" + ['_'] + "bar" == "foo_bar";
    NoPercentInFooBar();
    assert Substituted("foo_bar") == "foo bar";
    TitleFooBars();
  }

  lemma DeriveNameDot()
    ensures DeriveName("foo.bar") == "Foo Bar"
  {
    SpacedFooBar('.');
    assert "foo" + ['.'] + "bar" == "foo.bar";
    NoPercentInFooBar();
    assert Substituted("foo.bar") == "foo bar";
    TitleFooBars();
  }

  lemma HyphenSubstituted()
    ensures Substituted("foo-bar") == "foo-bar"
  {
    PlainSubstituted("foo-bar");
  }

  /** An id without dots, underscores or a `p` is its own substitution. */
  lemma PlainSubstituted(id: string)
    requires '.' !in id && '_' !in id && 'p' !in id
    ensures Substituted(id) == id
  {
    Text.ReplaceCharAbsent(id, '.', ' ');
    Text.ReplaceCharAbsent(id, '_', ' ');
    assert Spaced(id) == id;
    NotSubstringWithoutHead("percent", id);
    Text.ReplaceAllAbsent(id, "percent", "%");
  }

  /** A hyphen is not a separator, but title-casing capitalises after it. */
  lemma DeriveNameHyphen()
    ensures DeriveName("foo-bar") == "Foo-Bar"
  {
    HyphenSubstituted();
    TitleFooBars();
  }

  lemma PercentAlone()
    ensures Text.ReplaceAll(" percent", "percent", "%") == " %"
  {
    assert Text.ReplaceAll("percent", "percent", "%") == "%";
  }

  lemma PercentSubstituted()
    ensures Text.ReplaceAll("foo percent", "percent", "%") == "foo %"
  {
    PercentAlone();
    assert Text.ReplaceAll("o percent", "percent", "%") == "o %";
    assert Text.ReplaceAll("oo percent", "percent", "%") == "oo %";
  }

  lemma SpacedFooPercent()
    ensures Spaced("foo.percent") == "foo percent"
  {
    assert '.' !in "foo" && '.' !in "percent";
    Text.ReplaceCharBetween("foo", "percent", '.', ' ');
    assert "foo" + ['.'] + "percent" == "foo.percent";
    assert "foo" + [' '] + "percent" == "foo percent";
    Text.ReplaceCharAbsent("foo percent", '_', ' ');
  }

  lemma TitleFooPercent()
    ensures Text.Title("foo %") == "Foo %"
  {
    TitleFoo();
    Text.TitleFromAppend("foo", " %", false);
    assert Text.TitleFrom(" %", true) == " %";
    assert "foo" + " %" == "foo %";
  }

  lemma DeriveNamePercent()
    ensures DeriveName("foo.percent") == "Foo %"
  {
    SpacedFooPercent();
    PercentSubstituted();
    assert Substituted("foo.percent") == "foo %";
    TitleFooPercent();
  }

  // ---------------------------------------------------------------------------
  // Single-word ids
  // ---------------------------------------------------------------------------

  /** A lower-case word is a single-word id. */
  predicate LowerWord(w: string) {
    |w| > 0 && forall i :: 0 <= i < |w| ==> Text.IsLower(w[i])
  }

  /** A string without the first letter of a pattern does not contain it. */
  lemma {:induction false} NotSubstringWithoutHead(pat: string, s: string)
    requires |pat| > 0 && pat[0] !in s
    ensures !Text.IsSubstring(pat, s)
    decreases |s|
  {
    if s != [] {
      assert forall c :: c in s[1..] ==> c in s;
      NotSubstringWithoutHead(pat, s[1..]);
    }
  }

  /** The derived label of a lower-case word without `percent` is the word
      with its first letter upper-cased. */
  lemma DeriveNameWord(w: string)
    requires LowerWord(w) && !Text.IsSubstring("percent", w)
    ensures DeriveName(w) == [Text.ToUpper(w[0])] + w[1..]
  {
    Text.ReplaceCharAbsent(w, '.', ' ');
    Text.ReplaceCharAbsent(w, '_', ' ');
    assert Spaced(w) == w;
    Text.ReplaceAllAbsent(w, "percent", "%");
    assert Substituted(w) == w;
    var t := Text.Title(w);
    forall i | 0 < i < |w|
      ensures t[i] == w[i]
    {
      assert Text.IsLetter(w[i - 1]);
    }
    assert t == [Text.ToUpper(w[0])] + w[1..];
  }

  /** The same, for a word without a `p`; stated about a variable so that a
      caller can name the word through a column without unfolding the
      label of a literal. */
  lemma WordLabel(w: string, heading: string)
    requires LowerWord(w) && 'p' !in w
    requires heading == [Text.ToUpper(w[0])] + w[1..]
    ensures DeriveName(w) == heading
  {
    NotSubstringWithoutHead("percent", w);
    DeriveNameWord(w);
  }

  /** A column without a given label under a single-word id is headed by
      that word, capitalised. */
  lemma DerivedHeader(docs: seq<Obj>, cols: seq<ColumnArg>, j: nat, heading: string)
    requires j < |cols| && !cols[j].Tuple2?
    requires LowerWord(cols[j].id) && 'p' !in cols[j].id
    requires heading == [Text.ToUpper(cols[j].id[0])] + cols[j].id[1..]
    ensures FormatForLister(docs, cols).headers[j] == heading
  {
    WordLabel(cols[j].id, heading);
  }
}

=== FILE: glob.dfy ===
/** Python's `fnmatch.filter(names, pattern)` on a POSIX system (no case
    folding): `*` matches any run of characters, `?` any one character,
    `[...]` one character of a set (`[!...]` one character outside it), and a
    `[` without a closing `]` stands for itself. Every other character matches
    itself. The pattern is compiled to tokens first, as `fnmatch.translate`
    compiles it to a regular expression. */
module Glob {
  import opened Results
  import Text

  datatype ClassItem = Single(c: char) | Range(lo: char, hi: char)

  datatype Token =
    | Any                                          // `*`
    | One                                          // `?`
    | Class(negated: bool, items: seq<ClassItem>)  // `[...]` and `[!...]`
    | Lit(c: char)

  /** Characters with a meaning in a pattern. */
  predicate IsSpecial(c: char) { c == '*' || c == '?' || c == '[' }

  /** The first index at or after `j` holding `c`. */
  function FindFrom(s: string, c: char, j: nat): (r: Option<nat>)
    requires j <= |s|
    ensures r.Some? ==> j <= r.value < |s| && s[r.value] == c
    ensures r.Some? ==> forall m :: j <= m < r.value ==> s[m] != c
    ensures r.None? ==> forall m :: j <= m < |s| ==> s[m] != c
    decreases |s| - j
  {
    if j == |s| then None else if s[j] == c then Some(j) else FindFrom(s, c, j + 1)
  }

  /** The body of a bracket expression: `x-y` is a range when something
      follows the `-`; any other character, `-` included, stands for itself. */
  function ParseClassItems(content: string): seq<ClassItem> {
    if content == [] then []
    else if |content| >= 3 && content[1] == '-' then
      [Range(content[0], content[2])] + ParseClassItems(content[3..])
    else [Single(content[0])] + ParseClassItems(content[1..])
  }

  /** Whether `c` belongs to the set; a reversed range (`z-a`) is empty. */
  predicate InClass(items: seq<ClassItem>, c: char) {
    exists i :: 0 <= i < |items| && InItem(items[i], c)
  }

  predicate InItem(item: ClassItem, c: char) {
    match item
    case Single(x) => c == x
    case Range(lo, hi) => lo <= c <= hi
  }

  /** Compile `pat[i..]`. After `[`, an optional `!` and then a `]` belong to
      the set; the set ends at the next `]`. */
  function CompileFrom(pat: string, i: nat): (r: seq<Token>)
    requires i <= |pat|
    ensures |r| <= |pat| - i
    ensures '*' !in pat[i..] ==> Any !in r
    decreases |pat| - i
  {
    if i == |pat| then []
    else if pat[i] == '*' then [Any] + CompileFrom(pat, i + 1)
    else if pat[i] == '?' then [One] + CompileFrom(pat, i + 1)
    else if pat[i] == '[' then
      var start := i + 1;
      var negated := start < |pat| && pat[start] == '!';
      var body := if negated then start + 1 else start;
      var scan := if body < |pat| && pat[body] == ']' then body + 1 else body;
      match FindFrom(pat, ']', scan)
      case None => [Lit('[')] + CompileFrom(pat, i + 1)
      case Some(close) =>
        [Class(negated, ParseClassItems(pat[body..close]))] + CompileFrom(pat, close + 1)
    else [Lit(pat[i])] + CompileFrom(pat, i + 1)
  }

  /** Every token takes at least one pattern character, and only a `*` gives
      `Any`. */
  function Compile(pat: string): (r: seq<Token>)
    ensures |r| <= |pat|
    ensures '*' !in pat ==> Any !in r
  {
    assert pat[0..] == pat;
    CompileFrom(pat, 0)
  }

  /** Whether the whole of `s` matches the tokens. */
  predicate MatchTokens(ts: seq<Token>, s: string)
    decreases |s|, |ts|
  {
    if ts == [] then s == []
    else match ts[0]
      case Any => MatchTokens(ts[1..], s) || (s != [] && MatchTokens(ts, s[1..]))
      case One => s != [] && MatchTokens(ts[1..], s[1..])
      case Lit(c) => s != [] && s[0] == c && MatchTokens(ts[1..], s[1..])
      case Class(negated, items) =>
        s != [] && InClass(items, s[0]) != negated && MatchTokens(ts[1..], s[1..])
  }

  /** Without `Any`, each token matches exactly one character. */
  lemma {:induction false} MatchTokensLength(ts: seq<Token>, s: string)
    requires Any !in ts && MatchTokens(ts, s)
    ensures |s| == |ts|
    decreases |s|
  {
    if ts != [] {
      assert ts[0] != Any && Any !in ts[1..];
      MatchTokensLength(ts[1..], s[1..]);
    }
  }

  /** Python `fnmatch.fnmatch(s, pat)` (POSIX). A pattern without `*` matches
      only names as long as its compiled tokens, so never one longer than the
      pattern. */
  predicate Match(pat: string, s: string): (b: bool)
    ensures b && '*' !in pat ==> |s| == |Compile(pat)| <= |pat|
  {
    var ts := Compile(pat);
    if '*' !in pat && MatchTokens(ts, s) then MatchTokensLength(ts, s); true
    else MatchTokens(ts, s)
  }

  /** Python `fnmatch.filter(names, pat)`: the matching names, in order. */
  function Filter(names: seq<string>, pat: string): (r: seq<string>)
    ensures |r| <= |names|
    ensures forall i :: 0 <= i < |r| ==> r[i] in names && Match(pat, r[i])
  {
    if names == [] then []
    else (if Match(pat, names[0]) then [names[0]] else []) + Filter(names[1..], pat)
  }

  // ---------------------------------------------------------------------------
  // Properties
  // ---------------------------------------------------------------------------

  /** A name is kept exactly when it is one of the names and it matches. */
  lemma {:induction false} FilterMembership(names: seq<string>, pat: string, x: string)
    ensures x in Filter(names, pat) <==> x in names && Match(pat, x)
  {
    if names != [] {
      FilterMembership(names[1..], pat, x);
      assert names == [names[0]] + names[1..];
    }
  }

  /** Filtering keeps order: it distributes over concatenation. */
  lemma {:induction false} FilterAppend(a: seq<string>, b: seq<string>, pat: string)
    ensures Filter(a + b, pat) == Filter(a, pat) + Filter(b, pat)
  {
    if a != [] {
      assert (a + b)[1..] == a[1..] + b;
      FilterAppend(a[1..], b, pat);
    } else {
      assert a + b == b;
    }
  }

  function Lits(s: string): (r: seq<Token>)
    ensures |r| == |s|
    ensures forall i :: 0 <= i < |s| ==> r[i] == Lit(s[i])
  {
    if s == [] then [] else [Lit(s[0])] + Lits(s[1..])
  }

  /** A pattern without special characters compiles to its literal characters. */
  lemma {:induction false} CompilePlain(pat: string, i: nat)
    requires i <= |pat|
    requires forall m :: 0 <= m < |pat| ==> !IsSpecial(pat[m])
    ensures CompileFrom(pat, i) == Lits(pat[i..])
    decreases |pat| - i
  {
    if i < |pat| {
      CompilePlain(pat, i + 1);
      assert pat[i..][1..] == pat[i + 1..];
    }
  }

  /** An ordinary character compiles to itself. */
  lemma CompileLitStep(p: string, i: nat)
    requires i < |p| && !IsSpecial(p[i])
    ensures CompileFrom(p, i) == [Lit(p[i])] + CompileFrom(p, i + 1)
  {
  }

  /** A trailing `*` compiles to `Any` after the literal prefix. */
  lemma {:induction false} CompilePlainStar(pat: string, i: nat)
    requires i <= |pat|
    requires forall m :: 0 <= m < |pat| ==> !IsSpecial(pat[m])
    ensures CompileFrom(pat + "*", i) == Lits(pat[i..]) + [Any]
    decreases |pat| - i
  {
    var p := pat + "*";
    if i < |pat| {
      CompilePlainStar(pat, i + 1);
      assert p[i] == pat[i];
      CompileLitStep(p, i);
      assert CompileFrom(p, i) == [Lit(pat[i])] + Lits(pat[i + 1..]) + [Any];
      assert pat[i..][1..] == pat[i + 1..];
      assert Lits(pat[i..]) == [Lit(pat[i])] + Lits(pat[i + 1..]);
    } else {
      assert p[i] == '*';
      assert CompileFrom(p, i + 1) == [];
      assert CompileFrom(p, i) == [Any];
      assert pat[i..] == [];
    }
  }

  /** A literal prefix consumes exactly itself. */
  lemma {:induction false} MatchLits(x: string, rest: seq<Token>, s: string)
    ensures MatchTokens(Lits(x) + rest, s) <==> Text.StartsWith(s, x) && MatchTokens(rest, s[|x|..])
  {
    if x != [] {
      var ts := Lits(x) + rest;
      assert ts[0] == Lit(x[0]);
      assert ts[1..] == Lits(x[1..]) + rest;
      if s != [] {
        MatchLits(x[1..], rest, s[1..]);
        if |x| <= |s| {
          assert s[1..][|x| - 1..] == s[|x|..];
        }
        if s[0] == x[0] && |x| <= |s| {
          assert Text.StartsWith(s, x) <==> Text.StartsWith(s[1..], x[1..]) by {
            assert s[..|x|] == [s[0]] + s[1..][..|x| - 1];
            assert x == [x[0]] + x[1..];
          }
        }
      }
    } else {
      assert Lits(x) + rest == rest;
    }
  }

  /** `*` matches every string. */
  lemma {:induction false} AnyMatchesAll(s: string)
    ensures MatchTokens([Any], s)
    decreases |s|
  {
    if s != [] {
      AnyMatchesAll(s[1..]);
    }
  }

  lemma StarMatchesAll(s: string)
    ensures Match("*", s)
  {
    assert Compile("*") == [Any];
    AnyMatchesAll(s);
  }

  /** A pattern without special characters matches only itself. */
  lemma LiteralMatchesItself(pat: string, s: string)
    requires forall m :: 0 <= m < |pat| ==> !IsSpecial(pat[m])
    ensures Match(pat, s) <==> s == pat
  {
    CompilePlain(pat, 0);
    assert pat[0..] == pat;
    assert Lits(pat) + [] == Lits(pat);
    MatchLits(pat, [], s);
  }

  /** `prefix*` matches exactly the strings starting with `prefix`. */
  lemma PrefixStarMatches(prefix: string, s: string)
    requires forall m :: 0 <= m < |prefix| ==> !IsSpecial(prefix[m])
    ensures Match(prefix + "*", s) <==> Text.StartsWith(s, prefix)
  {
    CompilePlainStar(prefix, 0);
    assert prefix[0..] == prefix;
    MatchLits(prefix, [Any], s);
    if |prefix| <= |s| {
      AnyMatchesAll(s[|prefix|..]);
    }
  }

  /** A set body without `-` is the set of its characters. */
  lemma {:induction false} ClassWithoutRanges(content: string, c: char)
    requires '-' !in content
    ensures InClass(ParseClassItems(content), c) <==> c in content
  {
    if content != [] {
      ClassWithoutRanges(content[1..], c);
      var items := ParseClassItems(content);
      var rest := ParseClassItems(content[1..]);
      assert items == [Single(content[0])] + rest;
      if InClass(items, c) {
        var i :| 0 <= i < |items| && InItem(items[i], c);
        if i > 0 {
          assert InItem(rest[i - 1], c);
        }
      }
      if c == content[0] {
        assert InItem(items[0], c);
      } else if c in content[1..] {
        var i :| 0 <= i < |rest| && InItem(rest[i], c);
        assert InItem(items[i + 1], c);
      }
      assert content == [content[0]] + content[1..];
    }
  }

  /** `x-y` in a set stands for every character from `x` to `y`. */
  lemma RangeClass(lo: char, hi: char, c: char)
    ensures InClass(ParseClassItems([lo, '-', hi]), c) <==> lo <= c <= hi
  {
    var items := ParseClassItems([lo, '-', hi]);
    assert items == [Range(lo, hi)];
    if lo <= c <= hi {
      assert InItem(items[0], c);
    }
  }
}

=== FILE: index.dfy ===
/** The `index list` command (esctl/cmd/index.py): the `_cat/indices`
    documents, with health and closed status coloured under the table
    formatter. */
module IndexCommands {
  import opened Results
  import opened Json
  import opened Assoc
  import opened Formatter
  import Utils

  const HEALTH: string := "health"
  const STATUS: string := "status"

  /** The columns of `index list`. */
  const IndexColumns: seq<ColumnArg> := [
    Bare("index"),
    Tuple1(HEALTH),
    Bare(STATUS),
    Tuple2("uuid", "UUID"),
    Tuple2("pri", "Primary"),
    Tuple2("rep", "Replica"),
    Bare("docs.count"),
    Bare("docs.deleted"),
    Bare("store.size"),
    Tuple2("pri.store.size", "Primary Store Size")
  ]

  /** One index of `IndexList.transform` under the table formatter: the
      health takes the colour it names, and a `close` status is
      italicised. */
  function IndexEntry(index: Obj): (r: Result<Obj>)
    ensures r.Ok? <==> Utils.NamedColor(Get(index, HEALTH)).Ok?
    ensures r.Ok? ==> Keys(r.value) == Keys(index)
    ensures r.Ok? ==> forall k :: k != HEALTH && k != STATUS ==> Lookup(r.value, k) == Lookup(index, k)
  {
    var color :- Utils.NamedColor(Get(index, HEALTH));
    var colored := Utils.ColorKey(index, HEALTH, color);
    if Get(index, STATUS) == JStr("close") then Ok(Utils.ColorKey(colored, STATUS, Utils.ITALIC))
    else Ok(colored)
  }

  /** The health is shown in the colour it names, and the status is
      italicised exactly when it is `close`. */
  lemma IndexEntryColors(index: Obj)
    requires IndexEntry(index).Ok?
    ensures var r := IndexEntry(index).value;
            var health := Get(index, HEALTH);
            Lookup(r, HEALTH) == Some(JStr(Utils.Colorize(health, Utils.NamedColor(health).value))) &&
            (Get(index, STATUS) == JStr("close") ==>
               Lookup(r, STATUS) == Some(JStr(Utils.Colorize(JStr("close"), Utils.ITALIC)))) &&
            (Get(index, STATUS) != JStr("close") ==> Lookup(r, STATUS) == Lookup(index, STATUS))
  {
  }

  /** The three health values of Elasticsearch colour as they read. */
  lemma IndexHealthGreen(index: Obj)
    requires Get(index, HEALTH) == JStr("green")
    ensures IndexEntry(index).Ok?
    ensures Lookup(IndexEntry(index).value, HEALTH) == Some(JStr(Utils.Colorize(JStr("green"), Utils.GREEN)))
  {
    Utils.GreenColor();
    IndexEntryColors(index);
  }

  lemma IndexHealthYellow(index: Obj)
    requires Get(index, HEALTH) == JStr("yellow")
    ensures IndexEntry(index).Ok?
    ensures Lookup(IndexEntry(index).value, HEALTH) == Some(JStr(Utils.Colorize(JStr("yellow"), Utils.YELLOW)))
  {
    Utils.YellowColor();
    IndexEntryColors(index);
  }

  lemma IndexHealthRed(index: Obj)
    requires Get(index, HEALTH) == JStr("red")
    ensures IndexEntry(index).Ok?
    ensures Lookup(IndexEntry(index).value, HEALTH) == Some(JStr(Utils.Colorize(JStr("red"), Utils.RED)))
  {
    Utils.RedColor();
    IndexEntryColors(index);
  }

  /** A missing health is `None`, which has no `upper`. */
  lemma IndexWithoutHealth(index: Obj)
    requires !HasKey(index, HEALTH)
    ensures IndexEntry(index) == Err(AttributeError)
  {
  }

  /** `IndexList.transform`: under the table formatter every index in
      order, otherwise the documents as they came. */
  function IndexList(indices: seq<Obj>, table: bool): (r: Result<seq<Obj>>)
    ensures !table ==> r == Ok(indices)
    ensures r.Ok? ==> |r.value| == |indices|
  {
    if table then MapResult(indices, IndexEntry) else Ok(indices)
  }

  /** Under the table formatter the listing fails exactly when some index
      has a health that names no colour, and otherwise each index is
      transformed in its place. */
  lemma IndexListIndices(indices: seq<Obj>)
    ensures IndexList(indices, true).Ok? <==> forall i :: 0 <= i < |indices| ==> IndexEntry(indices[i]).Ok?
    ensures IndexList(indices, true).Ok? ==>
              forall i :: 0 <= i < |indices| ==> IndexEntry(indices[i]) == Ok(IndexList(indices, true).value[i])
  {
    MapResultAt(indices, IndexEntry);
  }

  /** Four columns carry a label; the other six derive theirs. */
  lemma IndexGivenLabels(indices: seq<Obj>)
    ensures |FormatForLister(indices, IndexColumns).headers| == 10
    ensures FormatForLister(indices, IndexColumns).headers[3] == "UUID"
    ensures FormatForLister(indices, IndexColumns).headers[4] == "Primary"
    ensures FormatForLister(indices, IndexColumns).headers[5] == "Replica"
    ensures FormatForLister(indices, IndexColumns).headers[9] == "Primary Store Size"
  {
    var cols := IndexColumns;
    assert cols[3] == Tuple2("uuid", "UUID");
    assert cols[4] == Tuple2("pri", "Primary");
    assert cols[5] == Tuple2("rep", "Replica");
    assert cols[9] == Tuple2("pri.store.size", "Primary Store Size");
    assert FormatForLister(indices, cols).headers[3] == FormatColumns(cols)[3].name;
    assert FormatForLister(indices, cols).headers[4] == FormatColumns(cols)[4].name;
    assert FormatForLister(indices, cols).headers[5] == FormatColumns(cols)[5].name;
    assert FormatForLister(indices, cols).headers[9] == FormatColumns(cols)[9].name;
  }

  /** Exactly the four columns above are given their label. */
  lemma IndexDerivedLabels(j: nat)
    requires j < |IndexColumns|
    ensures IndexColumns[j].Tuple2? <==> j == 3 || j == 4 || j == 5 || j == 9
  {
  }
}

=== FILE: json.dfy ===
/** Parsed JSON (and YAML) values as the client sees them, and the handful of
    Python built-ins the client applies to them: `str()`, `int()`, truthiness,
    `.get`, subscripting, iteration, `len`, `in` and `str.join`.

    Objects are ordered association lists (see `Assoc`); JSON `null` and
    Python `None` are the same value, `JNull`. Floating-point numbers are not
    modelled. */
module Json {
  import opened Results
  import opened Assoc
  import Text

  datatype Json =
    | JNull
    | JBool(b: bool)
    | JInt(i: int)
    | JStr(s: string)
    | JArr(items: seq<Json>)
    | JObj(fields: seq<(string, Json)>)

  /** A JSON object (a Python `dict` with string keys). */
  type Obj = seq<(string, Json)>

  // ---------------------------------------------------------------------------
  // Integers as text
  // ---------------------------------------------------------------------------

  predicate IsDigit(c: char) { '0' <= c <= '9' }

  function DigitChar(d: nat): (c: char)
    requires d < 10
    ensures IsDigit(c)
  {
    ('0' as int + d) as char
  }

  function DigitValue(c: char): (d: nat)
    requires IsDigit(c)
    ensures d < 10 && DigitChar(d) == c
  {
    c as int - '0' as int
  }

  predicate AllDigits(s: string) {
    forall i :: 0 <= i < |s| ==> IsDigit(s[i])
  }

  /** Decimal digits of `n`, most significant first, no leading zeros. */
  function NatToText(n: nat): (r: string)
    ensures |r| >= 1
    ensures AllDigits(r)
    decreases n
  {
    if n < 10 then [DigitChar(n)] else NatToText(n / 10) + [DigitChar(n % 10)]
  }

  /** Python `str(i)` for an integer. */
  function IntToText(i: int): string {
    if i < 0 then "-" + NatToText(-i) else NatToText(i)
  }

  function DigitsValue(s: string): nat
    requires AllDigits(s)
  {
    if s == [] then 0 else DigitsValue(s[..|s| - 1]) * 10 + DigitValue(s[|s| - 1])
  }

  lemma {:induction false} DigitsOfNat(n: nat)
    ensures DigitsValue(NatToText(n)) == n
    decreases n
  {
    var t := NatToText(n);
    if n >= 10 {
      DigitsOfNat(n / 10);
      assert t[..|t| - 1] == NatToText(n / 10);
    }
  }

  /** Python's `str.isspace()`: the whitespace that `str.strip()` and `int()`
      remove. The ASCII controls `\t` to `\r` and `\x1c` to `\x1f`, the space,
      NEL, no-break space, and the Unicode space and line/paragraph separators. */
  predicate IsSpace(c: char) {
    var n := c as int;
    (9 <= n <= 13) || (28 <= n <= 32) || n == 0x85 || n == 0xA0 || n == 0x1680
    || (0x2000 <= n <= 0x200A) || n == 0x2028 || n == 0x2029 || n == 0x202F
    || n == 0x205F || n == 0x3000
  }

  function StripLeft(s: string): (r: string)
    ensures r == [] || !IsSpace(r[0])
    ensures |r| <= |s|
  {
    if s != [] && IsSpace(s[0]) then StripLeft(s[1..]) else s
  }

  function StripRight(s: string): (r: string)
    ensures r == [] || !IsSpace(r[|r| - 1])
    ensures |r| <= |s|
  {
    if s != [] && IsSpace(s[|s| - 1]) then StripRight(s[..|s| - 1]) else s
  }

  /** Stripping on the left removes whitespace only: the rest is a suffix
      and everything in front of it is whitespace. */
  lemma {:induction false} StripLeftSuffix(s: string)
    ensures StripLeft(s) == s[|s| - |StripLeft(s)|..]
    ensures forall i :: 0 <= i < |s| - |StripLeft(s)| ==> IsSpace(s[i])
  {
    if s != [] && IsSpace(s[0]) {
      StripLeftSuffix(s[1..]);
    }
  }

  /** Stripping on the right removes whitespace only: the rest is a prefix
      and everything after it is whitespace. */
  lemma {:induction false} StripRightPrefix(s: string)
    ensures StripRight(s) == s[..|StripRight(s)|]
    ensures forall i :: |StripRight(s)| <= i < |s| ==> IsSpace(s[i])
  {
    if s != [] && IsSpace(s[|s| - 1]) {
      StripRightPrefix(s[..|s| - 1]);
    }
  }

  /** `"s3cret\x1f".strip()` is `"s3cret"`: the unit separator is whitespace
      to Python, and so is a trailing no-break space. */
  lemma StripUnitSeparator()
    ensures StripRight(StripLeft("s3cret" + [31 as char])) == "s3cret"
    ensures StripRight(StripLeft([0xA0 as char] + "s3cret")) == "s3cret"
  {
    var t := "s3cret";
    assert !IsSpace(t[0]) && !IsSpace(t[|t| - 1]);
    assert StripLeft(t + [31 as char]) == t + [31 as char];
    assert (t + [31 as char])[..|t|] == t;
    assert ([0xA0 as char] + t)[1..] == t;
    NotStripped(t);
  }

  /** Digits as Python's `int()` accepts them: at least one, with single
      underscores allowed between two digits. */
  predicate Grouped(s: string) {
    |s| > 0 && forall i :: 0 <= i < |s| ==> GroupChar(s, i)
  }

  /** Position `i` holds a digit, or an underscore between two digits. */
  predicate GroupChar(s: string, i: nat)
    requires i < |s|
  {
    IsDigit(s[i]) || (s[i] == '_' && 0 < i && i + 1 < |s| && IsDigit(s[i + 1]))
  }

  /** The text without its underscores. */
  function Ungrouped(s: string): (r: string)
    ensures |r| <= |s|
  {
    if s == [] then [] else (if s[0] == '_' then [] else [s[0]]) + Ungrouped(s[1..])
  }

  /** Grouped text holds digits and underscores only, and starts and ends
      with a digit. */
  lemma GroupedChars(s: string)
    requires Grouped(s)
    ensures forall i :: 0 <= i < |s| ==> IsDigit(s[i]) || s[i] == '_'
    ensures IsDigit(s[0]) && IsDigit(s[|s| - 1])
  {
    assert GroupChar(s, 0) && GroupChar(s, |s| - 1);
    forall i | 0 <= i < |s|
      ensures IsDigit(s[i]) || s[i] == '_'
    {
      assert GroupChar(s, i);
    }
  }

  /** Dropping the underscores of digits and underscores leaves digits only. */
  lemma {:induction false} UngroupedDigits(s: string)
    requires forall i :: 0 <= i < |s| ==> IsDigit(s[i]) || s[i] == '_'
    ensures AllDigits(Ungrouped(s))
  {
    if s != [] {
      UngroupedDigits(s[1..]);
    }
  }

  /** Plain digits are their own ungrouped form. */
  lemma {:induction false} UngroupedPlain(s: string)
    requires AllDigits(s)
    ensures Ungrouped(s) == s
  {
    if s != [] {
      UngroupedPlain(s[1..]);
    }
  }

  /** Python `int(s)` for a string: surrounding whitespace, an optional sign
      and grouped decimal digits; anything else is a `ValueError`. */
  function ParseInt(s: string): (r: Result<int>)
    ensures r.Err? ==> r.error == ValueError
  {
    var t := StripRight(StripLeft(s));
    var body := Unsigned(t);
    if !Grouped(body) then Err(ValueError)
    else
      GroupedChars(body);
      UngroupedDigits(body);
      var n: int := DigitsValue(Ungrouped(body));
      Ok(if |t| > 0 && t[0] == '-' then -n else n)
  }

  /** Grouped digits parse to the value of their digits without the
      underscores. */
  lemma ParseGrouped(digits: string)
    requires Grouped(digits)
    ensures AllDigits(Ungrouped(digits))
    ensures ParseInt(digits) == Ok(DigitsValue(Ungrouped(digits)))
  {
    GroupedChars(digits);
    UngroupedDigits(digits);
    NotStripped(digits);
  }

  /** `int("1_0") == 10`. */
  lemma ParseGroupedTen()
    ensures ParseInt("1_0") == Ok(10)
  {
    assert Grouped("1_0") by {
      forall i | 0 <= i < 3
        ensures GroupChar("1_0", i)
      {
      }
    }
    ParseGrouped("1_0");
    assert Ungrouped("1_0") == "10";
    assert DigitsValue("10") == 10 by {
      assert "10"[..1] == "1";
    }
  }

  /** Plain digits are grouped digits. */
  lemma PlainGrouped(s: string)
    requires |s| > 0 && AllDigits(s)
    ensures Grouped(s)
  {
    forall i | 0 <= i < |s|
      ensures GroupChar(s, i)
    {
      assert IsDigit(s[i]);
    }
  }

  /** A leading, trailing or doubled underscore is refused. */
  lemma ParseMisplacedUnderscore(s: string)
    requires s == "_1" || s == "1_" || s == "1__0"
    ensures ParseInt(s) == Err(ValueError)
  {
    NotStripped(s);
    assert Unsigned(s) == s;
    if s == "_1" {
      assert !GroupChar(s, 0);
    } else if s == "1_" {
      assert !GroupChar(s, 1);
    } else {
      assert !GroupChar(s, 1);
    }
  }

  /** The text after an optional leading sign. */
  function Unsigned(t: string): (r: string)
    ensures |r| <= |t|
  {
    if |t| > 0 && (t[0] == '-' || t[0] == '+') then t[1..] else t
  }

  /** `int(str(i)) == i`. */
  lemma IntTextRoundTrip(i: int)
    ensures ParseInt(IntToText(i)) == Ok(i)
  {
    if i < 0 {
      NegativeTextRoundTrip(-i);
    } else {
      NatTextRoundTrip(i);
    }
  }

  lemma NatTextRoundTrip(n: nat)
    ensures ParseInt(NatToText(n)) == Ok(n)
  {
    DigitsOfNat(n);
    ParseDigits(NatToText(n));
  }

  lemma NegativeTextRoundTrip(n: nat)
    ensures ParseInt("-" + NatToText(n)) == Ok(-(n as int))
  {
    DigitsOfNat(n);
    ParseNegative(NatToText(n));
  }

  /** A run of digits parses to its value... */
  lemma ParseDigits(digits: string)
    requires |digits| > 0 && AllDigits(digits)
    ensures ParseInt(digits) == Ok(DigitsValue(digits))
  {
    PlainGrouped(digits);
    UngroupedPlain(digits);
    ParseGrouped(digits);
  }

  /** ... and after a minus sign to its negation. */
  lemma ParseNegative(digits: string)
    requires |digits| > 0 && AllDigits(digits)
    ensures ParseInt("-" + digits) == Ok(-(DigitsValue(digits) as int))
  {
    var t := "-" + digits;
    assert t[0] == '-' && t[1..] == digits && t[|t| - 1] == digits[|digits| - 1];
    NotStripped(t);
    assert Unsigned(t) == digits;
    PlainGrouped(digits);
    UngroupedPlain(digits);
  }

  /** Text that starts and ends with something other than whitespace is
      left as it is by stripping. */
  lemma NotStripped(t: string)
    requires |t| > 0 && !IsSpace(t[0]) && !IsSpace(t[|t| - 1])
    ensures StripRight(StripLeft(t)) == t
  {
  }

  // ---------------------------------------------------------------------------
  // Python str()
  // ---------------------------------------------------------------------------

  /** Python `str(v)`: a string is itself, an int reads back as itself, a
      list and a dict show their elements' `repr` inside brackets and braces.
      Inside lists and dicts strings are shown in single quotes, without the
      escaping Python's `repr` would add. */
  function ToText(v: Json): (r: string)
    ensures v.JStr? ==> r == v.s
    ensures v.JInt? ==> ParseInt(r) == Ok(v.i)
    ensures v.JArr? ==> |r| >= 2 && r[0] == '[' && r[|r| - 1] == ']'
    ensures v.JObj? ==> |r| >= 2 && r[0] == '{' && r[|r| - 1] == '}'
    decreases v, 1, 0
  {
    match v
    case JNull => "None"
    case JBool(b) => if b then "True" else "False"
    case JInt(i) => IntTextRoundTrip(i); IntToText(i)
    case JStr(s) => s
    case JArr(xs) => "[" + ReprItems(xs, 0) + "]"
    case JObj(f) => "{" + ReprFields(f, 0) + "}"
  }

  function Repr(v: Json): string
    decreases v, 2, 0
  {
    if v.JStr? then "'" + v.s + "'" else ToText(v)
  }

  function ReprItems(xs: seq<Json>, i: nat): string
    requires i <= |xs|
    decreases JArr(xs), 0, |xs| - i
  {
    if i == |xs| then ""
    else (if i > 0 then ", " else "") + Repr(xs[i]) + ReprItems(xs, i + 1)
  }

  function ReprFields(f: seq<(string, Json)>, i: nat): string
    requires i <= |f|
    decreases JObj(f), 0, |f| - i
  {
    if i == |f| then ""
    else (if i > 0 then ", " else "") + "'" + f[i].0 + "': " + Repr(f[i].1) + ReprFields(f, i + 1)
  }

  // ---------------------------------------------------------------------------
  // Python built-ins on JSON values
  // ---------------------------------------------------------------------------

  /** Python truthiness: every value is true except `None`, `False`, `0`,
      the empty string, the empty list and the empty dict. */
  predicate Truthy(v: Json): (b: bool)
    ensures b <==> v != JNull && v != JBool(false) && v != JInt(0)
                   && v != JStr("") && v != JArr([]) && v != JObj([])
  {
    match v
    case JNull => false
    case JBool(b) => b
    case JInt(i) => i != 0
    case JStr(s) => s != ""
    case JArr(xs) => xs != []
    case JObj(f) => f != []
  }

  /** Python `int(v)`. */
  function PyInt(v: Json): (r: Result<int>)
    ensures v.JInt? ==> r == Ok(v.i)
    ensures v.JNull? || v.JArr? || v.JObj? ==> r == Err(TypeError)
  {
    match v
    case JInt(i) => Ok(i)
    case JBool(b) => Ok(if b then 1 else 0)
    case JStr(s) => ParseInt(s)
    case _ => Err(TypeError)
  }

  /** Python `v.get(key)` with any key: only a dict has `.get`; a list or
      a dict is unhashable and cannot be a key (`TypeError`); the model's
      dict keys are strings, so any other key is missing. */
  function PyGetAny(v: Json, key: Json): (r: Result<Json>)
    ensures !v.JObj? ==> r == Err(AttributeError)
    ensures v.JObj? && (key.JArr? || key.JObj?) ==> r == Err(TypeError)
    ensures v.JObj? && key.JStr? && HasKey(v.fields, key.s) ==> r == Ok(Lookup(v.fields, key.s).value)
    ensures v.JObj? && !key.JArr? && !key.JObj? && !(key.JStr? && HasKey(v.fields, key.s)) ==> r == Ok(JNull)
  {
    match v
    case JObj(f) =>
      if key.JArr? || key.JObj? then Err(TypeError)
      else if key.JStr? then Ok(Lookup(f, key.s).GetOr(JNull))
      else Ok(JNull)
    case _ => Err(AttributeError)
  }

  /** Python `v.get(key)` with a string key. */
  function PyGet(v: Json, key: string): (r: Result<Json>)
    ensures v.JObj? ==> r == Ok(Get(v.fields, key))
    ensures !v.JObj? ==> r == Err(AttributeError)
  {
    PyGetAny(v, JStr(key))
  }

  /** `d.get(key)` on a dict known to be one. */
  function Get(d: Obj, key: string): (r: Json)
    ensures HasKey(d, key) ==> Some(r) == Lookup(d, key)
    ensures !HasKey(d, key) ==> r == JNull
  {
    Lookup(d, key).GetOr(JNull)
  }

  /** Python `v[key]` with a string key. */
  function Subscript(v: Json, key: string): (r: Result<Json>)
    ensures v.JObj? && HasKey(v.fields, key) ==> r == Ok(Lookup(v.fields, key).value)
    ensures v.JObj? && !HasKey(v.fields, key) ==> r == Err(KeyError(key))
    ensures !v.JObj? ==> r == Err(TypeError)
  {
    match v
    case JObj(f) => if HasKey(f, key) then Ok(Lookup(f, key).value) else Err(KeyError(key))
    case _ => Err(TypeError)
  }

  /** Python `v[0]`. */
  function Index0(v: Json): (r: Result<Json>)
    ensures v.JArr? && |v.items| > 0 ==> r == Ok(v.items[0])
    ensures v.JArr? && |v.items| == 0 ==> r == Err(IndexError)
  {
    match v
    case JArr(xs) => if xs == [] then Err(IndexError) else Ok(xs[0])
    case JStr(s) => if s == [] then Err(IndexError) else Ok(JStr([s[0]]))
    case JObj(f) => Err(KeyError("0"))
    case _ => Err(TypeError)
  }

  function KeysAsJson(f: Obj): (r: seq<Json>)
    ensures |r| == |f|
    ensures forall i :: 0 <= i < |f| ==> r[i] == JStr(f[i].0)
  {
    if f == [] then [] else [JStr(f[0].0)] + KeysAsJson(f[1..])
  }

  function CharsAsJson(s: string): (r: seq<Json>)
    ensures |r| == |s|
    ensures forall i :: 0 <= i < |s| ==> r[i] == JStr([s[i]])
  {
    if s == [] then [] else [JStr([s[0]])] + CharsAsJson(s[1..])
  }

  /** Python `for x in v`: a list yields its items, a dict its keys, a string
      its characters; anything else is not iterable. */
  function Iterate(v: Json): (r: Result<seq<Json>>)
    ensures v.JArr? ==> r == Ok(v.items)
    ensures v.JNull? || v.JInt? || v.JBool? ==> r == Err(TypeError)
  {
    match v
    case JArr(xs) => Ok(xs)
    case JObj(f) => Ok(KeysAsJson(f))
    case JStr(s) => Ok(CharsAsJson(s))
    case _ => Err(TypeError)
  }

  /** The strings of `xs`, or `TypeError` at the first non-string. */
  function AllStrings(xs: seq<Json>): (r: Result<seq<string>>)
    ensures r.Ok? <==> forall i :: 0 <= i < |xs| ==> xs[i].JStr?
    ensures r.Ok? ==> |r.value| == |xs| && forall i :: 0 <= i < |xs| ==> xs[i] == JStr(r.value[i])
    ensures r.Err? ==> r.error == TypeError
  {
    if xs == [] then Ok([])
    else if !xs[0].JStr? then Err(TypeError)
    else
      match AllStrings(xs[1..])
      case Ok(rest) => Ok([xs[0].s] + rest)
      case Err(e) => Err(e)
  }

  /** Python `sep.join(v)`. */
  function PyJoin(sep: string, v: Json): (r: Result<string>)
    ensures v.JArr? && AllStrings(v.items).Ok? ==> r == Ok(Text.Join(AllStrings(v.items).value, sep))
    ensures v.JArr? && AllStrings(v.items).Err? ==> r == Err(TypeError)
    ensures v.JNull? ==> r == Err(TypeError)
  {
    var xs :- Iterate(v);
    var parts :- AllStrings(xs);
    Ok(Text.Join(parts, sep))
  }

  /** Python `len(v)`. */
  function PyLen(v: Json): (r: Result<nat>)
    ensures v.JArr? ==> r == Ok(|v.items|)
    ensures v.JObj? ==> r == Ok(|v.fields|)
  {
    match v
    case JArr(xs) => Ok(|xs|)
    case JObj(f) => Ok(|f|)
    case JStr(s) => Ok(|s|)
    case _ => Err(TypeError)
  }

  /** Python `key in v` for a string `key`. */
  function PyContains(v: Json, key: string): (r: Result<bool>)
    ensures v.JObj? ==> r == Ok(HasKey(v.fields, key))
    ensures v.JNull? ==> r == Err(TypeError)
  {
    match v
    case JObj(f) => Ok(HasKey(f, key))
    case JStr(s) => Ok(Text.IsSubstring(key, s))
    case JArr(xs) => Ok(JStr(key) in xs)
    case _ => Err(TypeError)
  }
}

=== FILE: logging.dfy ===
/** The `logging get`, `reset` and `set` commands (esctl/cmd/logging.py).
    A logger level is a cluster setting named `logger.<name>`. */
module LoggingCommands {
  import opened Results
  import opened Json
  import opened Assoc
  import opened Commands
  import opened Settings
  import Text

  /** The levels the `set` command accepts. */
  datatype Level = TRACE | DEBUG | INFO | WARN

  function LevelName(l: Level): string {
    match l
    case TRACE => "TRACE"
    case DEBUG => "DEBUG"
    case INFO => "INFO"
    case WARN => "WARN"
  }

  /** The argument parser's `choices`: a level is one of the four names. */
  function ParseLevel(s: string): (r: Option<Level>)
    ensures r.Some? <==> s in ["TRACE", "DEBUG", "INFO", "WARN"]
  {
    if s == "TRACE" then Some(TRACE)
    else if s == "DEBUG" then Some(DEBUG)
    else if s == "INFO" then Some(INFO)
    else if s == "WARN" then Some(WARN)
    else None
  }

  /** A level's name parses back to the level. */
  lemma LevelRoundTrip(l: Level)
    ensures ParseLevel(LevelName(l)) == Some(l)
  {
  }

  /** A name that does not start with `logger` gets `logger.` in front. */
  function LoggerName(logger: string): (r: string)
    ensures Text.StartsWith(r, "logger")
    ensures r == logger <==> Text.StartsWith(logger, "logger")
  {
    if Text.StartsWith(logger, "logger") then logger
    else
      assert |"logger." + logger| > |logger|;
      "logger." + logger
  }

  /** Normalising a normalised name changes nothing. */
  lemma LoggerNameIdempotent(logger: string)
    ensures LoggerName(LoggerName(logger)) == LoggerName(logger)
  {
  }

  /** A name that is already in the cluster-setting form, and one that is
      not, end up at the same setting. */
  lemma LoggerNamePrefixes(name: string)
    requires !Text.StartsWith(name, "logger")
    ensures LoggerName(name) == LoggerName("logger." + name)
  {
    assert ("logger." + name)[..6] == "logger";
  }

  // ---------------------------------------------------------------------------
  // get
  // ---------------------------------------------------------------------------

  /** `LoggingGet.take_action` as written: `get` returns a `Setting`, which is
      always truthy, so `or ""` never applies and the printed level is
      `str(setting)`, that is `name=value(persistency)`. */
  function LoggingGetAsWritten(response: Obj, logger: string, persistent: bool): (r: Result<Output>)
    ensures WellFormedCluster(response) ==> r.Ok? && r.value.Print?
  {
    var name := LoggerName(logger);
    var level :- ClusterGet(response, name, Persistency(persistent));
    Ok(Print(name + " : " + SettingText(level)))
  }

  /** `LoggingGet.take_action` as intended: the level is the setting's value,
      with a missing (or otherwise falsy) value shown as "". */
  function LoggingGet(response: Obj, logger: string, persistent: bool): (r: Result<Output>)
    ensures WellFormedCluster(response) ==> r.Ok? && r.value.Print?
  {
    var name := LoggerName(logger);
    var level :- ClusterGet(response, name, Persistency(persistent));
    Ok(Print(name + " : " + (if Truthy(level.value) then ToText(level.value) else "")))
  }

  /** As written, the printed line never reads `<logger> : <level>`: the text
      after ` : ` is always longer than the level it should show. */
  lemma LoggingGetAsWrittenShowsSetting(response: Obj, logger: string, persistent: bool)
    requires WellFormedCluster(response)
    ensures LoggingGetAsWritten(response, logger, persistent) != LoggingGet(response, logger, persistent)
  {
    var name := LoggerName(logger);
    var level := ClusterGet(response, name, Persistency(persistent)).value;
    var shown := if Truthy(level.value) then ToText(level.value) else "";
    assert |SettingText(level)| > |shown|;
    assert |LoggingGetAsWritten(response, logger, persistent).value.line| > |LoggingGet(response, logger, persistent).value.line|;
  }

  /** Concretely: with `logger.foo` at `DEBUG` in the transient tier, the
      command prints `logger.foo : logger.foo=DEBUG(transient)`. */
  lemma LoggingGetAsWrittenExample()
    ensures LoggingGetAsWritten(ExampleCluster(), "foo", false)
              == Ok(Print("logger.foo" + " : " + "logger.foo" + "=" + "DEBUG" + "(" + "transient" + ")"))
    ensures LoggingGet(ExampleCluster(), "foo", false) == Ok(Print("logger.foo" + " : " + "DEBUG"))
  {
    assert !Text.StartsWith("foo", "logger");
    assert LoggerName("foo") == "logger.foo";
    var tier := [("logger.foo", JStr("DEBUG"))];
    assert Get(ExampleCluster(), TRANSIENT) == JObj(tier);
    assert HasKey(tier, "logger.foo");
    var level := Setting("logger.foo", JStr("DEBUG"), TRANSIENT);
    assert ClusterGet(ExampleCluster(), "logger.foo", TRANSIENT) == Ok(level);
    assert ToText(JStr("DEBUG")) == "DEBUG";
    assert SettingText(level) == "logger.foo" + "=" + "DEBUG" + "(" + "transient" + ")";
    assert LoggingGetAsWritten(ExampleCluster(), "foo", false) == Ok(Print("logger.foo" + " : " + SettingText(level)));
    assert "logger.foo" + " : " + SettingText(level) == "logger.foo" + " : " + "logger.foo" + "=" + "DEBUG" + "(" + "transient" + ")";
  }

  function ExampleCluster(): Obj {
    [(TRANSIENT, JObj([("logger.foo", JStr("DEBUG"))])), (PERSISTENT, JObj([])), (DEFAULTS, JObj([]))]
  }

  /** The intended command shows the chosen tier's level when it has one. */
  lemma LoggingGetShowsTier(response: Obj, logger: string, persistent: bool)
    requires WellFormedCluster(response)
    requires HasKey(Tier(response, Persistency(persistent)), LoggerName(logger))
    requires Truthy(Lookup(Tier(response, Persistency(persistent)), LoggerName(logger)).value)
    ensures LoggingGet(response, logger, persistent) ==
              Ok(Print(LoggerName(logger) + " : " + ToText(Lookup(Tier(response, Persistency(persistent)), LoggerName(logger)).value)))
  {
    var name := LoggerName(logger);
    var p := Persistency(persistent);
    assert ClusterGet(response, name, p) == Ok(Setting(name, Lookup(Tier(response, p), name).value, p));
  }

  /** Without the logger in the chosen tier, it falls back to `defaults`. */
  lemma LoggingGetShowsDefault(response: Obj, logger: string, persistent: bool)
    requires WellFormedCluster(response)
    requires !HasKey(Tier(response, Persistency(persistent)), LoggerName(logger))
    requires HasKey(Tier(response, DEFAULTS), LoggerName(logger))
    requires Truthy(Lookup(Tier(response, DEFAULTS), LoggerName(logger)).value)
    ensures LoggingGet(response, logger, persistent) ==
              Ok(Print(LoggerName(logger) + " : " + ToText(Lookup(Tier(response, DEFAULTS), LoggerName(logger)).value)))
  {
    var name := LoggerName(logger);
    var p := Persistency(persistent);
    assert ClusterGet(response, name, p) == Ok(Setting(name, Lookup(Tier(response, DEFAULTS), name).value, DEFAULTS));
  }

  /** A logger found nowhere shows an empty level. */
  lemma LoggingGetShowsNothing(response: Obj, logger: string, persistent: bool)
    requires WellFormedCluster(response)
    requires !HasKey(Tier(response, Persistency(persistent)), LoggerName(logger))
    requires !HasKey(Tier(response, DEFAULTS), LoggerName(logger))
    ensures LoggingGet(response, logger, persistent) == Ok(Print(LoggerName(logger) + " : "))
  {
    var name := LoggerName(logger);
    var p := Persistency(persistent);
    assert ClusterGet(response, name, p) == Ok(NewSetting(name, JNull));
    assert name + " : " + "" == name + " : ";
  }

  // ---------------------------------------------------------------------------
  // reset and set
  // ---------------------------------------------------------------------------

  /** What a write command announces, and the request body it sends. */
  datatype Write = Write(announce: string, body: Obj)

  /** `LoggingReset.take_action`: write `None` to the normalised logger. */
  function LoggingReset(logger: string, persistent: bool): (r: Write)
    ensures Keys(r.body) == [Persistency(persistent)]
    ensures Lookup(r.body, Persistency(persistent)) == Some(JObj([(LoggerName(logger), JNull)]))
  {
    Write("Resetting logger " + LoggerName(logger), SetBody(LoggerName(logger), JNull, Persistency(persistent)))
  }

  /** `LoggingSet.take_action`: write the level's name to the normalised logger. */
  function LoggingSet(logger: string, level: Level, persistent: bool): (r: Write)
    ensures Keys(r.body) == [Persistency(persistent)]
    ensures Lookup(r.body, Persistency(persistent)) == Some(JObj([(LoggerName(logger), JStr(LevelName(level)))]))
  {
    var name := LoggerName(logger);
    Write("Changing logger " + name + " to " + LevelName(level),
          SetBody(name, JStr(LevelName(level)), Persistency(persistent)))
  }

  /** The level written by `set` is one `set` accepts, and `get` on a
      cluster holding what was sent shows it. */
  lemma LoggingSetThenGet(logger: string, level: Level, persistent: bool, other: Obj, defaults: Obj)
    ensures var sent := LoggingSet(logger, level, persistent).body;
            var otherTier := if persistent then TRANSIENT else PERSISTENT;
            LoggingGet(sent + [(otherTier, JObj(other)), (DEFAULTS, JObj(defaults))], logger, persistent)
              == Ok(Print(LoggerName(logger) + " : " + LevelName(level)))
  {
    var name := LoggerName(logger);
    var p := Persistency(persistent);
    var sent := LoggingSet(logger, level, persistent).body;
    var otherTier := if persistent then TRANSIENT else PERSISTENT;
    var response := sent + [(otherTier, JObj(other)), (DEFAULTS, JObj(defaults))];
    assert response[0] == (p, JObj([(name, JStr(LevelName(level)))]));
    assert Get(response, p) == JObj([(name, JStr(LevelName(level)))]);
    assert HasKey([(name, JStr(LevelName(level)))], name);
    assert LevelName(level) != "";
  }
}

=== FILE: migration.dfy ===
/** The `migration deprecations` command (esctl/cmd/migration.py): the
    deprecations response, one list of deprecations per kind, becomes one
    row per deprecation. The `index_settings` kind is a dictionary of lists,
    one per index, and is first flattened into a single list whose messages
    name their index. */
module MigrationCommands {
  import opened Results
  import opened Json
  import opened Assoc
  import opened Formatter
  import Text

  const INDEX_SETTINGS: string := "index_settings"

  /** The keys of every row, in order. */
  const ROW_KEYS: seq<string> := ["kind", "level", "message", "url"]

  // ---------------------------------------------------------------------------
  // Flattening index_settings
  // ---------------------------------------------------------------------------

  /** `f"[{index_name}] {message}"`. */
  function IndexMessage(index: string, message: Json): (r: string)
    ensures Text.StartsWith(r, "[" + index + "] ")
    ensures r[|index| + 3..] == ToText(message)
  {
    "[" + index + "] " + ToText(message)
  }

  /** One deprecation of an index, its message rewritten in place. */
  function PrefixOne(index: string, deprecation: Json): (r: Result<Json>)
    ensures r.Ok? <==> deprecation.JObj? && HasKey(deprecation.fields, "message")
    ensures r.Ok? ==> r.value.JObj? && Keys(r.value.fields) == Keys(deprecation.fields)
    ensures r.Ok? ==> Lookup(r.value.fields, "message")
                        == Some(JStr(IndexMessage(index, Lookup(deprecation.fields, "message").value)))
    ensures deprecation.JObj? && !HasKey(deprecation.fields, "message") ==> r == Err(KeyError("message"))
  {
    var message :- Subscript(deprecation, "message");
    PutLookup(deprecation.fields, "message", JStr(IndexMessage(index, message)), "message");
    Ok(JObj(Put(deprecation.fields, "message", JStr(IndexMessage(index, message)))))
  }

  /** Rewriting a message leaves every other key of the deprecation as it was. */
  lemma PrefixOneKeepsOthers(index: string, deprecation: Json, k: string)
    requires PrefixOne(index, deprecation).Ok?
    requires k != "message"
    ensures Lookup(PrefixOne(index, deprecation).value.fields, k) == Lookup(deprecation.fields, k)
  {
    var message := Lookup(deprecation.fields, "message").value;
    PutLookup(deprecation.fields, "message", JStr(IndexMessage(index, message)), k);
  }

  /** The inner loop over one index's deprecations. */
  function PrefixAll(index: string, deprecations: seq<Json>): (r: Result<seq<Json>>)
    ensures r.Ok? ==> |r.value| == |deprecations|
  {
    MapResult(deprecations, d => PrefixOne(index, d))
  }

  /** Each deprecation of an index is rewritten on its own, in order, and the
      loop fails exactly when one of them cannot be. */
  lemma PrefixAllAt(index: string, deprecations: seq<Json>)
    ensures PrefixAll(index, deprecations).Ok? <==>
              forall i :: 0 <= i < |deprecations| ==> PrefixOne(index, deprecations[i]).Ok?
    ensures PrefixAll(index, deprecations).Ok? ==>
              forall i :: 0 <= i < |deprecations| ==>
                PrefixOne(index, deprecations[i]) == Ok(PrefixAll(index, deprecations).value[i])
  {
    MapResultAt(deprecations, d => PrefixOne(index, d));
  }

  /** The outer loop over the indices of `index_settings`, in order. It
      fails exactly when some index's value cannot be iterated or one of its
      deprecations has no message. */
  function FlattenFields(indices: Obj): (r: Result<seq<Json>>)
    ensures r.Ok? <==> forall k :: 0 <= k < |indices| ==> IndexFlattens(indices[k])
  {
    if indices == [] then Ok([])
    else
      var elements :- Iterate(indices[0].1);
      var prefixed :- PrefixAll(indices[0].0, elements);
      var rest :- FlattenFields(indices[1..]);
      Ok(prefixed + rest)
  }

  /** Whether one index's deprecations can be iterated and rewritten. */
  predicate IndexFlattens(entry: (string, Json)) {
    Iterate(entry.1).Ok? && PrefixAll(entry.0, Iterate(entry.1).value).Ok?
  }

  /** The first step of `transform`: a non-empty `index_settings` is replaced,
      at its position, by the flat list of its indices' deprecations. */
  function FlattenIndexSettings(d: Obj): (r: Result<Obj>)
    ensures r.Ok? ==> Keys(r.value) == Keys(d)
    ensures r.Ok? ==> forall k :: k != INDEX_SETTINGS ==> Lookup(r.value, k) == Lookup(d, k)
    ensures !HasKey(d, INDEX_SETTINGS) ==> r == Ok(d)
  {
    if !HasKey(d, INDEX_SETTINGS) then Ok(d)
    else
      var value := Get(d, INDEX_SETTINGS);
      var n :- PyLen(value);
      if n == 0 then Ok(d)
      else
        match value
        case JObj(indices) =>
          var flat :- FlattenFields(indices);
          assert forall k :: Lookup(Put(d, INDEX_SETTINGS, JArr(flat)), k)
                               == if k == INDEX_SETTINGS then Some(JArr(flat)) else Lookup(d, k) by {
            forall k {
              PutLookup(d, INDEX_SETTINGS, JArr(flat), k);
            }
          }
          Ok(Put(d, INDEX_SETTINGS, JArr(flat)))
        case _ => Err(AttributeError)
  }

  // ---------------------------------------------------------------------------
  // Rows
  // ---------------------------------------------------------------------------

  /** The row of one deprecation: its kind, then its level, message and url,
      each of which it must have. */
  function DeprecationRow(kind: string, deprecation: Json): (r: Result<Obj>)
    ensures r.Ok? <==> deprecation.JObj? && HasKey(deprecation.fields, "level")
                       && HasKey(deprecation.fields, "message") && HasKey(deprecation.fields, "url")
    ensures r.Ok? ==> Keys(r.value) == ROW_KEYS
    ensures deprecation.JObj? && !HasKey(deprecation.fields, "level") ==> r == Err(KeyError("level"))
    ensures !deprecation.JObj? ==> r == Err(TypeError)
  {
    match deprecation
    case JObj(f) =>
      if !HasKey(f, "level") then Err(KeyError("level"))
      else if !HasKey(f, "message") then Err(KeyError("message"))
      else if !HasKey(f, "url") then Err(KeyError("url"))
      else Ok([("kind", JStr(kind)), ("level", Get(f, "level")), ("message", Get(f, "message")), ("url", Get(f, "url"))])
    case _ => Err(TypeError)
  }

  /** A row reads its kind, and the deprecation's level, message and url. */
  lemma DeprecationRowReads(kind: string, deprecation: Json)
    requires DeprecationRow(kind, deprecation).Ok?
    ensures var row := DeprecationRow(kind, deprecation).value;
            Get(row, "kind") == JStr(kind) &&
            Get(row, "level") == Get(deprecation.fields, "level") &&
            Get(row, "message") == Get(deprecation.fields, "message") &&
            Get(row, "url") == Get(deprecation.fields, "url")
  {
    RowKeysRead(DeprecationRow(kind, deprecation).value);
  }

  /** A dictionary with the row keys reads each of them at its position. */
  lemma RowKeysRead(row: Obj)
    requires Keys(row) == ROW_KEYS
    ensures DistinctKeys(row)
    ensures Get(row, "kind") == row[0].1 && Get(row, "level") == row[1].1
    ensures Get(row, "message") == row[2].1 && Get(row, "url") == row[3].1
  {
    assert row[0].0 == "kind" && row[1].0 == "level" && row[2].0 == "message" && row[3].0 == "url";
    assert DistinctKeys(row);
    LookupAt(row, 0);
    LookupAt(row, 1);
    LookupAt(row, 2);
    LookupAt(row, 3);
  }

  /** The rows of one kind, in the order of its deprecations. */
  function KindRows(kind: string, deprecations: seq<Json>): (r: Result<seq<Obj>>)
    ensures r.Ok? ==> |r.value| == |deprecations|
  {
    MapResult(deprecations, d => DeprecationRow(kind, d))
  }

  /** One row per deprecation, in order; the loop fails exactly when one
      deprecation lacks a field. */
  lemma KindRowsAt(kind: string, deprecations: seq<Json>)
    ensures KindRows(kind, deprecations).Ok? <==>
              forall i :: 0 <= i < |deprecations| ==> DeprecationRow(kind, deprecations[i]).Ok?
    ensures KindRows(kind, deprecations).Ok? ==>
              forall i :: 0 <= i < |deprecations| ==>
                DeprecationRow(kind, deprecations[i]) == Ok(KindRows(kind, deprecations).value[i])
  {
    MapResultAt(deprecations, d => DeprecationRow(kind, d));
  }

  /** Whether one kind's deprecations can be iterated and turned into rows. */
  predicate KindFlattens(entry: (string, Json)) {
    Iterate(entry.1).Ok? && KindRows(entry.0, Iterate(entry.1).value).Ok?
  }

  /** The second loop of `transform`: every kind's rows, kind after kind. It
      fails exactly when some kind cannot be iterated or one of its
      deprecations lacks a field. */
  function AllRows(d: Obj): (r: Result<seq<Obj>>)
    ensures r.Ok? <==> forall k :: 0 <= k < |d| ==> KindFlattens(d[k])
  {
    if d == [] then Ok([])
    else
      var deprecations :- Iterate(d[0].1);
      var first :- KindRows(d[0].0, deprecations);
      var rest :- AllRows(d[1..]);
      Ok(first + rest)
  }

  /** `MigrationDeprecations.transform`. Without `index_settings` it is the
      row loop alone; every row it gives has exactly the keys kind, level,
      message and url, and names a kind of the response. */
  function Transform(d: Obj): (r: Result<seq<Obj>>)
    ensures !HasKey(d, INDEX_SETTINGS) ==> r == AllRows(d)
    ensures r.Ok? ==> forall i :: 0 <= i < |r.value| ==>
              Keys(r.value[i]) == ROW_KEYS && HasKey(d, ToText(Lookup(r.value[i], "kind").value))
  {
    var flattened :- FlattenIndexSettings(d);
    AllRowsEveryKeys(flattened);
    AllRows(flattened)
  }

  /** `AllRowsKeys` for every row at once. */
  lemma AllRowsEveryKeys(d: Obj)
    ensures AllRows(d).Ok? ==> forall i :: 0 <= i < |AllRows(d).value| ==>
              Keys(AllRows(d).value[i]) == ROW_KEYS && HasKey(d, ToText(Lookup(AllRows(d).value[i], "kind").value))
  {
    if AllRows(d).Ok? {
      forall i | 0 <= i < |AllRows(d).value|
        ensures Keys(AllRows(d).value[i]) == ROW_KEYS && HasKey(d, ToText(Lookup(AllRows(d).value[i], "kind").value))
      {
        AllRowsKeys(d, i);
      }
    }
  }

  /** Every row has exactly the keys kind, level, message and url. */
  lemma {:induction false} AllRowsKeys(d: Obj, i: nat)
    requires AllRows(d).Ok? && i < |AllRows(d).value|
    ensures Keys(AllRows(d).value[i]) == ROW_KEYS
    ensures HasKey(d, ToText(Lookup(AllRows(d).value[i], "kind").value))
  {
    var deprecations := Iterate(d[0].1).value;
    var first := KindRows(d[0].0, deprecations).value;
    var rest := AllRows(d[1..]).value;
    assert AllRows(d).value == first + rest;
    if i < |first| {
      KindRowsAt(d[0].0, deprecations);
      assert DeprecationRow(d[0].0, deprecations[i]) == Ok(first[i]);
      assert Keys(d)[0] == d[0].0;
    } else {
      AllRowsKeys(d[1..], i - |first|);
      assert (first + rest)[i] == rest[i - |first|];
      assert Keys(d) == [d[0].0] + Keys(d[1..]);
    }
  }

  /** Kinds are processed in order: the rows of `a` come before those of `b`. */
  lemma {:induction false} AllRowsAppend(a: Obj, b: Obj)
    requires AllRows(a).Ok?
    ensures AllRows(a + b) == match AllRows(b)
                              case Ok(rb) => Ok(AllRows(a).value + rb)
                              case Err(e) => Err(e)
  {
    if a == [] {
      assert a + b == b;
      match AllRows(b)
      case Ok(rb) => assert [] + rb == rb;
      case Err(e) =>
    } else {
      assert (a + b)[0] == a[0];
      assert (a + b)[1..] == a[1..] + b;
      AllRowsAppend(a[1..], b);
      var deprecations := Iterate(a[0].1).value;
      var first := KindRows(a[0].0, deprecations).value;
      match AllRows(b)
      case Ok(rb) =>
        assert first + (AllRows(a[1..]).value + rb) == (first + AllRows(a[1..]).value) + rb;
      case Err(e) =>
    }
  }

  /** The rows of a single kind given as a list. */
  lemma SingleKindRows(kind: string, deprecations: seq<Json>)
    ensures AllRows([(kind, JArr(deprecations))]) == KindRows(kind, deprecations)
  {
    assert [(kind, JArr(deprecations))][1..] == [];
    match KindRows(kind, deprecations)
    case Ok(rows) => assert rows + [] == rows;
    case Err(_) =>
  }

  /** An empty `index_settings` is not flattened and contributes no rows. */
  lemma EmptyIndexSettingsNoRows(d: Obj)
    requires !HasKey(d, INDEX_SETTINGS)
    requires Transform(d).Ok?
    ensures Transform(d + [(INDEX_SETTINGS, JObj([]))]) == Transform(d)
  {
    var e := d + [(INDEX_SETTINGS, JObj([]))];
    KeysAppend(d, [(INDEX_SETTINGS, JObj([]))]);
    assert HasKey(e, INDEX_SETTINGS);
    assert Get(e, INDEX_SETTINGS) == JObj([]) by {
      assert Lookup(e, INDEX_SETTINGS) == Lookup([(INDEX_SETTINGS, JObj([]))], INDEX_SETTINGS) by {
        LookupAppendAbsent(d, [(INDEX_SETTINGS, JObj([]))], INDEX_SETTINGS);
      }
    }
    assert FlattenIndexSettings(e) == Ok(e);
    AllRowsAppend(d, [(INDEX_SETTINGS, JObj([]))]);
    EmptyKindNoRows(INDEX_SETTINGS);
    assert AllRows(d).value + [] == AllRows(d).value;
  }

  /** A kind whose value is an empty dictionary contributes no rows. */
  lemma EmptyKindNoRows(kind: string)
    ensures AllRows([(kind, JObj([]))]) == Ok([])
  {
    var d := [(kind, JObj([]))];
    assert d[1..] == [];
    assert AllRows(d[1..]) == Ok([]);
    assert KeysAsJson([]) == [];
    assert Iterate(d[0].1) == Ok([]);
    assert KindRows(kind, []) == Ok([]);
    var empty: seq<Obj> := [];
    assert empty + empty == empty;
  }

  /** A key missing from the front of an association list is looked up in the back. */
  lemma {:induction false} LookupAppendAbsent(a: Obj, b: Obj, k: string)
    requires !HasKey(a, k)
    ensures Lookup(a + b, k) == Lookup(b, k)
  {
    if a == [] {
      assert a + b == b;
    } else {
      assert (a + b)[0] == a[0];
      assert (a + b)[1..] == a[1..] + b;
      assert Keys(a) == [a[0].0] + Keys(a[1..]);
      assert a[0].0 != k;
      LookupAppendAbsent(a[1..], b, k);
    }
  }

  /** A deprecation as the response gives it. */
  datatype Dep = Dep(level: string, message: string, url: string, details: string)

  function DepJson(d: Dep): Json {
    JObj([("level", JStr(d.level)), ("message", JStr(d.message)), ("url", JStr(d.url)), ("details", JStr(d.details))])
  }

  /** The row the command shows for a deprecation of a kind, with the given message. */
  function DepRow(kind: string, d: Dep, message: string): Obj {
    [("kind", JStr(kind)), ("level", JStr(d.level)), ("message", JStr(message)), ("url", JStr(d.url))]
  }

  lemma DepKeys(d: Dep)
    ensures Keys(DepJson(d).fields) == ["level", "message", "url", "details"]
    ensures DistinctKeys(DepJson(d).fields)
    ensures Get(DepJson(d).fields, "level") == JStr(d.level)
    ensures Get(DepJson(d).fields, "message") == JStr(d.message)
    ensures Get(DepJson(d).fields, "url") == JStr(d.url)
  {
    var f := DepJson(d).fields;
    DepDistinct(d);
    LookupAt(f, 0);
    LookupAt(f, 1);
    LookupAt(f, 2);
  }

  lemma DepDistinct(d: Dep)
    ensures Keys(DepJson(d).fields) == ["level", "message", "url", "details"]
    ensures DistinctKeys(DepJson(d).fields)
  {
    var f := DepJson(d).fields;
    assert f[0].0[0] == 'l' && f[1].0[0] == 'm' && f[2].0[0] == 'u' && f[3].0[0] == 'd';
  }

  /** A deprecation of an index gets `[index] ` in front of its message. */
  lemma PrefixOneDep(index: string, d: Dep)
    ensures PrefixOne(index, DepJson(d)) == Ok(DepJson(d.(message := "[" + index + "] " + d.message)))
  {
    var f := DepJson(d).fields;
    var m := JStr(IndexMessage(index, JStr(d.message)));
    assert m == JStr("[" + index + "] " + d.message);
    DepDistinct(d);
    PrefixOneInPlace(index, f, 1);
    UpdateSecond(f, ("message", m));
  }

  /** A deprecation's message is rewritten where it stands. */
  lemma PrefixOneInPlace(index: string, f: Obj, i: nat)
    requires DistinctKeys(f) && i < |f| && f[i].0 == "message"
    ensures PrefixOne(index, JObj(f)) == Ok(JObj(f[i := ("message", JStr(IndexMessage(index, f[i].1)))]))
  {
    LookupAt(f, i);
    assert Keys(f)[i] == "message";
    var entry := ("message", JStr(IndexMessage(index, f[i].1)));
    PutAt(f, i, entry.1);
    SpliceIsUpdate(f, i, entry);
  }

  lemma UpdateSecond<T>(d: seq<T>, e: T)
    requires |d| == 4
    ensures d[1 := e] == [d[0], e, d[2], d[3]]
  {
  }

  lemma DeprecationRowDep(kind: string, d: Dep)
    ensures DeprecationRow(kind, DepJson(d)) == Ok(DepRow(kind, d, d.message))
  {
    DepKeys(d);
  }

  lemma KindRowsDeps(kind: string, ds: seq<Dep>)
    ensures KindRows(kind, DepsJson(ds)) == Ok(DepRows(kind, ds))
  {
    if ds != [] {
      DeprecationRowDep(kind, ds[0]);
      KindRowsDeps(kind, ds[1..]);
      assert DepsJson(ds)[1..] == DepsJson(ds[1..]);
    }
  }

  function DepsJson(ds: seq<Dep>): (r: seq<Json>)
    ensures |r| == |ds|
  {
    if ds == [] then [] else [DepJson(ds[0])] + DepsJson(ds[1..])
  }

  function DepRows(kind: string, ds: seq<Dep>): seq<Obj> {
    if ds == [] then [] else [DepRow(kind, ds[0], ds[0].message)] + DepRows(kind, ds[1..])
  }

  function Prefixed(index: string, ds: seq<Dep>): (r: seq<Dep>)
    ensures |r| == |ds|
  {
    if ds == [] then [] else [ds[0].(message := "[" + index + "] " + ds[0].message)] + Prefixed(index, ds[1..])
  }

  lemma PrefixAllDeps(index: string, ds: seq<Dep>)
    ensures PrefixAll(index, DepsJson(ds)) == Ok(DepsJson(Prefixed(index, ds)))
  {
    if ds != [] {
      PrefixOneDep(index, ds[0]);
      PrefixAllDeps(index, ds[1..]);
      assert DepsJson(ds)[1..] == DepsJson(ds[1..]);
    }
  }

  /** A response whose every kind is a list of deprecations. */
  function DepsResponse(kinds: seq<(string, seq<Dep>)>): (r: Obj)
    ensures Keys(r) == Keys(kinds)
  {
    if kinds == [] then [] else [(kinds[0].0, JArr(DepsJson(kinds[0].1)))] + DepsResponse(kinds[1..])
  }

  /** The rows of such a response, kind after kind. */
  function DepsResponseRows(kinds: seq<(string, seq<Dep>)>): seq<Obj> {
    if kinds == [] then [] else DepRows(kinds[0].0, kinds[0].1) + DepsResponseRows(kinds[1..])
  }

  /** Over lists, the rows are every kind's deprecations in order, each
      tagged with its kind and nothing else changed. */
  lemma {:induction false} AllRowsDeps(kinds: seq<(string, seq<Dep>)>)
    ensures AllRows(DepsResponse(kinds)) == Ok(DepsResponseRows(kinds))
  {
    if kinds != [] {
      var d := DepsResponse(kinds);
      AllRowsDeps(kinds[1..]);
      KindRowsDeps(kinds[0].0, kinds[0].1);
      assert d[0] == (kinds[0].0, JArr(DepsJson(kinds[0].1)));
      assert d[1..] == DepsResponse(kinds[1..]);
    }
  }

  /** The test's response: one cluster deprecation, no node or ml ones, and
      index deprecations for an index `a` (one), then an index `b` (two);
      the test names them `logs:apache` and `foobar`. */
  function TestResponse(c: Dep, a: string, w: Dep, b: string, x: Dep, y: Dep): Obj {
    [("cluster_settings", JArr([DepJson(c)])),
     ("node_settings", JArr([])),
     (INDEX_SETTINGS, JObj(TestIndices(a, w, b, x, y))),
     ("ml_settings", JArr([]))]
  }

  function TestIndices(a: string, w: Dep, b: string, x: Dep, y: Dep): Obj {
    [(a, JArr([DepJson(w)])), (b, JArr([DepJson(x), DepJson(y)]))]
  }

  /** The test's `index_settings` after flattening: the deprecations of `a`,
      then those of `b`, each with its index in front. */
  function TestIndexDeps(a: string, w: Dep, b: string, x: Dep, y: Dep): seq<Dep> {
    Prefixed(a, [w]) + Prefixed(b, [x, y])
  }

  /** The flattened test response, as lists of deprecations. */
  function TestFlatKinds(c: Dep, a: string, w: Dep, b: string, x: Dep, y: Dep): seq<(string, seq<Dep>)> {
    [("cluster_settings", [c]), ("node_settings", []), (INDEX_SETTINGS, TestIndexDeps(a, w, b, x, y)), ("ml_settings", [])]
  }

  /** Flattening the test response replaces `index_settings`, in place, by
      the flat list of its deprecations. */
  lemma TestFlattened(c: Dep, a: string, w: Dep, b: string, x: Dep, y: Dep)
    ensures FlattenIndexSettings(TestResponse(c, a, w, b, x, y)) == Ok(DepsResponse(TestFlatKinds(c, a, w, b, x, y)))
  {
    var d := TestResponse(c, a, w, b, x, y);
    var flat := DepsJson(TestIndexDeps(a, w, b, x, y));
    TestResponseIndices(c, a, w, b, x, y);
    TestIndicesFlattened(a, w, b, x, y);
    FlattenInPlace(d, 2, flat);
    TestFlatResponse(c, a, w, b, x, y);
    UpdateThird(d, (INDEX_SETTINGS, JArr(flat)));
  }

  lemma UpdateThird<T>(d: seq<T>, e: T)
    requires |d| == 4
    ensures d[2 := e] == [d[0], d[1], e, d[3]]
  {
  }

  /** A non-empty dictionary under `index_settings` is replaced, where it
      stands, by the flat list of its deprecations. */
  lemma FlattenInPlace(d: Obj, i: nat, flat: seq<Json>)
    requires DistinctKeys(d) && i < |d| && d[i].0 == INDEX_SETTINGS
    requires d[i].1.JObj? && d[i].1.fields != [] && FlattenFields(d[i].1.fields) == Ok(flat)
    ensures FlattenIndexSettings(d) == Ok(d[i := (INDEX_SETTINGS, JArr(flat))])
  {
    LookupAt(d, i);
    assert Keys(d)[i] == INDEX_SETTINGS;
    assert Get(d, INDEX_SETTINGS) == d[i].1;
    PutAt(d, i, JArr(flat));
    SpliceIsUpdate(d, i, (INDEX_SETTINGS, JArr(flat)));
  }

  lemma TestResponseIndices(c: Dep, a: string, w: Dep, b: string, x: Dep, y: Dep)
    ensures DistinctKeys(TestResponse(c, a, w, b, x, y))
    ensures TestResponse(c, a, w, b, x, y)[2].0 == INDEX_SETTINGS
    ensures HasKey(TestResponse(c, a, w, b, x, y), INDEX_SETTINGS)
    ensures Get(TestResponse(c, a, w, b, x, y), INDEX_SETTINGS) == JObj(TestIndices(a, w, b, x, y))
  {
    var d := TestResponse(c, a, w, b, x, y);
    assert Keys(d) == ["cluster_settings", "node_settings", INDEX_SETTINGS, "ml_settings"];
    assert DistinctKeys(d);
    LookupAt(d, 2);
  }

  lemma DepsResponseCons(kind: string, ds: seq<Dep>, rest: seq<(string, seq<Dep>)>)
    ensures DepsResponse([(kind, ds)] + rest) == [(kind, JArr(DepsJson(ds)))] + DepsResponse(rest)
    ensures DepsResponseRows([(kind, ds)] + rest) == DepRows(kind, ds) + DepsResponseRows(rest)
  {
    var kinds := [(kind, ds)] + rest;
    assert kinds[0] == (kind, ds) && kinds[1..] == rest;
  }

  lemma TestFlatResponse(c: Dep, a: string, w: Dep, b: string, x: Dep, y: Dep)
    ensures DepsResponse(TestFlatKinds(c, a, w, b, x, y)) ==
              [("cluster_settings", JArr([DepJson(c)])),
               ("node_settings", JArr([])),
               (INDEX_SETTINGS, JArr(DepsJson(TestIndexDeps(a, w, b, x, y)))),
               ("ml_settings", JArr([]))]
  {
    var flat := TestIndexDeps(a, w, b, x, y);
    var empty: seq<(string, seq<Dep>)> := [];
    DepsResponseCons("ml_settings", [], empty);
    DepsResponseCons(INDEX_SETTINGS, flat, [("ml_settings", [])] + empty);
    DepsResponseCons("node_settings", [], [(INDEX_SETTINGS, flat), ("ml_settings", [])]);
    DepsResponseCons("cluster_settings", [c], [("node_settings", []), (INDEX_SETTINGS, flat), ("ml_settings", [])]);
    assert DepsJson([c]) == [DepJson(c)];
  }

  /** Flattening one index whose value is a list of deprecations puts them,
      prefixed, in front of the rest. */
  lemma FlattenFieldsCons(index: string, ds: seq<Dep>, rest: Obj)
    requires FlattenFields(rest).Ok?
    ensures FlattenFields([(index, JArr(DepsJson(ds)))] + rest)
              == Ok(DepsJson(Prefixed(index, ds)) + FlattenFields(rest).value)
  {
    var indices := [(index, JArr(DepsJson(ds)))] + rest;
    assert indices[0] == (index, JArr(DepsJson(ds))) && indices[1..] == rest;
    PrefixAllDeps(index, ds);
  }

  lemma TestIndicesFlattened(a: string, w: Dep, b: string, x: Dep, y: Dep)
    ensures FlattenFields(TestIndices(a, w, b, x, y)) == Ok(DepsJson(TestIndexDeps(a, w, b, x, y)))
  {
    DepsJsonPair(w, x, y);
    FlattenFieldsTwo(a, [w], b, [x, y]);
  }

  lemma DepsJsonPair(w: Dep, x: Dep, y: Dep)
    ensures DepsJson([w]) == [DepJson(w)]
    ensures DepsJson([x, y]) == [DepJson(x), DepJson(y)]
  {
    assert [x, y][1..] == [y];
  }

  /** Two indices, each a list of deprecations, flatten to the first's
      deprecations and then the second's, each with its index in front. */
  lemma FlattenFieldsTwo(a: string, u: seq<Dep>, b: string, v: seq<Dep>)
    ensures FlattenFields([(a, JArr(DepsJson(u))), (b, JArr(DepsJson(v)))]) == Ok(DepsJson(Prefixed(a, u) + Prefixed(b, v)))
  {
    var second: Obj := [(b, JArr(DepsJson(v)))];
    FlattenFieldsOne(b, v);
    FlattenFieldsCons(a, u, second);
    assert [(a, JArr(DepsJson(u)))] + second == [(a, JArr(DepsJson(u))), (b, JArr(DepsJson(v)))];
    DepsJsonAppend(Prefixed(a, u), Prefixed(b, v));
  }

  lemma FlattenFieldsOne(b: string, v: seq<Dep>)
    ensures FlattenFields([(b, JArr(DepsJson(v)))]) == Ok(DepsJson(Prefixed(b, v)))
  {
    var empty: Obj := [];
    assert FlattenFields(empty) == Ok([]);
    FlattenFieldsCons(b, v, empty);
    assert [(b, JArr(DepsJson(v)))] + empty == [(b, JArr(DepsJson(v)))];
    assert DepsJson(Prefixed(b, v)) + [] == DepsJson(Prefixed(b, v));
  }

  lemma {:induction false} DepsJsonAppend(a: seq<Dep>, b: seq<Dep>)
    ensures DepsJson(a + b) == DepsJson(a) + DepsJson(b)
  {
    if a == [] {
      assert a + b == b;
    } else {
      assert (a + b)[1..] == a[1..] + b;
      DepsJsonAppend(a[1..], b);
    }
  }

  /** The rows of the test: the cluster deprecation, then the three index
      deprecations in order with their index in front of their message. */
  lemma TestRows(c: Dep, a: string, w: Dep, b: string, x: Dep, y: Dep)
    ensures Transform(TestResponse(c, a, w, b, x, y)) ==
              Ok([DepRow("cluster_settings", c, c.message),
                  DepRow(INDEX_SETTINGS, w, "[" + a + "] " + w.message),
                  DepRow(INDEX_SETTINGS, x, "[" + b + "] " + x.message),
                  DepRow(INDEX_SETTINGS, y, "[" + b + "] " + y.message)])
  {
    var kinds := TestFlatKinds(c, a, w, b, x, y);
    TestFlattened(c, a, w, b, x, y);
    AllRowsDeps(kinds);
    TestFlatRows(c, a, w, b, x, y);
  }

  lemma TestFlatRows(c: Dep, a: string, w: Dep, b: string, x: Dep, y: Dep)
    ensures DepsResponseRows(TestFlatKinds(c, a, w, b, x, y)) ==
              [DepRow("cluster_settings", c, c.message),
               DepRow(INDEX_SETTINGS, w, "[" + a + "] " + w.message),
               DepRow(INDEX_SETTINGS, x, "[" + b + "] " + x.message),
               DepRow(INDEX_SETTINGS, y, "[" + b + "] " + y.message)]
  {
    var flat := TestIndexDeps(a, w, b, x, y);
    var empty: seq<(string, seq<Dep>)> := [];
    DepsResponseCons("ml_settings", [], empty);
    DepsResponseCons(INDEX_SETTINGS, flat, [("ml_settings", [])] + empty);
    DepsResponseCons("node_settings", [], [(INDEX_SETTINGS, flat), ("ml_settings", [])]);
    DepsResponseCons("cluster_settings", [c], [("node_settings", []), (INDEX_SETTINGS, flat), ("ml_settings", [])]);
    assert DepRows("cluster_settings", [c]) == [DepRow("cluster_settings", c, c.message)];
    TestIndexRows(a, w, b, x, y);
  }

  lemma TestIndexRows(a: string, w: Dep, b: string, x: Dep, y: Dep)
    ensures DepRows(INDEX_SETTINGS, TestIndexDeps(a, w, b, x, y)) ==
              [DepRow(INDEX_SETTINGS, w, "[" + a + "] " + w.message),
               DepRow(INDEX_SETTINGS, x, "[" + b + "] " + x.message),
               DepRow(INDEX_SETTINGS, y, "[" + b + "] " + y.message)]
  {
    var w' := w.(message := "[" + a + "] " + w.message);
    var x' := x.(message := "[" + b + "] " + x.message);
    var y' := y.(message := "[" + b + "] " + y.message);
    assert Prefixed(a, [w]) == [w'];
    assert Prefixed(b, [y]) == [y'];
    assert Prefixed(b, [x, y]) == [x'] + Prefixed(b, [y]);
    var flat := [w', x', y'];
    assert TestIndexDeps(a, w, b, x, y) == flat;
    assert [y'][1..] == [] && [x', y'][1..] == [y'] && flat[1..] == [x', y'];
    assert DepRows(INDEX_SETTINGS, [y']) == [DepRow(INDEX_SETTINGS, y', y'.message)];
    assert DepRows(INDEX_SETTINGS, [x', y']) == [DepRow(INDEX_SETTINGS, x', x'.message)] + DepRows(INDEX_SETTINGS, [y']);
    assert DepRows(INDEX_SETTINGS, flat) == [DepRow(INDEX_SETTINGS, w', w'.message)] + DepRows(INDEX_SETTINGS, [x', y']);
  }

  // ---------------------------------------------------------------------------
  // Columns
  // ---------------------------------------------------------------------------

  /** The lister columns: `("kind")` and `("message")` are bare strings in
      Python, `("level",)` a 1-tuple, and the url is labelled `Doc`. */
  const MigrationColumns: seq<ColumnArg> := [Bare("kind"), Tuple1("level"), Bare("message"), Tuple2("url", "Doc")]

  /** The first header is derived from `kind`, the last is the given `Doc`. */
  lemma MigrationHeaders(rows: seq<Obj>)
    ensures |FormatForLister(rows, MigrationColumns).headers| == 4
    ensures FormatForLister(rows, MigrationColumns).headers[0] == "Kind"
    ensures FormatForLister(rows, MigrationColumns).headers[3] == "Doc"
  {
    WordLabel("kind", "Kind");
  }

  /** The second header is derived from the 1-tuple `("level",)`. */
  lemma MigrationLevelHeader(rows: seq<Obj>)
    ensures FormatForLister(rows, MigrationColumns).headers[1] == "Level"
  {
    DerivedHeader(rows, MigrationColumns, 1, "Level");
  }

  /** The third header is derived from `message`. */
  lemma MigrationMessageHeader(rows: seq<Obj>)
    ensures FormatForLister(rows, MigrationColumns).headers[2] == "Message"
  {
    DerivedHeader(rows, MigrationColumns, 2, "Message");
  }
}

=== FILE: node.dfy ===
/** The `node exclude` and `node list` commands (esctl/cmd/node.py). */
module NodeCommands {
  import opened Results
  import opened Json
  import opened Assoc
  import opened Commands
  import opened Settings
  import opened Formatter
  import Utils
  import Text

  const EXCLUDE_PREFIX: string := "cluster.routing.allocation.exclude."

  /** The `--by` attribute when none is given. */
  const DEFAULT_BY: string := "_ip"

  /** The cluster setting that holds the exclusion list for an attribute. */
  function ExclusionSetting(attribute: string): (r: string)
    ensures Text.StartsWith(r, EXCLUDE_PREFIX)
    ensures r[|EXCLUDE_PREFIX|..] == attribute
  {
    EXCLUDE_PREFIX + attribute
  }

  /** Different attributes use different settings. */
  lemma ExclusionSettingInjective(a: string, b: string)
    requires ExclusionSetting(a) == ExclusionSetting(b)
    ensures a == b
  {
    assert a == ExclusionSetting(a)[|EXCLUDE_PREFIX|..];
  }

  /** What `node exclude` does: show the current list, or announce a change
      and send the body that sets the new list. */
  datatype ExcludeAction = Show(line: string) | Change(announce: string, body: Obj)

  /** `NodeExclude.take_action` over the cluster response: without a list,
      the transient setting is read and shown (`None` as ""); with a list, it
      is written, transiently. */
  function NodeExclude(response: Obj, attribute: string, list: Option<string>): (r: Result<ExcludeAction>)
    ensures list.Some? ==> r.Ok? && r.value.Change?
    ensures list.None? && r.Ok? ==> r.value.Show?
    ensures list.None? && IsTier(response, TRANSIENT) && IsTier(response, DEFAULTS) ==> r.Ok?
  {
    var name := ExclusionSetting(attribute);
    match list
    case None =>
      var setting :- ClusterGet(response, name, TRANSIENT);
      Ok(Show(SuccessMessage(ShownValue(setting.value))))
    case Some(l) =>
      Ok(Change("Changing node exclusion list (" + Utils.ColorizeStr(name, Utils.ITALIC) + ") to : "
                  + Utils.ColorizeStr(l, Utils.ITALIC),
                SetBody(name, JStr(l), TRANSIENT)))
  }

  /** A new list is written to the transient tier only, under the
      attribute's setting, exactly as given. */
  lemma NodeExcludeWrites(response: Obj, attribute: string, l: string)
    ensures var body := NodeExclude(response, attribute, Some(l)).value.body;
            Keys(body) == [TRANSIENT] &&
            Lookup(body, TRANSIENT) == Some(JObj([(ExclusionSetting(attribute), JStr(l))]))
  {
  }

  /** How a setting's value is shown: `None` as "". */
  function ShownValue(v: Json): (r: Json)
    ensures !r.JNull?
    ensures r != v <==> v.JNull?
  {
    if v.JNull? then JStr("") else v
  }

  /** Without a list, the transient value is shown, falling back to the
      default; a value of `None`, or no value in either tier, shows as "". */
  lemma NodeExcludeShows(response: Obj, attribute: string)
    requires IsTier(response, TRANSIENT) && IsTier(response, DEFAULTS)
    ensures var name := ExclusionSetting(attribute);
            var tier := Tier(response, TRANSIENT);
            var defaults := Tier(response, DEFAULTS);
            var r := NodeExclude(response, attribute, None).value;
            (HasKey(tier, name) ==>
               r == Show(SuccessMessage(ShownValue(Lookup(tier, name).value)))) &&
            (!HasKey(tier, name) && HasKey(defaults, name) ==>
               r == Show(SuccessMessage(ShownValue(Lookup(defaults, name).value)))) &&
            (!HasKey(tier, name) && !HasKey(defaults, name) ==> r == Show(SuccessMessage(JStr(""))))
  {
  }

  /** The columns of `node list`. A parenthesised string without a comma is
      the string itself in Python, so `("cpu")` is a bare id. */
  const NodeListColumns: seq<ColumnArg> := [
    Tuple2("ip", "IP"),
    Tuple1("heap.percent"),
    Tuple1("ram.percent"),
    Bare("cpu"),
    Bare("load_1m"),
    Bare("load_5m"),
    Bare("load_15m"),
    Tuple2("node.role", "Role"),
    Bare("master"),
    Bare("name")
  ]

  /** `NodeList.take_action` on the `_cat/nodes` documents: one row per
      node, one cell per column, each cell the node's value under the
      column's id (`None` when the node lacks it). */
  function NodeList(nodes: seq<Obj>): (r: Listing)
    ensures |r.headers| == |NodeListColumns| && |r.rows| == |nodes|
    ensures forall i, j :: 0 <= i < |nodes| && 0 <= j < |NodeListColumns| ==>
      |r.rows[i]| == |NodeListColumns| && r.rows[i][j] == Get(nodes[i], NodeListColumns[j].id)
  {
    FormatForLister(nodes, NodeListColumns)
  }

  /** IP and Role are the given labels. */
  lemma NodeListGivenLabels(nodes: seq<Obj>)
    ensures |NodeList(nodes).headers| == |NodeListColumns|
    ensures NodeList(nodes).headers[0] == "IP"
    ensures NodeList(nodes).headers[7] == "Role"
  {
    var cols := NodeListColumns;
    assert cols[7] == Tuple2("node.role", "Role");
    assert FormatForLister(nodes, cols).headers[7] == FormatColumns(cols)[7].name;
  }

  /** Only the IP and Role columns carry a label; the others derive theirs. */
  lemma NodeListDerivedLabels(j: nat)
    requires j < |NodeListColumns|
    ensures NodeListColumns[j].Tuple2? <==> j == 0 || j == 7
  {
  }
}

=== FILE: ordering.dfy ===
/** Python's string order and Python's `sorted(..., key=...)`.

    Python compares strings by code point, position by position, and a proper
    prefix comes first. `sorted` is stable. `SortBy` is an insertion sort with
    the same result: the elements ordered by key, equal keys in input order. */
module Ordering {

  /** Python `a < b` on strings. */
  predicate LexLess(a: string, b: string)
    decreases |a|
  {
    if a == [] then b != []
    else if b == [] then false
    else if a[0] != b[0] then a[0] < b[0]
    else LexLess(a[1..], b[1..])
  }

  lemma {:induction false} LexIrreflexive(a: string)
    ensures !LexLess(a, a)
    decreases |a|
  {
    if a != [] {
      LexIrreflexive(a[1..]);
    }
  }

  lemma {:induction false} LexAsymmetric(a: string, b: string)
    ensures !(LexLess(a, b) && LexLess(b, a))
    decreases |a|
  {
    if a != [] && b != [] && a[0] == b[0] {
      LexAsymmetric(a[1..], b[1..]);
    }
  }

  lemma {:induction false} LexTransitive(a: string, b: string, c: string)
    requires LexLess(a, b) && LexLess(b, c)
    ensures LexLess(a, c)
    decreases |a|
  {
    if a != [] && a[0] == b[0] && b[0] == c[0] {
      LexTransitive(a[1..], b[1..], c[1..]);
    }
  }

  /** Any two different strings are ordered one way or the other. */
  lemma {:induction false} LexTotal(a: string, b: string)
    requires a != b
    ensures LexLess(a, b) || LexLess(b, a)
    decreases |a|
  {
    if a != [] && b != [] && a[0] == b[0] {
      assert a == [a[0]] + a[1..] && b == [b[0]] + b[1..];
      LexTotal(a[1..], b[1..]);
    }
  }

  // ---------------------------------------------------------------------------
  // Stable sort by a string key
  // ---------------------------------------------------------------------------

  /** Put `x` before the first element whose key is not smaller than its own. */
  function InsertBy<T>(x: T, s: seq<T>, key: T -> string): (r: seq<T>)
    ensures multiset(r) == multiset(s) + multiset{x}
    ensures |r| == |s| + 1
  {
    if s == [] then [x]
    else
      assert s == [s[0]] + s[1..];
      if LexLess(key(s[0]), key(x)) then [s[0]] + InsertBy(x, s[1..], key)
      else [x] + s
  }

  /** Python `sorted(s, key=key)`. */
  function SortBy<T>(s: seq<T>, key: T -> string): (r: seq<T>)
    ensures multiset(r) == multiset(s)
    ensures |r| == |s|
  {
    if s == [] then []
    else
      assert s == [s[0]] + s[1..];
      InsertBy(s[0], SortBy(s[1..], key), key)
  }

  /** Keys never decrease along `s`. */
  predicate SortedBy<T>(s: seq<T>, key: T -> string) {
    forall i, j :: 0 <= i < j < |s| ==> !LexLess(key(s[j]), key(s[i]))
  }

  /** Keys strictly increase along `s`. */
  predicate StrictlySortedBy<T>(s: seq<T>, key: T -> string) {
    forall i, j :: 0 <= i < j < |s| ==> LexLess(key(s[i]), key(s[j]))
  }

  /** No two elements of `s` share a key. */
  predicate UniqueKeysBy<T>(s: seq<T>, key: T -> string) {
    forall i, j :: 0 <= i < j < |s| ==> key(s[i]) != key(s[j])
  }

  /** The elements of `s` whose key is `k`, in order. */
  function WithKey<T>(s: seq<T>, key: T -> string, k: string): seq<T> {
    if s == [] then []
    else if key(s[0]) == k then [s[0]] + WithKey(s[1..], key, k)
    else WithKey(s[1..], key, k)
  }

  lemma {:induction false} InsertBySorted<T>(x: T, s: seq<T>, key: T -> string)
    requires SortedBy(s, key)
    ensures SortedBy(InsertBy(x, s, key), key)
  {
    if s != [] && LexLess(key(s[0]), key(x)) {
      InsertBySorted(x, s[1..], key);
      var rest := InsertBy(x, s[1..], key);
      var r := [s[0]] + rest;
      forall j | 0 < j < |r|
        ensures !LexLess(key(r[j]), key(s[0]))
      {
        assert r[j] in multiset(rest);
        assert r[j] in multiset(s[1..]) + multiset{x};
        if r[j] == x {
          LexAsymmetric(key(s[0]), key(x));
        } else {
          assert r[j] in s[1..];
          var m :| 0 <= m < |s[1..]| && s[1..][m] == r[j];
          assert s[m + 1] == r[j];
        }
      }
    } else if s != [] {
      var r := [x] + s;
      forall j | 0 < j < |r|
        ensures !LexLess(key(r[j]), key(x))
      {
        if !LexLess(key(s[0]), key(x)) && LexLess(key(r[j]), key(x)) && j > 1 {
          assert !LexLess(key(r[j]), key(s[0]));
          if key(r[j]) != key(s[0]) {
            LexTotal(key(r[j]), key(s[0]));
            LexTransitive(key(s[0]), key(r[j]), key(x));
          }
        }
      }
    }
  }

  /** `SortBy` orders by key. */
  lemma {:induction false} SortBySorted<T>(s: seq<T>, key: T -> string)
    ensures SortedBy(SortBy(s, key), key)
  {
    if s != [] {
      SortBySorted(s[1..], key);
      InsertBySorted(s[0], SortBy(s[1..], key), key);
    }
  }

  lemma {:induction false} InsertByWithKey<T>(x: T, s: seq<T>, key: T -> string, k: string)
    ensures WithKey(InsertBy(x, s, key), key, k) ==
            (if key(x) == k then [x] + WithKey(s, key, k) else WithKey(s, key, k))
  {
    if s != [] && LexLess(key(s[0]), key(x)) {
      InsertByWithKey(x, s[1..], key, k);
      assert ([s[0]] + InsertBy(x, s[1..], key))[1..] == InsertBy(x, s[1..], key);
      if key(x) == k {
        assert key(s[0]) != k by { LexIrreflexive(key(x)); }
      }
    } else if s != [] {
      assert ([x] + s)[1..] == s;
    }
  }

  /** `SortBy` is stable: the elements sharing a key keep their input order. */
  lemma {:induction false} SortByStable<T>(s: seq<T>, key: T -> string, k: string)
    ensures WithKey(SortBy(s, key), key, k) == WithKey(s, key, k)
  {
    if s != [] {
      SortByStable(s[1..], key, k);
      InsertByWithKey(s[0], SortBy(s[1..], key), key, k);
    }
  }

  /** Sorting an already sorted sequence changes nothing. */
  lemma {:induction false} SortBySortedIdentity<T>(s: seq<T>, key: T -> string)
    requires SortedBy(s, key)
    ensures SortBy(s, key) == s
  {
    if s != [] {
      assert SortedBy(s[1..], key) by {
        forall i, j | 0 <= i < j < |s[1..]|
          ensures !LexLess(key(s[1..][j]), key(s[1..][i]))
        {
          assert s[1..][i] == s[i + 1] && s[1..][j] == s[j + 1];
        }
      }
      SortBySortedIdentity(s[1..], key);
      if |s| > 1 {
        assert !LexLess(key(s[1]), key(s[0]));
        assert [s[0]] + s[1..] == s;
      }
    }
  }

  /** Sorting twice is sorting once. */
  lemma SortByIdempotent<T>(s: seq<T>, key: T -> string)
    ensures SortBy(SortBy(s, key), key) == SortBy(s, key)
  {
    SortBySorted(s, key);
    SortBySortedIdentity(SortBy(s, key), key);
  }

  lemma {:induction false} InsertByStrict<T>(x: T, s: seq<T>, key: T -> string)
    requires StrictlySortedBy(s, key)
    requires forall i :: 0 <= i < |s| ==> key(s[i]) != key(x)
    ensures StrictlySortedBy(InsertBy(x, s, key), key)
  {
    if s != [] && LexLess(key(s[0]), key(x)) {
      InsertByStrict(x, s[1..], key);
      var rest := InsertBy(x, s[1..], key);
      var r := [s[0]] + rest;
      forall j | 0 < j < |r|
        ensures LexLess(key(s[0]), key(r[j]))
      {
        assert r[j] in multiset(rest);
        assert r[j] in multiset(s[1..]) + multiset{x};
        if r[j] != x {
          assert r[j] in s[1..];
          var m :| 0 <= m < |s[1..]| && s[1..][m] == r[j];
          assert s[m + 1] == r[j];
        }
      }
    } else if s != [] {
      var r := [x] + s;
      assert LexLess(key(x), key(s[0])) by {
        LexTotal(key(x), key(s[0]));
      }
      forall j | 1 < j < |r|
        ensures LexLess(key(x), key(r[j]))
      {
        LexTransitive(key(x), key(s[0]), key(r[j]));
      }
    }
  }

  /** With unique keys, `SortBy` orders strictly. */
  lemma {:induction false} SortByStrict<T>(s: seq<T>, key: T -> string)
    requires UniqueKeysBy(s, key)
    ensures StrictlySortedBy(SortBy(s, key), key)
  {
    if s != [] {
      var tail := SortBy(s[1..], key);
      assert UniqueKeysBy(s[1..], key) by {
        forall i, j | 0 <= i < j < |s[1..]|
          ensures key(s[1..][i]) != key(s[1..][j])
        {
          assert s[1..][i] == s[i + 1] && s[1..][j] == s[j + 1];
        }
      }
      SortByStrict(s[1..], key);
      forall i | 0 <= i < |tail|
        ensures key(tail[i]) != key(s[0])
      {
        assert tail[i] in multiset(s[1..]);
        var m :| 0 <= m < |s[1..]| && s[1..][m] == tail[i];
        assert s[m + 1] == tail[i];
      }
      InsertByStrict(s[0], tail, key);
    }
  }
}

=== FILE: results.dfy ===
/** Failure-compatible wrappers: `Option` for Python's "value or None" and
    `Result` for "value or raised exception". Only the exceptions the modelled
    code can actually raise are listed in `PyError`. */
module Results {

  datatype Option<+T> = None | Some(value: T) {

    /** `value` if present, otherwise `default` (Python's `d.get(k, default)`). */
    function GetOr(default: T): (r: T)
      ensures Some? ==> r == value
      ensures None? ==> r == default
    {
      match this
      case Some(v) => v
      case None => default
    }
  }

  /** The Python exceptions that the modelled functions may raise. */
  datatype PyError =
    | AttributeError
    | TypeError
    | KeyError(key: string)
    | IndexError
    | ValueError
    | SystemExit(code: int)

  /** Either a computed value or the exception the source would raise. */
  datatype Result<+T> = Ok(value: T) | Err(error: PyError) {

    predicate IsFailure() {
      Err?
    }

    function PropagateFailure<U>(): Result<U>
      requires Err?
    {
      Err(error)
    }

    function Extract(): T
      requires Ok?
    {
      value
    }
  }

  /** A Python loop that builds a list from `xs` in order, where a step may
      raise: the first exception ends the loop. */
  function MapResult<A, B>(xs: seq<A>, f: A -> Result<B>): (r: Result<seq<B>>)
    ensures r.Ok? ==> |r.value| == |xs|
  {
    if xs == [] then Ok([])
    else
      var first :- f(xs[0]);
      var rest :- MapResult(xs[1..], f);
      Ok([first] + rest)
  }

  /** The loop succeeds exactly when every step does, and then holds every
      step's result at its element's position. */
  lemma {:induction false} MapResultAt<A, B>(xs: seq<A>, f: A -> Result<B>)
    ensures MapResult(xs, f).Ok? <==> forall i :: 0 <= i < |xs| ==> f(xs[i]).Ok?
    ensures MapResult(xs, f).Ok? ==> forall i :: 0 <= i < |xs| ==> f(xs[i]) == Ok(MapResult(xs, f).value[i])
  {
    if xs != [] {
      var tail := xs[1..];
      MapResultAt(tail, f);
      assert forall i :: 1 <= i < |xs| ==> xs[i] == tail[i - 1];
      if f(xs[0]).Ok? && MapResult(tail, f).Ok? {
        var ys := [f(xs[0]).value] + MapResult(tail, f).value;
        assert MapResult(xs, f) == Ok(ys);
        assert forall i :: 1 <= i < |xs| ==> ys[i] == MapResult(tail, f).value[i - 1];
      }
    }
  }

  /** A failing loop raises the exception of its first failing step. */
  lemma {:induction false} MapResultFirstError<A, B>(xs: seq<A>, f: A -> Result<B>)
    requires MapResult(xs, f).Err?
    ensures exists i :: 0 <= i < |xs| && f(xs[i]) == Err(MapResult(xs, f).error)
                        && forall j :: 0 <= j < i ==> f(xs[j]).Ok?
  {
    if f(xs[0]).Err? {
      assert f(xs[0]) == Err(MapResult(xs, f).error);
    } else {
      var tail := xs[1..];
      MapResultFirstError(tail, f);
      var i :| 0 <= i < |tail| && f(tail[i]) == Err(MapResult(tail, f).error)
                && forall j :: 0 <= j < i ==> f(tail[j]).Ok?;
      assert xs[i + 1] == tail[i];
      assert forall j :: 1 <= j < i + 1 ==> xs[j] == tail[j - 1];
    }
  }

  /** A loop whose every step keeps its element returns the list unchanged. */
  lemma {:induction false} MapResultIdentity<A>(xs: seq<A>, f: A -> Result<A>)
    requires forall i :: 0 <= i < |xs| ==> f(xs[i]) == Ok(xs[i])
    ensures MapResult(xs, f) == Ok(xs)
  {
    if xs != [] {
      var tail := xs[1..];
      assert forall i :: 0 <= i < |tail| ==> tail[i] == xs[i + 1];
      MapResultIdentity(tail, f);
      assert [xs[0]] + tail == xs;
    }
  }

  /** Every step of `f` over `xs` succeeds. */
  predicate AllOk<A, B>(xs: seq<A>, f: A -> Result<B>) {
    forall i :: 0 <= i < |xs| ==> f(xs[i]).Ok?
  }

  /** `ys` holds the result of each step of `f` over `xs`, position by position. */
  ghost predicate Pointwise<A, B>(xs: seq<A>, ys: seq<B>, f: A -> Result<B>) {
    |xs| == |ys| && forall i :: 0 <= i < |xs| ==> f(xs[i]) == Ok(ys[i])
  }

  lemma AllOkAppend<A, B>(a: seq<A>, b: seq<A>, f: A -> Result<B>)
    ensures AllOk(a + b, f) <==> AllOk(a, f) && AllOk(b, f)
  {
    assert forall i :: 0 <= i < |b| ==> (a + b)[|a| + i] == b[i];
    assert forall i :: 0 <= i < |a| ==> (a + b)[i] == a[i];
  }

  lemma PointwiseAppend<A, B>(a: seq<A>, b: seq<A>, x: seq<B>, y: seq<B>, f: A -> Result<B>)
    requires Pointwise(a, x, f) && Pointwise(b, y, f)
    ensures Pointwise(a + b, x + y, f)
  {
    assert forall i :: |a| <= i < |a + b| ==> (a + b)[i] == b[i - |a|] && (x + y)[i] == y[i - |a|];
  }
}

=== FILE: roles.dfy ===
/** The `security roles get` command (esctl/cmd/roles.py): the roles of the
    native realm, in ascending order of role name, each led by its name and
    with its cluster permissions joined for display. */
module RoleCommands {
  import opened Results
  import opened Json
  import opened Assoc
  import opened Commands
  import opened Formatter
  import Ordering

  const ROLE: string := "role"
  const CLUSTER: string := "cluster"

  /** The five columns of the listing; two carry their own label. */
  const RoleColumns: seq<ColumnArg> := [
    Tuple1(ROLE),
    Tuple2(CLUSTER, "Cluster-level permissions"),
    Tuple2("indices", "Index-level permissions"),
    Tuple1("applications"),
    Tuple1("run_as")
  ]

  /** One role of `SecurityRolesGet.transform`: the cluster permissions are
      joined with `", "`, and the row is `{"role": name, **definition}`. A
      definition that is not a dictionary has no `get`; permissions that are
      not an iterable of strings do not join. */
  function RoleEntry(role: (string, Json)): (r: Result<Obj>)
    ensures !role.1.JObj? ==> r == Err(AttributeError)
    ensures role.1.JObj? ==> (r.Ok? <==> PyJoin(", ", Get(role.1.fields, CLUSTER)).Ok?)
    ensures r.Ok? ==> |r.value| > 0 && r.value[0].0 == ROLE
    ensures r.Ok? ==> forall k :: HasKey(r.value, k) <==> k == ROLE || k == CLUSTER || HasKey(role.1.fields, k)
  {
    match role.1
    case JObj(definition) =>
      var cluster :- PyJoin(", ", Get(definition, CLUSTER));
      var joined := Put(definition, CLUSTER, JStr(cluster));
      var r := PutAll([(ROLE, JStr(role.0))], joined);
      assert Keys(r)[..1] == [ROLE] by {
        PutAllKeepsOrder([(ROLE, JStr(role.0))], joined);
      }
      assert forall k :: HasKey(r, k) <==> k == ROLE || k == CLUSTER || HasKey(definition, k) by {
        forall k ensures HasKey(r, k) <==> k == ROLE || k == CLUSTER || HasKey(definition, k) {
          PutAllHasKey([(ROLE, JStr(role.0))], joined, k);
          PutHasKey(definition, CLUSTER, JStr(cluster), k);
        }
      }
      Ok(r)
    case _ => Err(AttributeError)
  }

  /** In a row, `role` is the role's name unless the definition has its own
      `role`, which wins; `cluster` is the joined permissions; every other
      key of the definition is carried over. */
  lemma RoleEntryFields(role: (string, Json), k: string)
    requires RoleEntry(role).Ok? && DistinctKeys(role.1.fields)
    ensures var r := RoleEntry(role).value;
            var definition := role.1.fields;
            Lookup(r, ROLE) == (if HasKey(definition, ROLE) then Lookup(definition, ROLE) else Some(JStr(role.0))) &&
            Lookup(r, CLUSTER) == Some(JStr(PyJoin(", ", Get(definition, CLUSTER)).value)) &&
            (k != ROLE && k != CLUSTER ==> Lookup(r, k) == Lookup(definition, k))
  {
    var definition := role.1.fields;
    var cluster := PyJoin(", ", Get(definition, CLUSTER)).value;
    var joined := Put(definition, CLUSTER, JStr(cluster));
    var lead := [(ROLE, JStr(role.0))];
    assert RoleEntry(role).value == PutAll(lead, joined);
    assert ROLE[0] != CLUSTER[0];
    PutAllDictLookup(lead, joined, ROLE);
    PutAllDictLookup(lead, joined, CLUSTER);
    PutAllDictLookup(lead, joined, k);
    PutLookup(definition, CLUSTER, JStr(cluster), ROLE);
    PutLookup(definition, CLUSTER, JStr(cluster), CLUSTER);
    PutLookup(definition, CLUSTER, JStr(cluster), k);
  }

  /** `SecurityRolesGet.take_action`'s rows: the response put in order,
      then every role transformed. */
  function RolesGet(response: Obj): (r: Result<seq<Obj>>)
    ensures r.Ok? ==> |r.value| == |SortAndOrder(response)|
  {
    MapResult(SortAndOrder(response), RoleEntry)
  }

  /** The rows come in ascending order of role name... */
  lemma RolesGetAscending(response: Obj, i: nat, j: nat)
    requires DistinctKeys(response) && RolesGet(response).Ok?
    requires i < j < |RolesGet(response).value|
    ensures var sorted := SortAndOrder(response);
            RoleEntry(sorted[i]) == Ok(RolesGet(response).value[i]) &&
            Ordering.LexLess(sorted[i].0, sorted[j].0)
  {
    SortedRowsAscending(response, RoleEntry, i, j);
  }

  /** ... every role of the response has its row, and the listing fails
      exactly when some role does not transform. */
  lemma RolesGetCover(response: Obj, name: string)
    requires DistinctKeys(response)
    ensures RolesGet(response).Ok? <==>
              forall i :: 0 <= i < |SortAndOrder(response)| ==> RoleEntry(SortAndOrder(response)[i]).Ok?
    ensures RolesGet(response).Ok? && HasKey(response, name) ==>
              exists i :: 0 <= i < |RolesGet(response).value| &&
                          RoleEntry((name, Lookup(response, name).value)) == Ok(RolesGet(response).value[i])
  {
    MapResultAt(SortAndOrder(response), RoleEntry);
    if RolesGet(response).Ok? && HasKey(response, name) {
      SortedRowsCover(response, RoleEntry, name);
    }
  }

  /** The two given labels head the permission columns. */
  lemma RoleLabels(roles: seq<Obj>)
    ensures |FormatForLister(roles, RoleColumns).headers| == 5
    ensures FormatForLister(roles, RoleColumns).headers[1] == "Cluster-level permissions"
    ensures FormatForLister(roles, RoleColumns).headers[2] == "Index-level permissions"
  {
    var cols := RoleColumns;
    assert cols[1] == Tuple2(CLUSTER, "Cluster-level permissions");
    assert cols[2] == Tuple2("indices", "Index-level permissions");
    assert FormatForLister(roles, cols).headers[1] == FormatColumns(cols)[1].name;
    assert FormatForLister(roles, cols).headers[2] == FormatColumns(cols)[2].name;
  }

  /** Only those two columns are given their label. */
  lemma RoleDerivedLabels(j: nat)
    requires j < |RoleColumns|
    ensures RoleColumns[j].Tuple2? <==> j == 1 || j == 2
  {
  }
}

=== FILE: settings.dfy ===
/** Cluster-level and index-level settings resolution (esctl/settings.py).

    The Elasticsearch responses are inputs: `ClusterGet` and `MGet` take the
    body of `GET _cluster/settings?include_defaults&flat_settings` (an object
    holding the `persistent`, `transient` and `defaults` tiers), and
    `IndexList`/`IndexGet` take the body of `GET <index>/_settings` with the
    same flags (an object from index name to its `settings` and `defaults`). */
module Settings {
  import opened Results
  import opened Assoc
  import opened Json
  import Text
  import Glob

  const TRANSIENT: string := "transient"
  const PERSISTENT: string := "persistent"
  const DEFAULTS: string := "defaults"
  const SETTINGS: string := "settings"

  /** Python `Setting(name, value, persistency)`; `value` is `JNull` for `None`. */
  datatype Setting = Setting(name: string, value: Json, persistency: string)

  /** Python `Setting(name, value)`: the persistency defaults to `defaults`. */
  function NewSetting(name: string, value: Json): (r: Setting)
    ensures r.name == name && r.value == value && r.persistency == DEFAULTS
  {
    Setting(name, value, DEFAULTS)
  }

  /** Python `str(setting)`: `name=value(persistency)`. */
  function SettingText(s: Setting): (r: string)
    ensures Text.StartsWith(r, s.name + "=")
    ensures |r| == |s.name| + 1 + |ToText(s.value)| + |s.persistency| + 2
    ensures r[|s.name| + 1..|s.name| + 1 + |ToText(s.value)|] == ToText(s.value)
    ensures r[|s.name| + 1 + |ToText(s.value)|] == '('
    ensures r[|s.name| + 2 + |ToText(s.value)|..|r| - 1] == s.persistency
    ensures r[|r| - 1] == ')'
  {
    s.name + "=" + ToText(s.value) + "(" + s.persistency + ")"
  }

  /** The name of a setting is the text before the first `=` when it has none. */
  lemma SettingTextName(s: Setting)
    requires '=' !in s.name
    ensures Text.Split(SettingText(s), '=')[0] == s.name
  {
    var t := SettingText(s);
    var rest := ToText(s.value) + "(" + s.persistency + ")";
    assert t == s.name + ['='] + rest;
    Text.SplitFirst(s.name, rest, '=');
  }

  // ---------------------------------------------------------------------------
  // ClusterSettings
  // ---------------------------------------------------------------------------

  /** The entries of one tier of the cluster response, when it is an object. */
  predicate IsTier(settings: Obj, persistency: string) {
    Get(settings, persistency).JObj?
  }

  function Tier(settings: Obj, persistency: string): Obj
    requires IsTier(settings, persistency)
  {
    Get(settings, persistency).fields
  }

  /** Python `ClusterSettings.get(key, persistency)`: the requested tier
      first, then `defaults`, then a setting with no value. `key in None`
      (a missing tier) raises `TypeError`. */
  function ClusterGet(settings: Obj, key: string, persistency: string): (r: Result<Setting>)
    ensures IsTier(settings, persistency) && HasKey(Tier(settings, persistency), key) ==>
              r == Ok(Setting(key, Lookup(Tier(settings, persistency), key).value, persistency))
    ensures IsTier(settings, persistency) && !HasKey(Tier(settings, persistency), key) &&
            IsTier(settings, DEFAULTS) && HasKey(Tier(settings, DEFAULTS), key) ==>
              r == Ok(Setting(key, Lookup(Tier(settings, DEFAULTS), key).value, DEFAULTS))
    ensures IsTier(settings, persistency) && !HasKey(Tier(settings, persistency), key) &&
            IsTier(settings, DEFAULTS) && !HasKey(Tier(settings, DEFAULTS), key) ==>
              r == Ok(NewSetting(key, JNull))
    ensures Get(settings, persistency).JNull? ==> r == Err(TypeError)
  {
    var tier := Get(settings, persistency);
    var present :- PyContains(tier, key);
    if present then
      var v :- PyGet(tier, key);
      Ok(Setting(key, v, persistency))
    else
      var defaults := Get(settings, DEFAULTS);
      var inDefaults :- PyContains(defaults, key);
      if inDefaults then
        var v :- PyGet(defaults, key);
        Ok(Setting(key, v, DEFAULTS))
      else
        Ok(NewSetting(key, JNull))
  }

  /** Python `ClusterSettings.__get_setting_for_persistency`: one tier, no
      fallback. */
  function ForPersistency(settings: Obj, key: string, persistency: string): (r: Result<Setting>)
    ensures IsTier(settings, persistency) ==> r.Ok? && r.value.name == key
    ensures IsTier(settings, persistency) && HasKey(Tier(settings, persistency), key) ==>
              r.value == Setting(key, Lookup(Tier(settings, persistency), key).value, persistency)
    ensures IsTier(settings, persistency) && !HasKey(Tier(settings, persistency), key) ==>
              r.value == NewSetting(key, JNull)
    ensures Get(settings, persistency).JNull? ==> r == Err(TypeError)
  {
    var tier := Get(settings, persistency);
    var present :- PyContains(tier, key);
    if present then
      var v :- PyGet(tier, key);
      Ok(Setting(key, v, persistency))
    else
      Ok(NewSetting(key, JNull))
  }

  /** The response holds the three tiers, each an object. */
  predicate WellFormedCluster(settings: Obj) {
    IsTier(settings, TRANSIENT) && IsTier(settings, PERSISTENT) && IsTier(settings, DEFAULTS)
  }

  /** Python `ClusterSettings.mget(key)`: the key resolved in each tier. */
  function MGet(settings: Obj, key: string): (r: Result<seq<(string, Setting)>>)
    ensures r.Ok? ==> Keys(r.value) == [TRANSIENT, PERSISTENT, DEFAULTS]
    ensures WellFormedCluster(settings) ==> r.Ok?
  {
    var t :- ForPersistency(settings, key, TRANSIENT);
    var p :- ForPersistency(settings, key, PERSISTENT);
    var d :- ForPersistency(settings, key, DEFAULTS);
    Ok([(TRANSIENT, t), (PERSISTENT, p), (DEFAULTS, d)])
  }

  /** Each `mget` entry comes from its own tier only: a key missing from a
      tier has no value there, even when `defaults` holds it. */
  lemma MGetNoFallback(settings: Obj, key: string, p: string)
    requires WellFormedCluster(settings)
    requires p in [TRANSIENT, PERSISTENT, DEFAULTS]
    ensures Lookup(MGet(settings, key).value, p) == Some(ForPersistency(settings, key, p).value)
    ensures !HasKey(Tier(settings, p), key) ==>
              Lookup(MGet(settings, key).value, p) == Some(NewSetting(key, JNull))
  {
  }

  /** `get` is `mget`'s entry for the requested tier when that tier holds the
      key, and otherwise `mget`'s `defaults` entry. */
  lemma ClusterGetIsMGetWithFallback(settings: Obj, key: string, p: string)
    requires WellFormedCluster(settings)
    requires p == TRANSIENT || p == PERSISTENT
    ensures HasKey(Tier(settings, p), key) ==>
              ClusterGet(settings, key, p) == Ok(Lookup(MGet(settings, key).value, p).value)
    ensures !HasKey(Tier(settings, p), key) ==>
              ClusterGet(settings, key, p) == Ok(Lookup(MGet(settings, key).value, DEFAULTS).value)
  {
    MGetNoFallback(settings, key, p);
    MGetNoFallback(settings, key, DEFAULTS);
  }

  /** The cluster response used by the settings tests. */
  function TestClusterSettings(): Obj {
    [("persistent", JObj([("thread_pool.estimated_time_interval", JStr("200ms")),
                          ("cluster.routing.allocation.allow_rebalance", JStr("indices_all_active"))])),
     ("transient", JObj([("thread_pool.estimated_time_interval", JStr("100ms")),
                         ("cluster.routing.allocation.allow_rebalance", JStr("always"))])),
     ("defaults", JObj([("cluster.routing.allocation.disk.watermark.high", JStr("90%"))]))]
  }

  /** Cluster settings test: the transient tier's own value. */
  lemma ClusterGetTransientExample()
    ensures ClusterGet(TestClusterSettings(), "thread_pool.estimated_time_interval", TRANSIENT)
              == Ok(Setting("thread_pool.estimated_time_interval", JStr("100ms"), TRANSIENT))
  {
    var t := TestClusterSettings()[1].1.fields;
    assert Tier(TestClusterSettings(), TRANSIENT) == t;
    assert t[0].0 == "thread_pool.estimated_time_interval";
  }

  /** Cluster settings test: the persistent tier's own value. */
  lemma ClusterGetPersistentExample()
    ensures ClusterGet(TestClusterSettings(), "thread_pool.estimated_time_interval", PERSISTENT)
              == Ok(Setting("thread_pool.estimated_time_interval", JStr("200ms"), PERSISTENT))
  {
    var t := TestClusterSettings()[0].1.fields;
    assert Tier(TestClusterSettings(), PERSISTENT) == t;
    assert t[0].0 == "thread_pool.estimated_time_interval";
  }

  /** Cluster settings test: a key only in `defaults` falls back to it. */
  lemma ClusterGetDefaultsExample()
    ensures ClusterGet(TestClusterSettings(), "cluster.routing.allocation.disk.watermark.high", TRANSIENT)
              == Ok(Setting("cluster.routing.allocation.disk.watermark.high", JStr("90%"), DEFAULTS))
  {
    var s := TestClusterSettings();
    var k := "cluster.routing.allocation.disk.watermark.high";
    assert Tier(s, TRANSIENT) == s[1].1.fields;
    assert Keys(s[1].1.fields) == ["thread_pool.estimated_time_interval", "cluster.routing.allocation.allow_rebalance"];
    assert !HasKey(Tier(s, TRANSIENT), k);
    assert Tier(s, DEFAULTS) == s[2].1.fields;
  }

  /** Cluster settings test: an unknown key has no value. */
  lemma ClusterGetUnknownExample()
    ensures ClusterGet(TestClusterSettings(), "cluster.routing.allocation.foobar", TRANSIENT)
              == Ok(NewSetting("cluster.routing.allocation.foobar", JNull))
  {
    var s := TestClusterSettings();
    var k := "cluster.routing.allocation.foobar";
    assert Tier(s, TRANSIENT) == s[1].1.fields;
    assert Keys(s[1].1.fields) == ["thread_pool.estimated_time_interval", "cluster.routing.allocation.allow_rebalance"];
    assert !HasKey(Tier(s, TRANSIENT), k);
    assert Tier(s, DEFAULTS) == s[2].1.fields;
    assert Keys(s[2].1.fields) == ["cluster.routing.allocation.disk.watermark.high"];
    assert !HasKey(Tier(s, DEFAULTS), k);
  }

  /** The request body of `ClusterSettings.set`: `{persistency: {name: value}}`. */
  function SetBody(name: string, value: Json, persistency: string): (r: Obj)
    ensures Keys(r) == [persistency]
    ensures Lookup(r, persistency) == Some(JObj([(name, value)]))
  {
    [(persistency, JObj([(name, value)]))]
  }

  /** The body carries the value back to `get`: applied as the requested tier
      of a snapshot, `get` on that tier reads the value that was sent. */
  lemma SetBodyReadBack(name: string, value: Json, p: string, defaults: Obj)
    ensures ClusterGet(SetBody(name, value, p) + [(DEFAULTS, JObj(defaults))], name, p)
              == Ok(Setting(name, value, p))
  {
    var settings := SetBody(name, value, p) + [(DEFAULTS, JObj(defaults))];
    assert Get(settings, p) == JObj([(name, value)]);
    assert HasKey([(name, value)], name);
  }

  // ---------------------------------------------------------------------------
  // IndexSettings
  // ---------------------------------------------------------------------------

  /** Settings by name. */
  type SettingMap = seq<(string, Setting)>

  /** Python `v.items()`: only a dict has it. */
  function ItemsOf(v: Json): (r: Result<Obj>)
    ensures v.JObj? <==> r.Ok?
    ensures v.JObj? ==> r.value == v.fields
    ensures r.Err? ==> r.error == AttributeError
  {
    match v
    case JObj(f) => Ok(f)
    case _ => Err(AttributeError)
  }

  /** Every entry becomes a `Setting` of the given tier. */
  function Tagged(ps: Obj, tier: string): (r: SettingMap)
    ensures |r| == |ps|
    ensures forall i :: 0 <= i < |ps| ==> r[i] == (ps[i].0, Setting(ps[i].0, ps[i].1, tier))
  {
    if ps == [] then [] else [(ps[0].0, Setting(ps[0].0, ps[0].1, tier))] + Tagged(ps[1..], tier)
  }

  /** The settings of one index: first its `settings` entries, then its
      `defaults` entries, assigned one by one into a fresh dictionary. */
  function IndexEntry(indexSettings: Json): (r: Result<SettingMap>)
    ensures r.Ok? <==> WellFormedIndex(indexSettings)
    ensures r.Err? ==> r.error == AttributeError
  {
    match indexSettings
    case JObj(f) =>
      var explicit :- ItemsOf(Get(f, SETTINGS));
      var defaults :- ItemsOf(Get(f, DEFAULTS));
      Ok(PutAll(PutAll([], Tagged(explicit, SETTINGS)), Tagged(defaults, DEFAULTS)))
    case _ => Err(AttributeError)
  }

  /** The per-index shape `list_` relies on. */
  predicate WellFormedIndex(v: Json) {
    v.JObj? && Get(v.fields, SETTINGS).JObj? && Get(v.fields, DEFAULTS).JObj?
  }

  /** Python `IndexSettings.list_(index)` over the response: a dictionary
      from index name to its settings. */
  function IndexList(response: Obj): (r: Result<seq<(string, SettingMap)>>)
    ensures r.Err? ==> r.error == AttributeError
  {
    if response == [] then Ok([])
    else
      var front :- IndexList(response[..|response| - 1]);
      var last := response[|response| - 1];
      var m :- IndexEntry(last.1);
      Ok(Put(front, last.0, m))
  }

  /** One step of `list_`: the last index is assigned last. */
  lemma IndexListSnoc(response: Obj)
    requires response != []
    ensures var front := response[..|response| - 1];
            var last := response[|response| - 1];
            IndexList(response) ==
              if IndexList(front).Err? then IndexList(front)
              else if IndexEntry(last.1).Err? then Err(AttributeError)
              else Ok(Put(IndexList(front).value, last.0, IndexEntry(last.1).value))
  {
  }

  /** Every index of the response carries objects of settings and defaults. */
  predicate AllWellFormed(response: Obj) {
    forall i :: 0 <= i < |response| ==> WellFormedIndex(response[i].1)
  }

  /** `list_` fails exactly when some index lacks an object of settings or
      of defaults. */
  lemma {:induction false} IndexListOk(response: Obj)
    ensures IndexList(response).Ok? <==> AllWellFormed(response)
  {
    if response != [] {
      IndexListOk(response[..|response| - 1]);
      IndexListSnoc(response);
      AllWellFormedSnoc(response);
    }
  }

  lemma AllWellFormedSnoc(response: Obj)
    requires response != []
    ensures AllWellFormed(response) <==>
              AllWellFormed(response[..|response| - 1]) && WellFormedIndex(response[|response| - 1].1)
  {
    AllValuesSnoc(response, response[..|response| - 1], WellFormedIndex);
  }

  lemma AllValuesSnoc(d: Obj, front: Obj, p: Json -> bool)
    requires d != [] && front == d[..|d| - 1]
    ensures (forall i :: 0 <= i < |d| ==> p(d[i].1)) <==>
              (forall i :: 0 <= i < |front| ==> p(front[i].1)) && p(d[|d| - 1].1)
  {
    assert forall i :: 0 <= i < |front| ==> front[i] == d[i];
  }

  lemma TaggedLastLookup(ps: Obj, tier: string, k: string)
    ensures LastLookup(Tagged(ps, tier), k) ==
              match LastLookup(ps, k)
              case Some(v) => Some(Setting(k, v, tier))
              case None => None
  {
    if ps != [] {
      var t := Tagged(ps, tier);
      assert t[..|t| - 1] == Tagged(ps[..|ps| - 1], tier);
      TaggedLastLookup(ps[..|ps| - 1], tier, k);
    }
  }

  /** A name in `defaults` reads its default, tagged `defaults`, even when
      `settings` holds it too; a name only in `settings` is tagged `settings`. */
  lemma IndexEntryLookup(indexSettings: Json, name: string)
    requires WellFormedIndex(indexSettings)
    ensures var explicit := Get(indexSettings.fields, SETTINGS).fields;
            var defaults := Get(indexSettings.fields, DEFAULTS).fields;
            Lookup(IndexEntry(indexSettings).value, name) ==
              if HasKey(defaults, name) then Some(Setting(name, LastLookup(defaults, name).value, DEFAULTS))
              else if HasKey(explicit, name) then Some(Setting(name, LastLookup(explicit, name).value, SETTINGS))
              else None
  {
    var explicit := Get(indexSettings.fields, SETTINGS).fields;
    var defaults := Get(indexSettings.fields, DEFAULTS).fields;
    var first := PutAll([], Tagged(explicit, SETTINGS));
    PutAllLookup(first, Tagged(defaults, DEFAULTS), name);
    PutAllLookup([], Tagged(explicit, SETTINGS), name);
    TaggedLastLookup(explicit, SETTINGS, name);
    TaggedLastLookup(defaults, DEFAULTS, name);
  }

  /** `list_` keeps the response's index names, once each. */
  lemma {:induction false} IndexListKeys(response: Obj)
    requires IndexList(response).Ok?
    ensures Keys(IndexList(response).value) == Keys(PutAll([], response))
    ensures DistinctKeys(IndexList(response).value)
  {
    if response != [] {
      var front := response[..|response| - 1];
      var last := response[|response| - 1];
      IndexListKeys(front);
      IndexListSnoc(response);
      PutAllSnoc([], response);
      PutAllDistinct([], front);
      var m := IndexEntry(last.1).value;
      assert IndexList(response).value == Put(IndexList(front).value, last.0, m);
      assert HasKey(IndexList(front).value, last.0) <==> HasKey(PutAll([], front), last.0);
    }
  }

  /** `list_` maps each index to the settings of its last response entry. */
  lemma {:induction false} IndexListLookup(response: Obj, index: string)
    requires IndexList(response).Ok?
    ensures Lookup(IndexList(response).value, index) ==
              match LastLookup(response, index)
              case Some(v) => (match IndexEntry(v) case Ok(m) => Some(m) case Err(_) => None)
              case None => None
  {
    if response != [] {
      var front := response[..|response| - 1];
      var last := response[|response| - 1];
      IndexListLookup(front, index);
      IndexListSnoc(response);
      var m := IndexEntry(last.1).value;
      PutLookup(IndexList(front).value, last.0, m, index);
    }
  }

  /** Which names a pattern asks for: a glob over the known names, else a
      comma-separated list, else the one name. */
  function Requested(key: string, known: seq<string>): (r: seq<string>)
    ensures |r| >= 1 || '*' in key
  {
    if '*' in key then Glob.Filter(known, key)
    else if ',' in key then Text.Split(key, ',')
    else [key]
  }

  /** With a `*`, exactly the known names that match, in known-name order. */
  lemma RequestedGlob(key: string, known: seq<string>, x: string, before: seq<string>, after: seq<string>)
    requires '*' in key
    ensures x in Requested(key, known) <==> x in known && Glob.Match(key, x)
    ensures Requested(key, before + after) == Requested(key, before) + Requested(key, after)
  {
    Glob.FilterMembership(known, key, x);
    Glob.FilterAppend(before, after, key);
  }

  /** Without a `*` but with a comma, the pieces between commas, in order,
      whether or not the names are known (the glob branch wins over this one). */
  lemma RequestedList(key: string, known: seq<string>)
    requires '*' !in key && ',' in key
    ensures Text.Join(Requested(key, known), ",") == key
    ensures forall i :: 0 <= i < |Requested(key, known)| ==> ',' !in Requested(key, known)[i]
  {
    Text.JoinSplit(key, ',');
    Text.SplitPiecesOmitSeparator(key, ',');
  }

  /** Otherwise the pattern is the one name asked for. */
  lemma RequestedSingle(key: string, known: seq<string>)
    requires '*' !in key && ',' !in key
    ensures Requested(key, known) == [key]
  {
  }

  /** One index's answer: for each requested name its setting in this index
      when the first index knows the name (`None` if this index lacks it),
      otherwise a valueless setting. */
  function Answers(m: SettingMap, known: seq<string>, requested: seq<string>): (r: seq<Option<Setting>>)
    ensures |r| == |requested|
    ensures forall j :: 0 <= j < |requested| ==>
              r[j] == if requested[j] in known then Lookup(m, requested[j])
                      else Some(NewSetting(requested[j], JNull))
  {
    if requested == [] then []
    else
      var name := requested[0];
      [if name in known then Lookup(m, name) else Some(NewSetting(name, JNull))]
        + Answers(m, known, requested[1..])
  }

  function AnswersPerIndex(listed: seq<(string, SettingMap)>, known: seq<string>, requested: seq<string>)
    : (r: seq<(string, seq<Option<Setting>>)>)
    ensures |r| == |listed|
    ensures forall i :: 0 <= i < |listed| ==> r[i] == (listed[i].0, Answers(listed[i].1, known, requested))
  {
    if listed == [] then []
    else [(listed[0].0, Answers(listed[0].1, known, requested))] + AnswersPerIndex(listed[1..], known, requested)
  }

  /** Python `IndexSettings.get(index, key)` over the response. The known
      names are those of the first index (`[...][0]` raises `IndexError` on
      an empty response); `"*" in None` raises `TypeError`. `list_` returns a
      dictionary, so each index is assigned its list exactly once. */
  function IndexGet(response: Obj, key: Option<string>): (r: Result<seq<(string, seq<Option<Setting>>)>>)
    ensures IndexList(response).Err? ==> r == Err(AttributeError)
    ensures IndexList(response) == Ok([]) ==> r == Err(IndexError)
    ensures IndexList(response).Ok? && IndexList(response) != Ok([]) && key.None? ==> r == Err(TypeError)
    ensures r.Ok? ==> |r.value| == |IndexList(response).value|
  {
    var listed :- IndexList(response);
    if listed == [] then Err(IndexError)
    else
      var known := Keys(listed[0].1);
      match key
      case None => Err(TypeError)
      case Some(k) => Ok(AnswersPerIndex(listed, known, Requested(k, known)))
  }

  /** Every index answers with one entry per requested name, in order. */
  lemma IndexGetShape(response: Obj, key: string, i: nat, j: nat)
    requires IndexList(response).Ok? && IndexList(response).value != []
    requires IndexGet(response, Some(key)).Ok?
    requires i < |IndexList(response).value|
    ensures var listed := IndexList(response).value;
            var requested := Requested(key, Keys(listed[0].1));
            var r := IndexGet(response, Some(key)).value;
            r[i].0 == listed[i].0 && |r[i].1| == |requested| &&
            (j < |requested| ==>
               r[i].1[j] == (if HasKey(listed[0].1, requested[j]) then Lookup(listed[i].1, requested[j])
                             else Some(NewSetting(requested[j], JNull))))
  {
  }

  /** The known names come from the first index only: a name the first index
      lacks is answered without a value for every index, and a name the first
      index has but another lacks is answered `None` for that one. */
  lemma IndexGetFirstIndexOnly(response: Obj, key: string, i: nat, j: nat)
    requires IndexGet(response, Some(key)).Ok?
    requires i < |IndexGet(response, Some(key)).value|
    ensures var listed := IndexList(response).value;
            var requested := Requested(key, Keys(listed[0].1));
            var r := IndexGet(response, Some(key)).value;
            j < |requested| ==>
              (!HasKey(listed[0].1, requested[j]) ==> r[i].1[j] == Some(NewSetting(requested[j], JNull))) &&
              (HasKey(listed[0].1, requested[j]) && !HasKey(listed[i].1, requested[j]) ==> r[i].1[j] == None)
  {
    IndexGetShape(response, key, i, j);
  }

  /** An empty response has no first index. */
  lemma IndexGetEmpty(key: Option<string>)
    ensures IndexGet([], key) == Err(IndexError)
  {
  }

  /** The request body of `IndexSettings.set`: `{setting: value}`. */
  function IndexSetBody(setting: string, value: Json): (r: Obj)
    ensures Keys(r) == [setting]
    ensures Lookup(r, setting) == Some(value)
  {
    [(setting, value)]
  }
}

=== FILE: snapshot.dfy ===
/** The `snapshot list` command (esctl/cmd/snapshot.py): the snapshots of a
    repository, with partial and running snapshots coloured. */
module SnapshotCommands {
  import opened Results
  import opened Json
  import opened Assoc
  import opened Formatter
  import Utils

  const STATUS: string := "status"
  const FAILED_SHARDS: string := "failed_shards"

  /** The nine columns of `snapshot list`, all with derived labels. */
  const SnapshotColumns: seq<ColumnArg> := [
    Bare("id"),
    Bare(STATUS),
    Bare("start_time"),
    Bare("end_time"),
    Bare("duration"),
    Bare("indices"),
    Bare("successful_shards"),
    Bare(FAILED_SHARDS),
    Bare("total_shards")
  ]

  /** One snapshot of `SnapshotList.transform`: a `PARTIAL` status turns
      yellow and its failed shards red; an `IN_PROGRESS` status turns cyan;
      any other snapshot is left as it is. */
  function SnapshotEntry(snapshot: Obj): (r: Obj)
    ensures forall k :: k != STATUS && k != FAILED_SHARDS ==> Lookup(r, k) == Lookup(snapshot, k)
    ensures HasKey(snapshot, FAILED_SHARDS) ==> Keys(r) == Keys(snapshot)
  {
    var status := Get(snapshot, STATUS);
    if status == JStr("PARTIAL") then
      Utils.ColorKey(Utils.ColorKey(snapshot, STATUS, Utils.YELLOW), FAILED_SHARDS, Utils.RED)
    else if status == JStr("IN_PROGRESS") then
      Utils.ColorKey(snapshot, STATUS, Utils.CYAN)
    else
      snapshot
  }

  /** The colour rules, one status at a time. A partial snapshot without
      `failed_shards` gains the key, shown as a coloured `None`. */
  lemma SnapshotColors(snapshot: Obj)
    ensures var r := SnapshotEntry(snapshot);
            var status := Get(snapshot, STATUS);
            (status == JStr("PARTIAL") ==>
               Lookup(r, STATUS) == Some(JStr(Utils.Colorize(status, Utils.YELLOW))) &&
               Lookup(r, FAILED_SHARDS) == Some(JStr(Utils.Colorize(Get(snapshot, FAILED_SHARDS), Utils.RED)))) &&
            (status == JStr("IN_PROGRESS") ==>
               Lookup(r, STATUS) == Some(JStr(Utils.Colorize(status, Utils.CYAN))) &&
               Lookup(r, FAILED_SHARDS) == Lookup(snapshot, FAILED_SHARDS)) &&
            (status != JStr("PARTIAL") && status != JStr("IN_PROGRESS") ==> r == snapshot)
  {
    if Get(snapshot, STATUS) == JStr("PARTIAL") {
      var first := Utils.ColorKey(snapshot, STATUS, Utils.YELLOW);
      assert Lookup(first, STATUS) == Some(JStr(Utils.Colorize(Get(snapshot, STATUS), Utils.YELLOW)));
      assert Get(first, FAILED_SHARDS) == Get(snapshot, FAILED_SHARDS);
    }
  }

  /** In a snapshot that has both keys, a partial status and its failed
      shards are coloured where they stand... */
  lemma SnapshotPartialInPlace(snapshot: Obj, i: nat, k: nat)
    requires DistinctKeys(snapshot) && i < |snapshot| && k < |snapshot|
    requires snapshot[i] == (STATUS, JStr("PARTIAL")) && snapshot[k].0 == FAILED_SHARDS
    ensures SnapshotEntry(snapshot)
            == snapshot[i := (STATUS, JStr(Utils.Colorize(JStr("PARTIAL"), Utils.YELLOW)))]
                       [k := (FAILED_SHARDS, JStr(Utils.Colorize(snapshot[k].1, Utils.RED)))]
  {
    LookupAt(snapshot, i);
    Utils.ColorKeyAt(snapshot, i, Utils.YELLOW);
    var first := snapshot[i := (STATUS, JStr(Utils.Colorize(JStr("PARTIAL"), Utils.YELLOW)))];
    assert Keys(first) == Keys(snapshot);
    assert first[k] == snapshot[k];
    Utils.ColorKeyAt(first, k, Utils.RED);
  }

  /** ... and a running status is coloured where it stands. */
  lemma SnapshotInProgressInPlace(snapshot: Obj, i: nat)
    requires DistinctKeys(snapshot) && i < |snapshot|
    requires snapshot[i] == (STATUS, JStr("IN_PROGRESS"))
    ensures SnapshotEntry(snapshot)
            == snapshot[i := (STATUS, JStr(Utils.Colorize(JStr("IN_PROGRESS"), Utils.CYAN)))]
  {
    LookupAt(snapshot, i);
    Utils.ColorKeyAt(snapshot, i, Utils.CYAN);
  }

  /** The cases of the colouring test, for any failed-shards value: a
      successful snapshot is unchanged... */
  lemma SnapshotTestSuccess(failed: Json)
    ensures SnapshotEntry([(STATUS, JStr("SUCCESS")), (FAILED_SHARDS, failed)])
            == [(STATUS, JStr("SUCCESS")), (FAILED_SHARDS, failed)]
  {
  }

  /** ... a partial one has both values coloured... */
  lemma SnapshotTestPartial(failed: Json)
    ensures SnapshotEntry([(STATUS, JStr("PARTIAL")), (FAILED_SHARDS, failed)])
            == [(STATUS, JStr(Utils.Colorize(JStr("PARTIAL"), Utils.YELLOW))),
                (FAILED_SHARDS, JStr(Utils.Colorize(failed, Utils.RED)))]
  {
    var partial: Obj := [(STATUS, JStr("PARTIAL")), (FAILED_SHARDS, failed)];
    assert Keys(partial) == [STATUS, FAILED_SHARDS];
    SnapshotPartialInPlace(partial, 0, 1);
  }

  /** ... and a running one has only its status coloured. */
  lemma SnapshotTestInProgress(failed: Json)
    ensures SnapshotEntry([(STATUS, JStr("IN_PROGRESS")), (FAILED_SHARDS, failed)])
            == [(STATUS, JStr(Utils.Colorize(JStr("IN_PROGRESS"), Utils.CYAN))), (FAILED_SHARDS, failed)]
  {
    var running: Obj := [(STATUS, JStr("IN_PROGRESS")), (FAILED_SHARDS, failed)];
    assert Keys(running) == [STATUS, FAILED_SHARDS];
    SnapshotInProgressInPlace(running, 0);
  }

  /** `SnapshotList.transform`: every snapshot in order. */
  function SnapshotList(snapshots: seq<Obj>): (r: seq<Obj>)
    ensures |r| == |snapshots|
    ensures forall i :: 0 <= i < |snapshots| ==> r[i] == SnapshotEntry(snapshots[i])
  {
    seq(|snapshots|, i requires 0 <= i < |snapshots| => SnapshotEntry(snapshots[i]))
  }

  /** Snapshots that are neither partial nor running pass through the
      listing unchanged. */
  lemma SnapshotListSettled(snapshots: seq<Obj>)
    requires forall i :: 0 <= i < |snapshots| ==>
               Get(snapshots[i], STATUS) != JStr("PARTIAL") && Get(snapshots[i], STATUS) != JStr("IN_PROGRESS")
    ensures SnapshotList(snapshots) == snapshots
  {
    forall i | 0 <= i < |snapshots| ensures SnapshotList(snapshots)[i] == snapshots[i] {
      SnapshotColors(snapshots[i]);
    }
  }

  /** The listing has one row per snapshot under the nine columns, and each
      cell is the transformed snapshot's value. */
  lemma SnapshotListing(snapshots: seq<Obj>)
    ensures var listing := FormatForLister(SnapshotList(snapshots), SnapshotColumns);
            |listing.headers| == 9 && |listing.rows| == |snapshots| &&
            forall i, j :: 0 <= i < |snapshots| && 0 <= j < 9 ==>
              listing.rows[i][j] == Get(SnapshotEntry(snapshots[i]), SnapshotColumns[j].id)
  {
  }
}

=== FILE: task.dfy ===
/** The `task list` command (esctl/cmd/task.py): every task of every node
    of a `_tasks` response, flattened into one listing. */
module TaskCommands {
  import opened Results
  import opened Json
  import opened Assoc
  import opened Formatter

  const NODES: string := "nodes"
  const TASKS: string := "tasks"
  const NAME: string := "name"
  const PARENT_TASK_ID: string := "parent_task_id"
  const START_TIME: string := "start_time_in_millis"
  const START_TIME_READABLE: string := "start_time_human_readable"

  /** The ten columns of `task list`, all with derived labels. */
  const TaskColumns: seq<ColumnArg> := [
    Bare(NAME),
    Bare("node"),
    Bare("id"),
    Bare("type"),
    Bare("action"),
    Bare(START_TIME_READABLE),
    Bare("running_time_in_nanos"),
    Bare(PARENT_TASK_ID),
    Bare("cancellable"),
    Bare("headers")
  ]

  /** A task dictionary after the three assignments of the loop body: the
      task's keys stay first and in their order, and the only keys it gains
      are `name`, `parent_task_id` and `start_time_human_readable`. */
  function Completed(task: Obj, name: string, started: string): (r: Obj)
    ensures |Keys(task)| <= |Keys(r)| && Keys(r)[..|Keys(task)|] == Keys(task)
    ensures forall k :: HasKey(r, k) <==>
              HasKey(task, k) || k == NAME || k == PARENT_TASK_ID || k == START_TIME_READABLE
    ensures DistinctKeys(task) ==> DistinctKeys(r)
  {
    var named := Put(task, NAME, JStr(name));
    var parented := if HasKey(named, PARENT_TASK_ID) then named else Put(named, PARENT_TASK_ID, JStr(""));
    var r := Put(parented, START_TIME_READABLE, JStr(started));
    CompletedSteps(task, name, started, named, parented, r);
    r
  }

  /** The key facts of `Completed`, one assignment at a time. */
  lemma CompletedSteps(task: Obj, name: string, started: string, named: Obj, parented: Obj, r: Obj)
    requires named == Put(task, NAME, JStr(name))
    requires parented == if HasKey(named, PARENT_TASK_ID) then named else Put(named, PARENT_TASK_ID, JStr(""))
    requires r == Put(parented, START_TIME_READABLE, JStr(started))
    ensures |Keys(task)| <= |Keys(r)| && Keys(r)[..|Keys(task)|] == Keys(task)
    ensures forall k :: HasKey(r, k) <==>
              HasKey(task, k) || k == NAME || k == PARENT_TASK_ID || k == START_TIME_READABLE
  {
    var ks := Keys(task);
    assert ks[..|ks|] == ks;
    PutKeepsPrefix(task, NAME, JStr(name), ks);
    if !HasKey(named, PARENT_TASK_ID) {
      PutKeepsPrefix(named, PARENT_TASK_ID, JStr(""), ks);
    }
    PutKeepsPrefix(parented, START_TIME_READABLE, JStr(started), ks);
    forall k
      ensures HasKey(r, k) <==> HasKey(task, k) || k == NAME || k == PARENT_TASK_ID || k == START_TIME_READABLE
    {
      PutHasKey(task, NAME, JStr(name), k);
      PutHasKey(named, PARENT_TASK_ID, JStr(""), k);
      PutHasKey(parented, START_TIME_READABLE, JStr(started), k);
    }
  }

  /** The completed task reads its key as `name`, an existing
      `parent_task_id` or else an empty one, its readable start time, and
      every other key as before. */
  lemma CompletedLookup(task: Obj, name: string, started: string, k: string)
    ensures Lookup(Completed(task, name, started), k)
            == if k == START_TIME_READABLE then Some(JStr(started))
               else if k == PARENT_TASK_ID then
                 (if HasKey(task, PARENT_TASK_ID) then Lookup(task, PARENT_TASK_ID) else Some(JStr("")))
               else if k == NAME then Some(JStr(name))
               else Lookup(task, k)
  {
    assert NAME[0] != PARENT_TASK_ID[0] && NAME[0] != START_TIME_READABLE[0] && PARENT_TASK_ID[0] != START_TIME_READABLE[0];
    var named := Put(task, NAME, JStr(name));
    PutLookup(task, NAME, JStr(name), k);
    PutLookup(task, NAME, JStr(name), PARENT_TASK_ID);
    var parented := if HasKey(named, PARENT_TASK_ID) then named else Put(named, PARENT_TASK_ID, JStr(""));
    if !HasKey(named, PARENT_TASK_ID) {
      PutLookup(named, PARENT_TASK_ID, JStr(""), k);
    }
    PutLookup(parented, START_TIME_READABLE, JStr(started), k);
  }

  /** One task of `TaskList.transform`. `readable` stands for
      `convert_timestamp_in_ms_to_human_readable`, applied to the task's
      start time (which may be missing, and then it receives `None`). A task
      that is not a dictionary rejects the item assignment. */
  function TaskEntry(name: string, task: Json, readable: Json -> Result<string>): (r: Result<Obj>)
    ensures !task.JObj? ==> r == Err(TypeError)
    ensures task.JObj? ==> (r.Ok? <==> readable(Get(task.fields, START_TIME)).Ok?)
    ensures r.Ok? ==> r.value == Completed(task.fields, name, readable(Get(task.fields, START_TIME)).value)
  {
    match task
    case JObj(f) =>
      var named := Put(f, NAME, JStr(name));
      assert Get(named, START_TIME) == Get(f, START_TIME) by {
        PutLookup(f, NAME, JStr(name), START_TIME);
      }
      var started :- readable(Get(named, START_TIME));
      Ok(Completed(f, name, started))
    case _ => Err(TypeError)
  }

  /** A transformed task carries its key as `name`, keeps an existing
      `parent_task_id` and otherwise shows an empty one, shows its readable
      start time, and keeps every other key. */
  lemma TaskEntryFields(name: string, task: Json, readable: Json -> Result<string>, k: string)
    requires TaskEntry(name, task, readable).Ok?
    ensures var r := TaskEntry(name, task, readable).value;
            task.JObj? &&
            Lookup(r, NAME) == Some(JStr(name)) &&
            Lookup(r, PARENT_TASK_ID) == (if HasKey(task.fields, PARENT_TASK_ID) then Lookup(task.fields, PARENT_TASK_ID)
                                          else Some(JStr(""))) &&
            Lookup(r, START_TIME_READABLE) == Some(JStr(readable(Get(task.fields, START_TIME)).value)) &&
            (k != NAME && k != PARENT_TASK_ID && k != START_TIME_READABLE ==> Lookup(r, k) == Lookup(task.fields, k))
  {
    var started := readable(Get(task.fields, START_TIME)).value;
    CompletedLookup(task.fields, name, started, NAME);
    CompletedLookup(task.fields, name, started, PARENT_TASK_ID);
    CompletedLookup(task.fields, name, started, START_TIME_READABLE);
    CompletedLookup(task.fields, name, started, k);
  }

  /** A task as a step of the loop over a node's tasks. */
  function TaskStep(readable: Json -> Result<string>): (step: ((string, Json)) -> Result<Obj>) {
    (p: (string, Json)) => TaskEntry(p.0, p.1, readable)
  }

  /** The tasks of one node, in the order of its `tasks` dictionary. A node
      that is not a dictionary has no `get`, and `tasks` that is not one has
      no `items`. */
  function NodeTasks(node: Json, readable: Json -> Result<string>): (r: Result<seq<Obj>>)
    ensures r.Ok? ==> node.JObj? && Get(node.fields, TASKS).JObj?
    ensures r.Ok? ==> |r.value| == |Get(node.fields, TASKS).fields|
  {
    match node
    case JObj(f) =>
      (match Get(f, TASKS)
       case JObj(tasks) => MapResult(tasks, TaskStep(readable))
       case _ => Err(AttributeError))
    case _ => Err(AttributeError)
  }

  /** The two nested loops of `TaskList.transform` over the nodes of the
      response, node after node. */
  function NodesTasks(nodes: Obj, readable: Json -> Result<string>): (r: Result<seq<Obj>>)
    ensures r.Ok? ==> |r.value| == |TaskPairs(nodes)|
  {
    if nodes == [] then Ok([])
    else
      var first :- NodeTasks(nodes[0].1, readable);
      var rest :- NodesTasks(nodes[1..], readable);
      Ok(first + rest)
  }

  /** `TaskList.transform(response.get("nodes"))`: `None` or any other
      non-dictionary has no `items`. */
  function TaskList(response: Obj, readable: Json -> Result<string>): (r: Result<seq<Obj>>)
    ensures !Get(response, NODES).JObj? ==> r == Err(AttributeError)
    ensures r.Ok? ==> |r.value| == |TaskPairs(Get(response, NODES).fields)|
  {
    match Get(response, NODES)
    case JObj(nodes) => NodesTasks(nodes, readable)
    case _ => Err(AttributeError)
  }

  // ---------------------------------------------------------------------------
  // The reference: every (task name, task) pair the loops visit
  // ---------------------------------------------------------------------------

  /** The tasks dictionary of a well-formed node. */
  function NodeTaskPairs(node: Json): Obj {
    if node.JObj? && Get(node.fields, TASKS).JObj? then Get(node.fields, TASKS).fields else []
  }

  /** The (task name, task) pairs of all nodes, node after node. */
  function TaskPairs(nodes: Obj): seq<(string, Json)> {
    if nodes == [] then [] else NodeTaskPairs(nodes[0].1) + TaskPairs(nodes[1..])
  }

  /** Every node is a dictionary whose `tasks` is a dictionary. */
  predicate WellFormedNodes(nodes: Obj) {
    forall i :: 0 <= i < |nodes| ==> nodes[i].1.JObj? && Get(nodes[i].1.fields, TASKS).JObj?
  }

  lemma WellFormedCons(nodes: Obj)
    requires nodes != []
    ensures WellFormedNodes(nodes) <==>
              nodes[0].1.JObj? && Get(nodes[0].1.fields, TASKS).JObj? && WellFormedNodes(nodes[1..])
  {
    assert forall i :: 1 <= i < |nodes| ==> nodes[i] == nodes[1..][i - 1];
  }

  /** One node's tasks are its task pairs, each transformed. */
  lemma NodeTasksAt(node: Json, readable: Json -> Result<string>)
    ensures NodeTasks(node, readable).Ok? <==>
              node.JObj? && Get(node.fields, TASKS).JObj? && AllOk(NodeTaskPairs(node), TaskStep(readable))
    ensures NodeTasks(node, readable).Ok? ==> Pointwise(NodeTaskPairs(node), NodeTasks(node, readable).value, TaskStep(readable))
  {
    if node.JObj? && Get(node.fields, TASKS).JObj? {
      MapResultAt(NodeTaskPairs(node), TaskStep(readable));
    }
  }

  /** The loops succeed exactly when every node is well formed and every
      task transforms. */
  lemma {:induction false} NodesTasksOk(nodes: Obj, readable: Json -> Result<string>)
    ensures NodesTasks(nodes, readable).Ok? <==> WellFormedNodes(nodes) && AllOk(TaskPairs(nodes), TaskStep(readable))
  {
    if nodes != [] {
      var tail := nodes[1..];
      NodeTasksAt(nodes[0].1, readable);
      NodesTasksOk(tail, readable);
      WellFormedCons(nodes);
      AllOkAppend(NodeTaskPairs(nodes[0].1), TaskPairs(tail), TaskStep(readable));
    }
  }

  /** The listing holds one task per (node, task) pair, in iteration order:
      the `i`-th task is the `i`-th pair's task, transformed. */
  lemma {:induction false} NodesTasksPairs(nodes: Obj, readable: Json -> Result<string>)
    requires NodesTasks(nodes, readable).Ok?
    ensures Pointwise(TaskPairs(nodes), NodesTasks(nodes, readable).value, TaskStep(readable))
  {
    if nodes != [] {
      var tail := nodes[1..];
      NodeTasksAt(nodes[0].1, readable);
      NodesTasksPairs(tail, readable);
      PointwiseAppend(NodeTaskPairs(nodes[0].1), TaskPairs(tail),
                      NodeTasks(nodes[0].1, readable).value, NodesTasks(tail, readable).value, TaskStep(readable));
    }
  }

  /** Each listed task carries its own key as `name`, keeps an existing
      `parent_task_id` and otherwise shows an empty one. */
  lemma TaskListNames(response: Obj, readable: Json -> Result<string>, i: nat)
    requires TaskList(response, readable).Ok?
    requires i < |TaskPairs(Get(response, NODES).fields)|
    ensures var (name, task) := TaskPairs(Get(response, NODES).fields)[i];
            var listed := TaskList(response, readable).value[i];
            task.JObj? &&
            Lookup(listed, NAME) == Some(JStr(name)) &&
            (HasKey(task.fields, PARENT_TASK_ID) ==> Lookup(listed, PARENT_TASK_ID) == Lookup(task.fields, PARENT_TASK_ID)) &&
            (!HasKey(task.fields, PARENT_TASK_ID) ==> Lookup(listed, PARENT_TASK_ID) == Some(JStr("")))
  {
    var pairs := TaskPairs(Get(response, NODES).fields);
    NodesTasksPairs(Get(response, NODES).fields, readable);
    assert TaskStep(readable)(pairs[i]) == TaskEntry(pairs[i].0, pairs[i].1, readable);
    TaskEntryFields(pairs[i].0, pairs[i].1, readable, NAME);
  }

  /** A node that is not a dictionary, or whose `tasks` is not one, makes
      the listing fail. */
  lemma TaskListMalformed(response: Obj, readable: Json -> Result<string>, i: nat)
    requires Get(response, NODES).JObj? && i < |Get(response, NODES).fields|
    requires var node := Get(response, NODES).fields[i].1;
             !(node.JObj? && Get(node.fields, TASKS).JObj?)
    ensures TaskList(response, readable).Err?
  {
    NodesTasksOk(Get(response, NODES).fields, readable);
  }

  /** The listing has one row per task under the ten columns, and each cell
      is the task's value. */
  lemma TaskListing(tasks: seq<Obj>)
    ensures var listing := FormatForLister(tasks, TaskColumns);
            |listing.headers| == 10 && |listing.rows| == |tasks| &&
            forall i, j :: 0 <= i < |tasks| && 0 <= j < 10 ==>
              listing.rows[i][j] == Get(tasks[i], TaskColumns[j].id)
  {
  }
}

=== FILE: text.dfy ===
/** Python string operations used by the client, over `seq<char>`.
    Case mapping (`upper`, `lower`, `title`) is modelled for ASCII letters only;
    every other character is uncased and left as it is. */
module Text {

  // ---------------------------------------------------------------------------
  // Prefixes and substrings
  // ---------------------------------------------------------------------------

  /** Python `s.startswith(p)`. */
  predicate StartsWith(s: string, p: string) {
    |p| <= |s| && s[..|p|] == p
  }

  /** Python `p in s` for two strings. */
  predicate IsSubstring(p: string, s: string)
    decreases |s|
  {
    StartsWith(s, p) || (|s| > 0 && IsSubstring(p, s[1..]))
  }

  // ---------------------------------------------------------------------------
  // Replacement
  // ---------------------------------------------------------------------------

  /** Python `s.replace(a, b)` for single characters. */
  function ReplaceChar(s: string, a: char, b: char): (r: string)
    ensures |r| == |s|
  {
    if s == [] then [] else [if s[0] == a then b else s[0]] + ReplaceChar(s[1..], a, b)
  }

  /** Every occurrence of `a` becomes `b`; every other character stays. */
  lemma {:induction false} ReplaceCharAt(s: string, a: char, b: char)
    ensures forall i :: 0 <= i < |s| ==> ReplaceChar(s, a, b)[i] == (if s[i] == a then b else s[i])
  {
    if s != [] {
      ReplaceCharAt(s[1..], a, b);
    }
  }

  lemma {:induction false} ReplaceCharAppend(x: string, y: string, a: char, b: char)
    ensures ReplaceChar(x + y, a, b) == ReplaceChar(x, a, b) + ReplaceChar(y, a, b)
  {
    if x != [] {
      ReplaceCharAppend(x[1..], y, a, b);
      assert (x + y)[1..] == x[1..] + y;
    } else {
      assert x + y == y;
    }
  }

  lemma {:induction false} ReplaceCharAbsent(s: string, a: char, b: char)
    requires a !in s
    ensures ReplaceChar(s, a, b) == s
  {
    if s != [] {
      ReplaceCharAbsent(s[1..], a, b);
    }
  }

  /** Replacing the one `a` between two parts free of `a`. */
  lemma ReplaceCharBetween(x: string, y: string, a: char, b: char)
    requires a !in x && a !in y
    ensures ReplaceChar(x + [a] + y, a, b) == x + [b] + y
  {
    var xa := x + [a];
    ReplaceCharAppend(xa, y, a, b);
    ReplaceCharAppend(x, [a], a, b);
    ReplaceCharAbsent(x, a, b);
    ReplaceCharAbsent(y, a, b);
    assert ReplaceChar([a], a, b) == [b];
  }

  /** After replacing `a` by another character, `a` is gone. */
  lemma ReplaceCharRemoves(s: string, a: char, b: char)
    requires a != b
    ensures a !in ReplaceChar(s, a, b)
  {
    ReplaceCharAt(s, a, b);
  }

  /** Replacing keeps every character other than `a` and `b` where it was. */
  lemma ReplaceCharKeeps(s: string, a: char, b: char, c: char)
    requires c != a && c != b
    ensures c in ReplaceChar(s, a, b) <==> c in s
  {
    ReplaceCharAt(s, a, b);
    var r := ReplaceChar(s, a, b);
    if c in r {
      var i :| 0 <= i < |r| && r[i] == c;
      assert s[i] == c;
    }
    if c in s {
      var i :| 0 <= i < |s| && s[i] == c;
      assert r[i] == c;
    }
  }

  /** Python `s.replace(pat, rep)`: leftmost, non-overlapping occurrences. */
  function ReplaceAll(s: string, pat: string, rep: string): (r: string)
    requires |pat| > 0
    ensures |rep| <= |pat| ==> |r| <= |s|
    ensures |rep| == |pat| ==> |r| == |s|
    decreases |s|
  {
    if s == [] then []
    else if StartsWith(s, pat) then rep + ReplaceAll(s[|pat|..], pat, rep)
    else [s[0]] + ReplaceAll(s[1..], pat, rep)
  }

  /** Replacement introduces no character that is neither in `s` nor in `rep`. */
  lemma {:induction false} ReplaceAllChars(s: string, pat: string, rep: string, c: char)
    requires |pat| > 0
    requires c !in s && c !in rep
    ensures c !in ReplaceAll(s, pat, rep)
    decreases |s|
  {
    if s != [] {
      if StartsWith(s, pat) {
        ReplaceAllChars(s[|pat|..], pat, rep, c);
      } else {
        ReplaceAllChars(s[1..], pat, rep, c);
      }
    }
  }

  /** A string without the pattern is left as it is. */
  lemma {:induction false} ReplaceAllAbsent(s: string, pat: string, rep: string)
    requires |pat| > 0
    requires !IsSubstring(pat, s)
    ensures ReplaceAll(s, pat, rep) == s
    decreases |s|
  {
    if s != [] {
      ReplaceAllAbsent(s[1..], pat, rep);
    }
  }

  /** A string shorter than the pattern is left as it is. */
  lemma {:induction false} ReplaceAllShort(s: string, pat: string, rep: string)
    requires 0 < |pat| && |s| < |pat|
    ensures ReplaceAll(s, pat, rep) == s
    decreases |s|
  {
    if s != [] {
      ReplaceAllShort(s[1..], pat, rep);
    }
  }

  // ---------------------------------------------------------------------------
  // Split and join
  // ---------------------------------------------------------------------------

  /** Python `s.split(c)` with a one-character separator: always at least one
      piece, and `""` splits into `[""]`. */
  function Split(s: string, c: char): (r: seq<string>)
    ensures |r| >= 1
  {
    if s == [] then [""]
    else
      var rest := Split(s[1..], c);
      if s[0] == c then [""] + rest else [[s[0]] + rest[0]] + rest[1..]
  }

  /** Python `sep.join(parts)`. */
  function Join(parts: seq<string>, sep: string): (r: string)
    ensures |parts| > 0 ==> StartsWith(r, parts[0])
  {
    if |parts| == 0 then ""
    else if |parts| == 1 then parts[0]
    else parts[0] + sep + Join(parts[1..], sep)
  }

  /** No piece of a split contains the separator. */
  lemma {:induction false} SplitPiecesOmitSeparator(s: string, c: char)
    ensures forall i :: 0 <= i < |Split(s, c)| ==> c !in Split(s, c)[i]
  {
    if s != [] {
      SplitPiecesOmitSeparator(s[1..], c);
    }
  }

  /** Joining the pieces with the separator gives back the string. */
  lemma {:induction false} JoinSplit(s: string, c: char)
    ensures Join(Split(s, c), [c]) == s
  {
    if s != [] {
      var rest := Split(s[1..], c);
      JoinSplit(s[1..], c);
      if s[0] == c {
        assert Split(s, c) == [""] + rest;
      } else {
        var r := Split(s, c);
        assert r == [[s[0]] + rest[0]] + rest[1..];
        if |rest| == 1 {
          assert Join(r, [c]) == [s[0]] + rest[0];
        } else {
          assert r[1..] == rest[1..];
          assert Join(r, [c]) == [s[0]] + rest[0] + [c] + Join(rest[1..], [c]);
        }
      }
    }
  }

  /** Splitting a join whose pieces do not contain the separator gives back the pieces. */
  lemma {:induction false} SplitJoin(parts: seq<string>, c: char)
    requires |parts| >= 1
    requires forall i :: 0 <= i < |parts| ==> c !in parts[i]
    ensures Split(Join(parts, [c]), c) == parts
    decreases |parts|, |parts[0]|
  {
    if |parts| == 1 {
      SplitNoSeparator(parts[0], c);
    } else if parts[0] == [] {
      SplitJoin(parts[1..], c);
      assert Join(parts, [c]) == [c] + Join(parts[1..], [c]);
    } else {
      var p0 := parts[0];
      var shorter := [p0[1..]] + parts[1..];
      SplitJoin(shorter, c);
      var tail := Join(parts[1..], [c]);
      var joined := Join(shorter, [c]);
      assert shorter[1..] == parts[1..];
      assert joined == p0[1..] + [c] + tail;
      assert Join(parts, [c]) == p0 + [c] + tail;
      assert [p0[0]] + p0[1..] == p0;
      assert Join(parts, [c]) == [p0[0]] + joined;
      assert ([p0[0]] + joined)[1..] == joined;
      assert p0[0] != c by { assert p0[0] in parts[0]; }
    }
  }

  /** The first piece of a split is the text before the first separator. */
  lemma {:induction false} SplitFirst(x: string, y: string, c: char)
    requires c !in x
    ensures Split(x + [c] + y, c)[0] == x
  {
    if x == [] {
      assert x + [c] + y == [c] + y;
    } else {
      SplitFirst(x[1..], y, c);
      assert (x + [c] + y)[1..] == x[1..] + [c] + y;
      assert [x[0]] + x[1..] == x;
    }
  }

  lemma {:induction false} SplitNoSeparator(s: string, c: char)
    requires c !in s
    ensures Split(s, c) == [s]
  {
    if s != [] {
      SplitNoSeparator(s[1..], c);
      assert [s[0]] + s[1..] == s;
    }
  }

  // ---------------------------------------------------------------------------
  // ASCII case mapping
  // ---------------------------------------------------------------------------

  predicate IsUpper(c: char) { 'A' <= c <= 'Z' }
  predicate IsLower(c: char) { 'a' <= c <= 'z' }

  /** A cased character in the sense of Python's `str.title` (ASCII letters). */
  predicate IsLetter(c: char) { IsUpper(c) || IsLower(c) }

  function ToUpper(c: char): (r: char)
    ensures IsLetter(r) <==> IsLetter(c)
    ensures !IsLetter(c) ==> r == c
    ensures !IsLower(r)
  {
    if IsLower(c) then (c as int - 32) as char else c
  }

  function ToLower(c: char): (r: char)
    ensures IsLetter(r) <==> IsLetter(c)
    ensures !IsLetter(c) ==> r == c
    ensures !IsUpper(r)
  {
    if IsUpper(c) then (c as int + 32) as char else c
  }

  /** Python `s.upper()`. */
  function Upper(s: string): (r: string)
    ensures |r| == |s|
    ensures forall i :: 0 <= i < |s| ==> r[i] == ToUpper(s[i])
  {
    if s == [] then [] else [ToUpper(s[0])] + Upper(s[1..])
  }

  /** Python `s.title()`: a letter following a letter is lower-cased, any other
      letter is upper-cased; `prevCased` says whether the character before `s`
      was a letter. */
  function TitleFrom(s: string, prevCased: bool): string {
    if s == [] then []
    else [if prevCased then ToLower(s[0]) else ToUpper(s[0])] + TitleFrom(s[1..], IsLetter(s[0]))
  }

  /** Title-casing a concatenation: the second part starts from the casing
      state the first part leaves. */
  lemma {:induction false} TitleFromAppend(x: string, y: string, prevCased: bool)
    ensures TitleFrom(x + y, prevCased) ==
            TitleFrom(x, prevCased) + TitleFrom(y, if x == [] then prevCased else IsLetter(x[|x| - 1]))
  {
    if x != [] {
      var rest, p := x[1..], IsLetter(x[0]);
      var head := if prevCased then ToLower(x[0]) else ToUpper(x[0]);
      var after := IsLetter(x[|x| - 1]);
      TitleFromAppend(rest, y, p);
      assert (if rest == [] then p else IsLetter(rest[|rest| - 1])) == after;
      calc {
        TitleFrom(x + y, prevCased);
        == { assert (x + y)[0] == x[0]; assert (x + y)[1..] == rest + y; }
        [head] + TitleFrom(rest + y, p);
        ==
        [head] + TitleFrom(rest, p) + TitleFrom(y, after);
        ==
        TitleFrom(x, prevCased) + TitleFrom(y, after);
      }
    } else {
      assert x + y == y;
    }
  }

  /** Python `str.title()` on ASCII text: a letter that follows a letter is
      lower-cased, every other character is upper-cased. */
  function Title(s: string): (r: string)
    ensures TitleCased(s, r)
  {
    TitleFromPointwise(s, false);
    TitleFrom(s, false)
  }

  /** Pointwise meaning of `Title`: each character depends only on itself and on
      whether its predecessor is a letter. */
  predicate TitleCased(s: string, r: string) {
    && |r| == |s|
    && forall i :: 0 <= i < |s| ==>
         r[i] == (if i > 0 && IsLetter(s[i - 1]) then ToLower(s[i]) else ToUpper(s[i]))
  }

  lemma {:induction false} TitleFromPointwise(s: string, prevCased: bool)
    ensures |TitleFrom(s, prevCased)| == |s|
    ensures forall i :: 0 <= i < |s| ==>
      TitleFrom(s, prevCased)[i] ==
        (if (if i == 0 then prevCased else IsLetter(s[i - 1])) then ToLower(s[i]) else ToUpper(s[i]))
  {
    if s != [] {
      TitleFromPointwise(s[1..], IsLetter(s[0]));
      var r := TitleFrom(s, prevCased);
      forall i | 0 < i < |s|
        ensures r[i] == (if IsLetter(s[i - 1]) then ToLower(s[i]) else ToUpper(s[i]))
      {
        assert r[i] == TitleFrom(s[1..], IsLetter(s[0]))[i - 1];
      }
    }
  }

  /** `TitleCased` at one position. */
  lemma TitleAt(s: string, i: int)
    requires 0 <= i < |s|
    ensures |Title(s)| == |s|
    ensures Title(s)[i] == (if i > 0 && IsLetter(s[i - 1]) then ToLower(s[i]) else ToUpper(s[i]))
  {
    assert TitleCased(s, Title(s));
  }

  /** Title-casing keeps every non-letter in place. */
  lemma TitleKeepsNonLetters(s: string, c: char)
    requires !IsLetter(c)
    ensures c in Title(s) <==> c in s
  {
    var r := Title(s);
    if c in r {
      var i :| 0 <= i < |r| && r[i] == c;
      TitleAt(s, i);
      assert s[i] == c;
    }
    if c in s {
      var i :| 0 <= i < |s| && s[i] == c;
      TitleAt(s, i);
      assert r[i] == c;
    }
  }

  /** Title-casing is idempotent. */
  lemma TitleIdempotent(s: string)
    ensures Title(Title(s)) == Title(s)
  {
    var t := Title(s);
    forall i | 0 <= i < |t|
      ensures Title(t)[i] == t[i]
    {
      TitleAt(t, i);
      if i > 0 {
        TitleAt(s, i - 1);
        assert IsLetter(t[i - 1]) <==> IsLetter(s[i - 1]);
      }
    }
  }
}

=== FILE: users.dfy ===
/** The `security users get` command (esctl/cmd/users.py): the users of the
    native realm, in ascending order of user name, with their roles joined
    for display. */
module UserCommands {
  import opened Results
  import opened Json
  import opened Assoc
  import opened Commands
  import opened Formatter
  import Ordering
  import Text

  const ROLES: string := "roles"
  const ENABLED: string := "enabled"

  /** The six columns of the listing, all with derived labels. */
  const UserColumns: seq<ColumnArg> := [
    Tuple1("username"),
    Tuple1(ROLES),
    Tuple1("fullname"),
    Tuple1("email"),
    Tuple1("metadata"),
    Tuple1(ENABLED)
  ]

  /** One user of `SecurityUsersGet.transform`: its roles are joined with
      `", "`, and nothing else changes. A user that is not a dictionary has
      no `get`; roles that are not an iterable of strings do not join. */
  function UserEntry(user: (string, Json)): (r: Result<Obj>)
    ensures !user.1.JObj? ==> r == Err(AttributeError)
    ensures user.1.JObj? ==> (r.Ok? <==> PyJoin(", ", Get(user.1.fields, ROLES)).Ok?)
    ensures r.Ok? ==> Lookup(r.value, ROLES) == Some(JStr(PyJoin(", ", Get(user.1.fields, ROLES)).value))
    ensures r.Ok? ==> forall k :: k != ROLES ==> Lookup(r.value, k) == Lookup(user.1.fields, k)
    ensures r.Ok? ==> Keys(r.value) == if HasKey(user.1.fields, ROLES) then Keys(user.1.fields)
                                       else Keys(user.1.fields) + [ROLES]
  {
    match user.1
    case JObj(definition) =>
      var roles :- PyJoin(", ", Get(definition, ROLES));
      var r := Put(definition, ROLES, JStr(roles));
      assert forall k :: Lookup(r, k) == if k == ROLES then Some(JStr(roles)) else Lookup(definition, k) by {
        forall k ensures Lookup(r, k) == if k == ROLES then Some(JStr(roles)) else Lookup(definition, k) {
          PutLookup(definition, ROLES, JStr(roles), k);
        }
      }
      Ok(r)
    case _ => Err(AttributeError)
  }

  /** `SecurityUsersGet.take_action`'s rows: the response put in order,
      then every user transformed. */
  function UsersGet(response: Obj): (r: Result<seq<Obj>>)
    ensures r.Ok? ==> |r.value| == |SortAndOrder(response)|
  {
    MapResult(SortAndOrder(response), UserEntry)
  }

  /** A list of role names shows as the names separated by `", "`. */
  lemma UserRolesJoined(user: (string, Json), roles: seq<string>)
    requires user.1.JObj?
    requires Get(user.1.fields, ROLES) == JArr(seq(|roles|, k requires 0 <= k < |roles| => JStr(roles[k])))
    ensures UserEntry(user).Ok?
    ensures Lookup(UserEntry(user).value, ROLES) == Some(JStr(Text.Join(roles, ", ")))
  {
    var items := Get(user.1.fields, ROLES).items;
    assert forall k :: 0 <= k < |items| ==> items[k] == JStr(roles[k]);
    assert AllStrings(items).Ok?;
    var all := AllStrings(items).value;
    assert forall k :: 0 <= k < |roles| ==> JStr(all[k]) == items[k] == JStr(roles[k]);
    assert all == roles;
  }

  /** The rows come in ascending order of user name... */
  lemma UsersGetAscending(response: Obj, i: nat, j: nat)
    requires DistinctKeys(response) && UsersGet(response).Ok?
    requires i < j < |UsersGet(response).value|
    ensures var sorted := SortAndOrder(response);
            UserEntry(sorted[i]) == Ok(UsersGet(response).value[i]) &&
            Ordering.LexLess(sorted[i].0, sorted[j].0)
  {
    SortedRowsAscending(response, UserEntry, i, j);
  }

  /** ... every user of the response has its row, and the listing fails
      exactly when some user does not transform. */
  lemma UsersGetCover(response: Obj, name: string)
    requires DistinctKeys(response)
    ensures UsersGet(response).Ok? <==>
              forall i :: 0 <= i < |SortAndOrder(response)| ==> UserEntry(SortAndOrder(response)[i]).Ok?
    ensures UsersGet(response).Ok? && HasKey(response, name) ==>
              exists i :: 0 <= i < |UsersGet(response).value| &&
                          UserEntry((name, Lookup(response, name).value)) == Ok(UsersGet(response).value[i])
  {
    MapResultAt(SortAndOrder(response), UserEntry);
    if UsersGet(response).Ok? && HasKey(response, name) {
      SortedRowsCover(response, UserEntry, name);
    }
  }

  /** The listing has one row per user under the six columns, each cell the
      user's value; the `enabled` column is the last. */
  lemma UsersListing(users: seq<Obj>)
    ensures var listing := FormatForLister(users, UserColumns);
            |listing.headers| == 6 && |listing.rows| == |users| &&
            forall i :: 0 <= i < |users| ==> listing.rows[i][5] == Get(users[i], ENABLED)
  {
    assert UserColumns[5].id == ENABLED;
  }
}

=== FILE: utils.dfy ===
/** Terminal colours and `flatten_dict` (esctl/utils.py). */
module Utils {
  import opened Results
  import opened Assoc
  import opened Json
  import Text

  // ---------------------------------------------------------------------------
  // Color
  // ---------------------------------------------------------------------------

  const ESC: char := 27 as char

  const BLUE: string := [ESC] + "[94m"
  const BOLD: string := [ESC] + "[1m"
  const CYAN: string := [ESC] + "[96m"
  const DARKCYAN: string := [ESC] + "[36m"
  const END: string := [ESC] + "[0m"
  const GREEN: string := [ESC] + "[92m"
  const ITALIC: string := [ESC] + "[3m"
  const PURPLE: string := [ESC] + "[95m"
  const RED: string := [ESC] + "[91m"
  const UNDERLINE: string := [ESC] + "[4m"
  const YELLOW: string := [ESC] + "[93m"

  /** Python `getattr(Color, name)` for the colour attributes of `Color`;
      `None` stands for the `AttributeError` of any other name. */
  function ColorNamed(name: string): (r: Option<string>)
    ensures r.Some? ==> |r.value| >= 3 && r.value[0] == ESC
  {
    if name == "BLUE" then Some(BLUE)
    else if name == "BOLD" then Some(BOLD)
    else if name == "CYAN" then Some(CYAN)
    else if name == "DARKCYAN" then Some(DARKCYAN)
    else if name == "END" then Some(END)
    else if name == "GREEN" then Some(GREEN)
    else if name == "ITALIC" then Some(ITALIC)
    else if name == "PURPLE" then Some(PURPLE)
    else if name == "RED" then Some(RED)
    else if name == "UNDERLINE" then Some(UNDERLINE)
    else if name == "YELLOW" then Some(YELLOW)
    else None
  }

  /** Python `getattr(Color, value.upper())`: a value that is not a string has no
      `upper`, and one that names no colour has no attribute; both raise
      `AttributeError`. */
  function NamedColor(value: Json): (r: Result<string>)
    ensures r.Ok? <==> value.JStr? && ColorNamed(Text.Upper(value.s)).Some?
    ensures r.Ok? ==> r.value == ColorNamed(Text.Upper(value.s)).value
    ensures r.Err? ==> r.error == AttributeError
  {
    if value.JStr? && ColorNamed(Text.Upper(value.s)).Some? then
      Ok(ColorNamed(Text.Upper(value.s)).value)
    else
      Err(AttributeError)
  }

  /** The three cluster health values name colours once upper-cased. */
  lemma GreenColor()
    ensures NamedColor(JStr("green")) == Ok(GREEN)
  {
    var name := Text.Upper("green");
    assert name == "GREEN";
    assert name[0] == 'G';
  }

  lemma YellowColor()
    ensures NamedColor(JStr("yellow")) == Ok(YELLOW)
  {
    var name := Text.Upper("yellow");
    assert name == "YELLOW";
    assert name[0] == 'Y';
  }

  lemma RedColor()
    ensures NamedColor(JStr("red")) == Ok(RED)
  {
    var name := Text.Upper("red");
    assert name == "RED";
    assert name[0] == 'R';
  }

  /** Python `Color.colorize(text, color)`: the text (through `str()`) between
      the colour code and the reset code. */
  function Colorize(text: Json, color: string): (r: string)
    ensures |r| == |color| + |ToText(text)| + |END|
    ensures r[..|color|] == color
    ensures r[|color|..|r| - |END|] == ToText(text)
    ensures r[|r| - |END|..] == END
  {
    color + ToText(text) + END
  }

  /** `Colorize` of a string value. */
  function ColorizeStr(text: string, color: string): (r: string)
    ensures r == Colorize(JStr(text), color)
  {
    color + text + END
  }

  /** The colour and the text can be read back from a colourised string. */
  lemma ColorizeInjective(a: Json, b: Json, color: string)
    requires Colorize(a, color) == Colorize(b, color)
    ensures ToText(a) == ToText(b)
  {
    var r := Colorize(a, color);
    assert ToText(a) == r[|color|..|r| - |END|];
  }

  /** `d[key] = Color.colorize(d.get(key), color)`: the key keeps its place,
      or is appended when it was missing, and nothing else changes. */
  function ColorKey(d: Obj, key: string, color: string): (r: Obj)
    ensures Keys(r) == if HasKey(d, key) then Keys(d) else Keys(d) + [key]
    ensures Lookup(r, key) == Some(JStr(Colorize(Get(d, key), color)))
    ensures forall k :: k != key ==> Lookup(r, k) == Lookup(d, k)
  {
    var colored := JStr(Colorize(Get(d, key), color));
    forall k ensures Lookup(Put(d, key, colored), k) == if k == key then Some(colored) else Lookup(d, k) {
      PutLookup(d, key, colored, k);
    }
    Put(d, key, colored)
  }

  /** Colouring an existing key replaces its value where it stands. */
  lemma ColorKeyAt(d: Obj, i: nat, color: string)
    requires DistinctKeys(d) && i < |d|
    ensures ColorKey(d, d[i].0, color) == d[i := (d[i].0, JStr(Colorize(d[i].1, color)))]
  {
    var entry := (d[i].0, JStr(Colorize(d[i].1, color)));
    LookupAt(d, i);
    assert ColorKey(d, d[i].0, color) == Put(d, d[i].0, entry.1);
    PutAt(d, i, entry.1);
    SpliceIsUpdate(d, i, entry);
  }

  // ---------------------------------------------------------------------------
  // flatten_dict
  // ---------------------------------------------------------------------------

  /** No value is itself an object. */
  predicate NoObjects(ps: seq<(string, Json)>) {
    forall j :: 0 <= j < |ps| ==> !ps[j].1.JObj?
  }

  /** The pairs of `ps` with `key + "."` in front of every key. */
  function Prefixed(key: string, ps: seq<(string, Json)>): (r: seq<(string, Json)>)
    ensures |r| == |ps|
    ensures forall j :: 0 <= j < |ps| ==> r[j] == (key + "." + ps[j].0, ps[j].1)
  {
    if ps == [] then [] else [(key + "." + ps[0].0, ps[0].1)] + Prefixed(key, ps[1..])
  }

  /** Python `flatten_dict(d)`: nested objects are replaced by their own
      flattened entries under `key.child`; then `dict(items)` keeps the last
      value of a repeated key at the position of its first occurrence. */
  function FlattenDict(d: Obj): (r: Obj)
    ensures DistinctKeys(r)
    ensures NoObjects(r)
    ensures forall k :: Lookup(r, k) == LastLookup(Items(d, 0), k)
    decreases JObj(d), 1, 0
  {
    var items := Items(d, 0);
    var r := FromPairs(items);
    forall j | 0 <= j < |r|
      ensures !r[j].1.JObj?
    {
      PutAllMembers([], items, r[j]);
      var m :| 0 <= m < |items| && items[m] == r[j];
    }
    r
  }

  /** The items of `d[i..]`, each entry expanded, before `dict()` is applied. */
  function Items(d: Obj, i: nat): (r: seq<(string, Json)>)
    requires i <= |d|
    ensures NoObjects(r)
    decreases JObj(d), 0, |d| - i
  {
    if i == |d| then [] else Expand(d[i].0, d[i].1) + Items(d, i + 1)
  }

  /** The inner `expand(key, value)`: an object becomes its flattened entries
      under `key.`, anything else (lists included) stays a single pair. */
  function Expand(key: string, v: Json): (r: seq<(string, Json)>)
    ensures NoObjects(r)
    ensures !v.JObj? ==> r == [(key, v)]
    ensures v.JObj? ==> forall j :: 0 <= j < |r| ==> '.' in r[j].0
    decreases v, 2, 0
  {
    match v
    case JObj(f) =>
      var r := Prefixed(key, FlattenDict(f));
      forall j | 0 <= j < |r|
        ensures '.' in r[j].0
      {
        assert r[j].0[|key|] == '.';
      }
      r
    case _ => [(key, v)]
  }

  /** Where the items of one entry sit among the items of the whole object. */
  lemma {:induction false} ItemsHas(d: Obj, i: nat, m: nat, p: (string, Json))
    requires i <= m < |d|
    requires p in Expand(d[m].0, d[m].1)
    ensures p in Items(d, i)
    decreases |d| - i
  {
    var here := Expand(d[i].0, d[i].1);
    var rest := Items(d, i + 1);
    assert Items(d, i) == here + rest;
    if i < m {
      ItemsHas(d, i + 1, m, p);
      assert p in rest;
    } else {
      assert p in here;
    }
  }

  /** Items keep keys without a dot only from top-level, non-object entries. */
  lemma {:induction false} ItemsPlainKey(d: Obj, i: nat, k: string)
    requires i <= |d|
    requires '.' !in k
    requires HasKey(Items(d, i), k)
    ensures exists m :: i <= m < |d| && d[m].0 == k && !d[m].1.JObj?
    decreases |d| - i
  {
    var here := Expand(d[i].0, d[i].1);
    var rest := Items(d, i + 1);
    assert Items(d, i) == here + rest;
    KeysAppend(here, rest);
    if HasKey(here, k) {
      var j :| 0 <= j < |here| && here[j].0 == k;
      assert !d[i].1.JObj?;
    } else {
      ItemsPlainKey(d, i + 1, k);
    }
  }

  lemma {:induction false} ItemsTopLevel(d: Obj, i: nat, j: nat, k: string, v: Json)
    requires DistinctKeys(d)
    requires i <= j < |d| && d[j] == (k, v)
    requires '.' !in k && !v.JObj?
    ensures LastLookup(Items(d, i), k) == Some(v)
    decreases |d| - i
  {
    var here := Expand(d[i].0, d[i].1);
    var rest := Items(d, i + 1);
    LastLookupAppend(here, rest, k);
    if HasKey(rest, k) {
      ItemsPlainKey(d, i + 1, k);
      var m :| i + 1 <= m < |d| && d[m].0 == k && !d[m].1.JObj?;
      assert m == j;
      ItemsTopLevel(d, i + 1, j, k, v);
    } else {
      if i < j {
        ItemsHas(d, i + 1, j, (k, v));
        assert false;
      }
      assert here == [(k, v)];
    }
  }

  /** A top-level entry whose key has no dot and whose value is not an object
      (a list included) keeps its key and value. */
  lemma FlattenKeepsPlainEntry(d: Obj, k: string, v: Json)
    requires DistinctKeys(d)
    requires (k, v) in d && '.' !in k && !v.JObj?
    ensures Lookup(FlattenDict(d), k) == Some(v)
  {
    var j :| 0 <= j < |d| && d[j] == (k, v);
    ItemsTopLevel(d, 0, j, k, v);
  }

  /** A nested entry shows up under `parent.child`. */
  lemma FlattenHasNestedKey(d: Obj, k: string, f: Obj, c: string)
    requires (k, JObj(f)) in d
    requires HasKey(FlattenDict(f), c)
    ensures HasKey(FlattenDict(d), k + "." + c)
  {
    var key := k + "." + c;
    var m :| 0 <= m < |d| && d[m] == (k, JObj(f));
    var inner := FlattenDict(f);
    var j :| 0 <= j < |inner| && Keys(inner)[j] == c;
    var p := (key, inner[j].1);
    assert Expand(k, JObj(f))[j] == p;
    ItemsHas(d, 0, m, p);
    var items := Items(d, 0);
    var n :| 0 <= n < |items| && items[n] == p;
    assert Keys(items)[n] == key;
    assert LastLookup(items, key).Some?;
    assert Lookup(FlattenDict(d), key).Some?;
  }

  lemma {:induction false} ItemsAppend(a: Obj, b: Obj, i: nat)
    requires i <= |a|
    ensures Items(a + b, i) == Items(a, i) + Items(b, 0)
    decreases |a| - i
  {
    if i < |a| {
      ItemsAppend(a, b, i + 1);
      assert (a + b)[i] == a[i];
    } else {
      ItemsShift(a, b, 0);
    }
  }

  lemma {:induction false} ItemsShift(a: Obj, b: Obj, i: nat)
    requires i <= |b|
    ensures Items(a + b, |a| + i) == Items(b, i)
    decreases |b| - i
  {
    if i < |b| {
      ItemsShift(a, b, i + 1);
      assert (a + b)[|a| + i] == b[i];
    }
  }

  /** An empty nested object contributes nothing. */
  lemma FlattenEmptyNested(a: Obj, k: string, b: Obj)
    ensures FlattenDict(a + [(k, JObj([]))] + b) == FlattenDict(a + b)
  {
    var e: Obj := [(k, JObj([]))];
    var ia, ib := Items(a, 0), Items(b, 0);
    assert Items(e, 0) == [] by {
      assert FlattenDict([]) == [] by {
        assert Items([], 0) == [];
      }
      assert Items(e, 0) == Expand(k, JObj([])) + Items(e, 1);
    }
    ItemsAppend(a, e, 0);
    assert Items(a + e, 0) == ia by { assert ia + [] == ia; }
    ItemsAppend(a + e, b, 0);
    ItemsAppend(a, b, 0);
    assert Items(a + e + b, 0) == Items(a + b, 0);
  }

  /** Without nested objects, a dictionary is already flat. */
  lemma FlattenFlat(d: Obj)
    requires DistinctKeys(d) && NoObjects(d)
    ensures FlattenDict(d) == d
  {
    ItemsPlain(d, 0);
    assert d[0..] == d;
    FromPairsDistinct(d);
  }

  lemma {:induction false} ItemsPlain(d: Obj, i: nat)
    requires i <= |d| && NoObjects(d)
    ensures Items(d, i) == d[i..]
    decreases |d| - i
  {
    if i < |d| {
      ItemsPlain(d, i + 1);
      assert d[i..] == [d[i]] + d[i + 1..];
    }
  }

  /** The flattened keys come in the order the items first give them, so
      a key given twice stays where it first appeared; its value is the
      last one given (`FlattenDict`). */
  lemma FlattenKeyOrder(d: Obj)
    ensures Keys(FlattenDict(d)) == FirstKeys(Items(d, 0))
  {
    FromPairsKeys(Items(d, 0));
  }

  /** One collision: `a.b` and the nested `a: {b}` share a key; the later
      value wins, at the earlier position. */
  lemma FlattenLaterWins()
    ensures FlattenDict([("a.b", JInt(1)), ("a", JObj([("b", JInt(2))]))]) == [("a.b", JInt(2))]
  {
    var inner: Obj := [("b", JInt(2))];
    FlattenFlat(inner);
    var d: Obj := [("a.b", JInt(1)), ("a", JObj(inner))];
    assert "a" + "." + "b" == "a.b";
    assert Prefixed("a", inner) == [("a.b", JInt(2))];
    assert Expand("a", JObj(inner)) == [("a.b", JInt(2))];
    assert Items(d, 2) == [];
    assert Items(d, 1) == [("a.b", JInt(2))];
    assert Items(d, 0) == [("a.b", JInt(1)), ("a.b", JInt(2))];
    var items := Items(d, 0);
    assert PutAll([], items[..1]) == [("a.b", JInt(1))];
    assert items[..1] == [("a.b", JInt(1))];
  }
}
